=== FILE: README.md ===
# Nethgui core, modelled in Dafny

A model of the sequential logic at the heart of the Nethgui PHP
administration framework, with proofs of what that logic promises:

- **ScalarAdapter** (`adapter.dfy`). A parameter bound to one property of
  one record. It reads lazily through an `ArrayAccessSerializer`, at most
  once, and tracks whether a `set` changed the value. `save` writes back
  only a modified value.
- **ArrayAccessSerializer** (`serializer.dfy`). Read-modify-write of one
  property of one record in a keyed table. The table is a map from record
  key to a map from property to PHP value.
- **Client view** (`view.dfy`, `url.dfy`, `module_tree.dfy`).
  - The view's data is an ordered PHP array. A NULL offset appends to it.
  - `spawnView` can register the spawned child view.
  - `copyFrom` copies entries in.
  - The module path is memoised and bounded by a watchdog. Unique ids are
    built from it.
  - `buildUrl` normalises the path: `.`, `..`, falsy segments and `#fragment`.
- **ModuleLoader** (`module_loader.dfy`).
  - `getModule` is memoised and looks through namespaces from the newest one
    back.
  - New instances are announced to the instantiate callbacks.
  - `fillCache` discovers modules in bulk, in forward order.
  - `getIterator` fills the cache once.
- **ListComposite** (`list_composite.dfy`). Fans the `bind`, `validate` and
  `process` phases out to the request-handling children. `prepareView`
  gives every child a registered view.
- **Help\Common** (`help_common.dfy`).
  - The file name of a help request gives the module identifier.
  - The help document is looked up by locale, then by language, then in
    English.
  - `INCLUDE` directives are guarded: no `/`, only `.rst`/`.html` files, each
    file at most once.
- **TemplateRenderer** (`template_renderer.dfy`).
  - The default flags are inherited by OR.
  - The class of a dialog is built from its flags.
  - `elementList` adds its standard buttons automatically.
  - `console` and `dateInput` are specialised factories.

## How PHP is modelled

- **PHP version.** Comparisons follow PHP 7, the version the code was written
  for (`each()` is still used).
  - `0 == ''` holds.
  - The falsy strings are `''` and `'0'`.
  - `!==` is structural inequality on `Php.Value`.
- **PHP arrays** (`phparray.dfy`).
  - An array is an ordered sequence of unique keys plus the next free
    integer key. `unset` never lowers that key.
  - A string key in canonical decimal form becomes an integer key.
- **State.** Objects with state (the adapter, the loader, the view) are
  immutable records. Each operation returns the new record.
  - Views are values, so a registered child is a copy. `prepareView` stores
    the child's prepared view.
  - Class instantiation yields a fresh token.
  - Callback notifications are kept as a trace.
- **Flag words.** A flag word is the set of its flags: `|` is union and `&`
  is intersection.
- **Inputs.** These become parameters:
  - what `class_exists`, `scandir`, `glob`, `file_exists` and the file-name
    resolver would answer;
  - the constants `NETHGUI_BASEURL`, `NETHGUI_CONTROLLER` and
    `NETHGUI_INHERITABLE_FLAGS`.

## Model

| member | source | states |
|---|---|---|
| ScalarAdapter.New | NethGui/Adapter/ScalarAdapter.php:15-26 | A new adapter has loaded nothing and is not modified. |
| ScalarAdapter.Get | NethGui/Adapter/ScalarAdapter.php:33-40 | The first call reads through the serializer once and returns what it read. Later calls return the cached value and make no serializer call. The modified flag is untouched. |
| ScalarAdapter.Set | NethGui/Adapter/ScalarAdapter.php:42-53 | Loads lazily, with exactly one read when unloaded. Stores the value. The adapter is dirty afterwards exactly when it was dirty before or the value differs (`!==`) from the cached one. |
| ScalarAdapter.Delete | NethGui/Adapter/ScalarAdapter.php:28-31 | Behaves like `set(NULL)`: the value becomes NULL, and the adapter is dirty exactly as `set(NULL)` would make it. |
| ScalarAdapter.Save | NethGui/Adapter/ScalarAdapter.php:60-70 | A clean adapter returns 0 with no write and no change. A dirty adapter writes its cached value exactly once, keeps that value, clears the flag and returns 1. The new table is exactly the serializer's write of that value, so it reads back that value. A serializer without a key fails. |
| ScalarAdapter.SaveIsolated | NethGui/Adapter/ScalarAdapter.php:60-70 | A save leaves unchanged what a serializer on another record or another prop reads. |
| ScalarAdapter.SaveTwice | NethGui/Adapter/ScalarAdapter.php:60-70 | Right after a successful save, a second save returns 0 and performs no write. |
| ScalarAdapter.ReadsAtMostOnce | NethGui/Adapter/ScalarAdapter.php:33-53 | Over any sequence of get/set/delete/save calls the serializer is read at most once, and never if the adapter was already loaded (no re-read after save). |
| ScalarAdapter.WritesOnlyBySave | NethGui/Adapter/ScalarAdapter.php:60-70 | Over any call sequence the number of writes is at most the number of save calls. |
| ScalarAdapter.RunKeepsCoherent | NethGui/Adapter/ScalarAdapter.php:33-70 | If the table changes only through the adapter, a loaded clean adapter always holds what the table holds, after any call sequence. |
| ScalarAdapter.DirtyOnlyBySet | NethGui/Adapter/ScalarAdapter.php:55-58 | Gets and saves alone never make a clean adapter modified. |
| ArrayAccessSerializer.New | Nethgui/Serializer/ArrayAccessSerializer.php:23-33 | Construction fails exactly for a prop that is NULL, FALSE, or loosely equal to `''` (`''` and 0). Otherwise the prop name is non-empty, and a string prop is kept as given. |
| ArrayAccessSerializer.Read | Nethgui/Serializer/ArrayAccessSerializer.php:35-46 | NULL for a missing key, and NULL for a record without the prop. Otherwise the record's value for the prop. |
| ArrayAccessSerializer.Write | Nethgui/Serializer/ArrayAccessSerializer.php:48-63 | Fails exactly when the key is missing. A new key gets a record holding only the prop. For an existing key only that prop changes. Every other key and every sibling prop is kept. |
| ArrayAccessSerializer.WriteThenRead | Nethgui/Serializer/ArrayAccessSerializer.php:35-63 | Reading after writing v returns v. |
| ArrayAccessSerializer.WriteIsolated | Nethgui/Serializer/ArrayAccessSerializer.php:48-63 | A write leaves what every serializer on another key or prop reads unchanged. |
| PhpArray.KeyOfInjective | Nethgui/Client/View.php:115-122 | Distinct string offsets never land on the same array key, even though canonical integer strings become integer keys. |
| ClientView.NewView | Nethgui/Client/View.php:58-66 | A new view belongs to its module, has no data and no memoised path. |
| ClientView.OffsetExists | Nethgui/Client/View.php:101-104 | True exactly when some entry carries the key the offset maps to. |
| ClientView.OffsetGet | Nethgui/Client/View.php:106-113 | The stored entry when the key exists, NULL otherwise. |
| ClientView.OffsetSet | Nethgui/Client/View.php:115-122 | A NULL offset appends under the next free integer key, which was unused. Any other offset overwrites its key, keeping the key order when the key existed and adding it last when it did not. Every other key keeps its entry. |
| ClientView.OffsetUnset | Nethgui/Client/View.php:124-127 | The offset no longer exists and reads as NULL. Every other key keeps its entry. |
| ClientView.SetThenGet | Nethgui/Client/View.php:106-122 | After setting an offset, it exists and reads back what was set. |
| ClientView.SetThenUnset | Nethgui/Client/View.php:115-127 | Setting then unsetting an offset gives the same contents as unsetting it alone. |
| ClientView.AppendNotAtNullOffset | Nethgui/Client/View.php:101-122 | Appending through a NULL offset does not create the entry that a later NULL-offset read finds (that read looks at key `''`). |
| ClientView.CopyFrom | Nethgui/Client/View.php:68-73 | After the copy, every source key holds the source's entry and every other key is as it was. |
| ClientView.SpawnView | Nethgui/Client/View.php:85-94 | The child is a fresh view of the given module. With TRUE it is stored under the module's identifier, with a string under that string, otherwise the parent is unchanged. |
| ClientView.SpawnRegistersChild | Nethgui/Client/View.php:85-94 | A child spawned with TRUE can be read back from the parent under the module's identifier. |
| ModuleTree.ModulePathWalk | Nethgui/Client/View.php:149-158 | The walk succeeds exactly when the parent chain ends within 20 hops. It then yields the identifiers from the root down to the module (1 to 20 of them). Otherwise it stops after 20 identifiers. |
| ModuleTree.CycleTripsWatchdog | Nethgui/Client/View.php:152-155 | A cyclic parent chain always trips the watchdog. |
| ModuleTree.Lineage | Nethgui/Client/View.php:149-158 | On a chain that ends, gives the root-to-module identifiers with no watchdog. |
| ModuleTree.LineageIsModulePath | Nethgui/Client/View.php:144-162 | Where the watched walk succeeds, it agrees with the unbounded lineage. |
| ClientView.GetModulePath | Nethgui/Client/View.php:144-162 | As written: a memoised path is returned as it is. Otherwise the walk's identifiers are cached, even when the walk throws, and the call succeeds exactly when the chain ends within 20 hops. On success it returns the identifiers from the root down to the view's module (1 to 20 of them) and caches that path. |
| ClientView.GetModulePathAgrees | Nethgui/Client/View.php:144-162 | On a view with no cached path whose chain ends after n modules (n at most 20), the code as written and the intended cache give the same result: the n root-first identifiers, cached. |
| ClientView.GetModulePathChecked | Nethgui/Client/View.php:144-162 | As intended: on success the path is the root-to-module identifiers and is memoised. On failure nothing is cached. |
| ClientView.ModulePathMemoised | Nethgui/Client/View.php:144-162 | A second call returns exactly what the first returned, without walking again. |
| ClientView.PartialPathCachedOnCycle | Nethgui/Client/View.php:146-158 | On a module that is its own parent, the first call throws. The second call then returns a 20-element path that is not the module's path. |
| ClientView.CycleFailsEveryCall | Nethgui/Client/View.php:146-158 | With the corrected cache, a cyclic module fails on every call and caches nothing. |
| ClientView.UniqueId | Nethgui/Client/View.php:164-181 | With empty parts, the id is the path joined by `_`. Otherwise the id starts with the joined path, then `_`, then the parts character by character with every `/` turned into `_`. |
| ClientView.UniqueIdJoinsString | Nethgui/Client/View.php:164-181 | For a non-empty path and a truthy string, the id is the path followed by the string's `/`-separated pieces, all joined by `_`. |
| ClientView.UniqueIdJoinsList | Nethgui/Client/View.php:164-181 | For a non-empty path and a non-empty array of items without `/`, the id is the path followed by the items, all joined by `_`. |
| ClientView.UniqueIdSplitsString | Nethgui/Client/View.php:164-181 | Splitting an id built from a string on `_` gives the path followed by the string's `/`-separated pieces. |
| ClientView.UniqueIdSplitsList | Nethgui/Client/View.php:164-181 | Splitting an id built from an array on `_` gives the path followed by the array. |
| ClientView.GetUniqueId | Nethgui/Client/View.php:164-168 | As written, over the path cache that keeps a partial path: fails exactly when getModulePath fails, otherwise the id is built from the path it returns. |
| ClientView.GetUniqueIdFirstCall | Nethgui/Client/View.php:144-168 | On a view with no cached path whose chain ends after n modules (n at most 20), the first call as written builds the id from the n root-first identifiers and agrees with the intended one. |
| ClientView.GetUniqueIdChecked | Nethgui/Client/View.php:164-168 | The same over the corrected path cache. |
| ClientView.UniqueIdAfterCycle | Nethgui/Client/View.php:146-168 | On a module that is its own parent, the code as written fails once and then builds an id from the 20-element partial path; with the corrected cache both calls fail. |
| Url.Normalize | Nethgui/Client/View.php:205-221 | The kept segments contain no `.`, no falsy segment, no `#` segment and no `/`, and `..` appears only first. The fragment is the last `#` slice. |
| Url.DotDotCancels | Nethgui/Client/View.php:210-214 | A `..` right after an ordinary segment cancels it. |
| Url.NormalizeDropsEmpty | Nethgui/Client/View.php:207-210 | Inserting a `.` or falsy segment anywhere leaves the result unchanged. |
| Url.NormalizeKeepsPlain | Nethgui/Client/View.php:207-221 | An ordinary segment at the end is appended to the kept segments. |
| Url.NormalizePopsPlain | Nethgui/Client/View.php:207-221 | An ordinary segment followed by `..` at the end leaves the result as it was before both. |
| Url.NormalizeDotDot | Nethgui/Client/View.php:207-221 | A `..` at the end pops the last kept segment. When no segment is kept, it is kept itself. The fragment is unchanged. |
| Url.NormalizeTakesFragment | Nethgui/Client/View.php:207-218 | A `#` segment at the end replaces the fragment and keeps the segments. |
| Url.NormalizeIdempotent | Nethgui/Client/View.php:205-221 | Normalising normalised segments changes nothing. |
| Url.BuildUrl | Nethgui/Client/View.php:195-235 | The URL is the base, then the controller (when truthy) and the normalised segments joined by `/`, then `?query` when a query is given, then the last fragment. |
| Url.UrlPathRoundTrip | Nethgui/Client/View.php:195-235 | Without query or fragment, the path part of the URL splits on `/` back into exactly the controller and the normalised segments. |
| Url.ModuleUrl | Nethgui/Client/View.php:242-266 | For a parent chain that ends after n modules, the module URL is built without a query. Its path is the n identifiers, root first, then the given path (a string wrapped as one element). This agrees with the watched module path wherever that succeeds. |
| Url.DotAndDotDotExample | Nethgui/Client/View.php:207-221 | `x/./y/../z` normalises to `x/z`. |
| Url.LeadingDotDotExample | Nethgui/Client/View.php:210-220 | A leading `..` is kept, and a second `..` pops it. |
| Url.FragmentNormalizeExample | Nethgui/Client/View.php:207-221 | A `#top` slice is taken out as the fragment, and a `0` slice is dropped. |
| Url.FragmentBetween | Nethgui/Client/View.php:207-221 | A `#` slice between two ordinary segments leaves the path and becomes the fragment. |
| Url.FragmentAfterQuery | Nethgui/Client/View.php:215-234 | A fragment in the middle of the path is moved after the query string. |
| ModuleLoader.NewLoader | Nethgui/Module/ModuleLoader.php:58-65 | A new loader has an empty cache, no callbacks, and has not been filled. |
| ModuleLoader.AddInstantiateCallback | Nethgui/Module/ModuleLoader.php:183-187 | Appends the callback and changes nothing else. |
| ModuleLoader.Notify | Nethgui/Module/ModuleLoader.php:189-194 | Each callback is called once, in registration order, with the instance. |
| ModuleLoader.NotifyAppend | Nethgui/Module/ModuleLoader.php:183-194 | A callback added last is notified last, after the earlier ones. |
| ModuleLoader.CallbackHearsNewModule | Nethgui/Module/ModuleLoader.php:129-137 | After addInstantiateCallback, the next instance getModule creates is announced to the earlier callbacks and then to the new one. |
| ModuleLoader.AnnouncementsOrder | Nethgui/Module/ModuleLoader.php:97-104 | For a run of new instances, the i-th is announced to the j-th callback at position i times the number of callbacks plus j, and there is nothing else. |
| ModuleLoader.Resolve | Nethgui/Module/ModuleLoader.php:119-140 | Namespaces are tried from the last registered back. The result is the newest namespace whose class exists. A namespace named falsy stops the search. |
| ModuleLoader.ResolveNewestWins | Nethgui/Module/ModuleLoader.php:129-140 | Any namespace providing the class is at or before the chosen one. |
| ModuleLoader.GetModule | Nethgui/Module/ModuleLoader.php:111-157 | A cached identifier returns the same instance with no change. A miss fails with the identifier exactly when no namespace provides the class, and then caches nothing. Otherwise the new instance gets a fresh token and the winning namespace's class. It is announced to every callback in order, appended to the cache, and every other entry is kept. |
| ModuleLoader.GetModuleMemoised | Nethgui/Module/ModuleLoader.php:115-137 | A second getModule for the identifier returns the identical instance, whatever the environment. |
| ModuleLoader.GetModuleFresh | Nethgui/Module/ModuleLoader.php:133-137 | A new instance is distinct from every cached and every previously announced one. |
| ModuleLoader.FillFiles | Nethgui/Module/ModuleLoader.php:91-106 | Every listed module file whose identifier is not cached gets that namespace's class. Cached identifiers and unlisted ones are left alone. |
| ModuleLoader.FillFilesAnnounces | Nethgui/Module/ModuleLoader.php:97-104 | The instances the inner loop creates are appended to the cache, and each is announced to every callback, in caching order, with nothing else notified. |
| ModuleLoader.FillFilesOutcome | Nethgui/Module/ModuleLoader.php:91-104 | The inner loop fails exactly when a listed module file names an uncached identifier whose class is missing, and the error names such a class. |
| ModuleLoader.FillNamespacesAnnounces | Nethgui/Module/ModuleLoader.php:77-106 | Across all namespaces, every instance cached is announced in caching order. |
| ModuleLoader.FillNamespacesOutcome | Nethgui/Module/ModuleLoader.php:77-106 | The loop succeeds exactly when every namespace but `Nethgui` has a listable module directory and every uncached identifier's class exists in the first namespace listing it. A missing class is reported as that first provider's class for some uncached identifier. |
| ModuleLoader.FillStopsAtUnlistedDir | Nethgui/Module/ModuleLoader.php:77-89 | The first namespace whose module directory cannot be listed, reached before any missing class, ends the fill with that directory's error. |
| ModuleLoader.FillFirstProviderWins | Nethgui/Module/ModuleLoader.php:77-106 | In bulk mode the first namespace, in forward order and skipping `Nethgui`, that lists an identifier provides its class. |
| ModuleLoader.FillCache | Nethgui/Module/ModuleLoader.php:75-109 | Fills from every namespace and keeps the existing entries. Success marks the cache filled; a failure leaves the flag as it was and keeps what was cached before it. |
| ModuleLoader.FillCacheAnnounces | Nethgui/Module/ModuleLoader.php:75-109 | Whether or not it completes, the fill announces each instance it caches, in caching order; it succeeds exactly when every directory can be listed and every needed class exists. |
| ModuleLoader.GetIterator | Nethgui/Module/ModuleLoader.php:67-73 | A filled cache is iterated as it is. Otherwise it is filled first. |
| ModuleLoader.GetIteratorAnnounces | Nethgui/Module/ModuleLoader.php:67-73 | Iterating announces exactly the instances it caches, in caching order. |
| ModuleLoader.IteratorFillsOnce | Nethgui/Module/ModuleLoader.php:67-73 | After a successful iteration, the next one changes nothing and lists the same entries. |
| ModuleLoader.MissingDirectoryFails | Nethgui/Module/ModuleLoader.php:83-89 | A namespace whose module directory cannot be listed fails with that directory. |
| ListComposite.HandlerPositions | Nethgui/Controller/ListComposite.php:36-63 | The request-handling children, each once, in child order. |
| ListComposite.Bind | Nethgui/Controller/ListComposite.php:36-43 | Every request-handling child, and no other, is bound once, in child order, to the request spawned for its identifier. |
| ListComposite.Process | Nethgui/Controller/ListComposite.php:55-63 | Every request-handling child, and no other, is processed once, in child order. |
| ListComposite.ProcessMatchesBind | Nethgui/Controller/ListComposite.php:36-63 | process visits exactly the children bind visits, in the same order. |
| ListComposite.Validate | Nethgui/Controller/ListComposite.php:45-53 | The shared report only grows: what it held before stays as its prefix. |
| ListComposite.ValidateAppend | Nethgui/Controller/ListComposite.php:45-53 | Validating a list of children is validating its first part and then its rest with the same report. |
| ListComposite.ValidateReachesEveryHandler | Nethgui/Controller/ListComposite.php:45-53 | There is no early exit: each handler's violations appear in the report, in child order. |
| ListComposite.ValidateSkipsOthers | Nethgui/Controller/ListComposite.php:48-50 | Children that handle no request add nothing. |
| ListComposite.NextPath | Nethgui/Controller/ListComposite.php:65-68 | Always FALSE. |
| ListComposite.PrepareView | Nethgui/Controller/ListComposite.php:70-77 | Every child, handler or not, gets a view registered under its identifier. Keys that are not child identifiers are kept. The keys are the old ones in their order, followed by the child keys not yet present, each once, in child order. |
| ListComposite.PrepareOneKeys | Nethgui/Controller/ListComposite.php:72-75 | Registering a child appends its key when new and leaves the key order alone otherwise. |
| ListComposite.PrepareChildrenKeys | Nethgui/Controller/ListComposite.php:72-76 | The loop appends the new child keys in child order, each once. |
| ListComposite.PrepareViewKeyOrder | Nethgui/Controller/ListComposite.php:70-77 | With distinct identifiers not yet in the view, the keys are the old ones followed by the child keys in child order. |
| ListComposite.PrepareViewRegistersEveryChild | Nethgui/Controller/ListComposite.php:70-77 | With distinct identifiers, each child's key holds that child's prepared view. |
| HelpCommon.TargetIdentifierAsWritten | Nethgui/Module/Help/Common.php:65-76 | As written: 404 exactly when neither pattern matches anywhere in the name. Otherwise four characters are cut when the name ends in `rst`, five otherwise. |
| HelpCommon.TargetIdentifier | Nethgui/Module/Help/Common.php:65-76 | As intended: the identifier is the name without `.rst`/`.html`, and is a letter followed by letters or digits. Anything else is 404. |
| HelpCommon.TargetIdentifierRoundTrip | Nethgui/Module/Help/Common.php:65-76 | Every identifier is served under both `<id>.rst` and `<id>.html`. |
| HelpCommon.AsWrittenAgreesOnWellFormedNames | Nethgui/Module/Help/Common.php:67-76 | On well-formed names the code as written gives the intended identifier. |
| HelpCommon.UnanchoredPatternAcceptsStrayName | Nethgui/Module/Help/Common.php:67-76 | As written, `fooxrst` binds module `foo`, where the intended rule answers 404. |
| HelpCommon.UpperCaseExtensionCutsTooMuch | Nethgui/Module/Help/Common.php:67-76 | As written, `Ftp.RST` passes the pattern but binds `Ft`. |
| HelpCommon.Bind | Nethgui/Module/Help/Common.php:61-86 | As written: a name neither pattern matches is 404. Otherwise the identifier the as-written cut gives is fetched; an unknown module fails with the loader's error, and a found one is marked initialised, with initialize called exactly when it was not initialised before. |
| HelpCommon.BindChecked | Nethgui/Module/Help/Common.php:61-86 | The same with the corrected name rule: anything but `<identifier>.rst` or `<identifier>.html` is 404. |
| HelpCommon.BindModuleOnce | Nethgui/Module/Help/Common.php:76-85 | A second fetch of a bound module finds the same instance and does not initialise it again. |
| HelpCommon.BindInitializesOnce | Nethgui/Module/Help/Common.php:82-85 | A second bind of the same name finds the same module and does not initialise it again. |
| HelpCommon.BindCheckedInitializesOnce | Nethgui/Module/Help/Common.php:82-85 | The same for the corrected bind. |
| HelpCommon.BindStrayNames | Nethgui/Module/Help/Common.php:67-76 | As written, `fooxrst` binds module `foo` and `Ftp.RST` binds `Ft`; the corrected bind answers 404 to both. |
| HelpCommon.DocumentName | Nethgui/Module/Help/Common.php:104-108 | The document name is the class name's namespace parts joined by `_`, plus `.html`. |
| HelpCommon.Language | Nethgui/Module/Help/Common.php:107 | The first two characters of the locale, or all of it when it is shorter. |
| HelpCommon.Candidates | Nethgui/Module/Help/Common.php:110-120 | For each namespace in map order, the full-locale path and then the language path. |
| HelpCommon.FirstFrom | Nethgui/Module/Help/Common.php:110-120 | The first candidate that exists, or none when none exists. |
| HelpCommon.HelpDocumentPath | Nethgui/Module/Help/Common.php:102-124 | The first existing candidate in lookup order. When none exists, the English path under the last namespace. |
| HelpCommon.LocaleBeforeLanguage | Nethgui/Module/Help/Common.php:111-114 | An existing full-locale document in the first namespace is chosen. |
| HelpCommon.LanguageBeforeLaterNamespaces | Nethgui/Module/Help/Common.php:111-119 | Without it, an existing language document in the first namespace beats every later namespace. |
| HelpCommon.ReadPattern | Nethgui/Module/Help/Common.php:171-194 | A pattern containing `/` is refused. On success, every globbed file has a help extension and was read. Each file is read once, none that was already included, and all are marked as included. |
| HelpCommon.ReadFiles | Nethgui/Module/Help/Common.php:180-191 | A file without `.rst`/`.html` is refused before the included-set check. A file already included is refused. Otherwise each file is marked before it is read, and read once. |
| HelpCommon.ExpandPieces | Nethgui/Module/Help/Common.php:162-191 | Expanding a document's directives reads each file at most once, never one already included, and marks every file it reads. On success, no directive's pattern has a `/`, and every file each directive's pattern globs was read. |
| HelpCommon.IncludedPatternRefused | Nethgui/Module/Help/Common.php:162-191 | For any document and any included set: a directive whose pattern globs a file already included makes the whole expansion fail. |
| HelpCommon.SelfIncludeAlwaysRefused | Nethgui/Module/Help/Common.php:180-191 | For any help document not yet included: if one of its directives globs the document itself, reading it fails instead of recursing. |
| HelpCommon.RepeatedIncludeAlwaysRefused | Nethgui/Module/Help/Common.php:162-191 | For any document: two directives with a pattern that globs at least one file make the expansion fail. |
| HelpCommon.SelfIncludeRefused | Nethgui/Module/Help/Common.php:185-190 | Example: a document that is only a directive including itself is refused as already included. |
| HelpCommon.RepeatedIncludeRefused | Nethgui/Module/Help/Common.php:185-190 | Example: a document with two directives for the same existing file is refused as already included. |
| TemplateRenderer.NewRenderer | Nethgui/Renderer/TemplateRenderer.php:52-61 | The default flags are exactly the given flags that are also inheritable. |
| TemplateRenderer.SetDefaultFlags | Nethgui/Renderer/TemplateRenderer.php:111-120 | getDefaultFlags returns what setDefaultFlags stored. |
| TemplateRenderer.SetDefaultFlagsIsUnmasked | Nethgui/Renderer/TemplateRenderer.php:59-120 | The constructor drops a non-inheritable flag, but setDefaultFlags keeps it. |
| TemplateRenderer.Named | Nethgui/Renderer/TemplateRenderer.php:166-314 | button, hidden, inset, textInput, textLabel, progressBar and textArea create a childless widget of their own type with the name and their flags OR the defaults. |
| TemplateRenderer.Plain | Nethgui/Renderer/TemplateRenderer.php:220-260 | form, panel and tabs create a widget carrying only their flags OR the defaults. |
| TemplateRenderer.Valued | Nethgui/Renderer/TemplateRenderer.php:172-248 | checkBox, fieldsetSwitch and radioButton carry the name, the value, and the flags OR the defaults. |
| TemplateRenderer.Selector | Nethgui/Renderer/TemplateRenderer.php:250-254 | selector carries the name, the triangle icon, and the flags OR the defaults. |
| TemplateRenderer.ObjectPicker | Nethgui/Renderer/TemplateRenderer.php:332-336 | objectPicker is like selector, but a NULL name is stored as NULL. |
| TemplateRenderer.Fieldset | Nethgui/Renderer/TemplateRenderer.php:274-282 | fieldset has the triangle icon. It has a name attribute exactly when a name is given. |
| TemplateRenderer.Header | Nethgui/Renderer/TemplateRenderer.php:284-292 | header is an `h2` text label with the header classes. It has a name exactly when one is given. |
| TemplateRenderer.Literal | Nethgui/Renderer/TemplateRenderer.php:294-297 | literal keeps its flags as given, without the defaults. |
| TemplateRenderer.Columns | Nethgui/Renderer/TemplateRenderer.php:299-302 | columns has no attributes. |
| TemplateRenderer.FactoriesInheritDefaults | Nethgui/Renderer/TemplateRenderer.php:122-320 | Every factory except literal and columns carries both the default flags and its own flags. |
| TemplateRenderer.LiteralAndColumnsIgnoreDefaults | Nethgui/Renderer/TemplateRenderer.php:294-302 | literal and columns give the same widget whatever the default flags. |
| TemplateRenderer.InheritanceIdempotent | Nethgui/Renderer/TemplateRenderer.php:204-242 | Flags that already include the defaults give the same widget, as when dialog passes its flags on to panel. |
| TemplateRenderer.Buttons | Nethgui/Renderer/TemplateRenderer.php:139-150 | The automatic buttons are exactly the button flags set, ordered Submit, Reset, Cancel, Help. |
| TemplateRenderer.RankedButtonsUnique | Nethgui/Renderer/TemplateRenderer.php:139-150 | Only one list holds a given set of buttons in that order. |
| TemplateRenderer.ElementList | Nethgui/Renderer/TemplateRenderer.php:122-154 | The class is `Buttonset` when BUTTONSET is set, otherwise `Buttonlist` when a button flag is set, otherwise absent. `wrap` is present with the class. The children are the automatic buttons in order, each with its own flag OR the defaults. |
| TemplateRenderer.ElementListButtonOrder | Nethgui/Renderer/TemplateRenderer.php:139-150 | Any ordered list of the buttons whose flags are set is exactly the children. |
| TemplateRenderer.ButtonsetNotOverridden | Nethgui/Renderer/TemplateRenderer.php:127-137 | A button flag never replaces the `Buttonset` class, and its button is still inserted. |
| TemplateRenderer.ButtonList | Nethgui/Renderer/TemplateRenderer.php:156-164 | buttonList is always a childless `Buttonlist` elementList. |
| TemplateRenderer.DialogWords | Nethgui/Renderer/TemplateRenderer.php:182-198 | The class starts with `dialog`. It holds `success` iff that flag is set, `warning` iff warning is set and success is not, and `error` iff only error is set. It holds `modal` and `disabled` iff their flags are set. The words come in the order dialog, severity, modal, disabled. |
| TemplateRenderer.DialogClassWords | Nethgui/Renderer/TemplateRenderer.php:182-198 | The class string splits on spaces into exactly those words. |
| TemplateRenderer.Dialog | Nethgui/Renderer/TemplateRenderer.php:178-212 | dialog returns a panel with the class, the name, and the flags OR the defaults. It has exactly one child: an inset of the same name and flags. |
| TemplateRenderer.DialogSeverityPriority | Nethgui/Renderer/TemplateRenderer.php:182-198 | The dialog widget's class has at most one severity, by priority success > warning > error, then modal, then disabled. |
| TemplateRenderer.Console | Nethgui/Renderer/TemplateRenderer.php:316-321 | console is a textArea with its flags, the defaults, STATE_READONLY and LABEL_NONE. It has `appendOnly` TRUE and class `console`. |
| TemplateRenderer.DateInput | Nethgui/Renderer/TemplateRenderer.php:323-330 | dateInput is a text input named `date` with class `Date be` and only the default flags. |
| TemplateRenderer.DateInputIgnoresArguments | Nethgui/Renderer/TemplateRenderer.php:323-330 | The name and flags given to dateInput make no difference. |

## Left out

- **View rendering.** `__toString`/`renderView`/`render` (output buffering,
  template inclusion) and the template resolver.
- **Logging and warnings.** Logging, and the warning collection through
  `set_error_handler`.
- **`getClientEventTarget`.** Its md5 hash in production mode is not
  modelled.
- **`http_build_query`.** The query of `buildUrl` is taken already encoded;
  None stands for an empty parameter array.
- **`readHelpDocument`.** The XMLReader parsing is out. A help document is
  given directly as its pieces of text and `{{{INCLUDE pattern}}}`
  directives, so the `expandIncludes` regex is out too. A document that
  cannot be read is the `DocumentNotFound` error.
- **`dirname()` of the help document path.** The directory is a parameter
  of the include expansion.
- **PHP 7 conversions.** Float, boolean and array offsets and array keys
  are not modelled. Neither is the `PHP_INT_MAX` bound on integer-string
  keys, nor PHP 8 comparison semantics.
- **Inherited behaviour.** `parent::bind`, `parent::prepareView` and the
  module's own `prepareView` are not modelled; `prepareView` takes the
  preparation as a function. `setPlatform` in the help `bind` is not
  modelled either.
- **ListComposite children.** A child is a module, whether it handles
  requests, and the violations it reports. Its own bind/process effects are
  not modelled.
- **Callbacks re-entering the loader.** Not modelled: a callback is an
  identity that is only recorded.
- **`new $className` in `fillCache`.** It is modelled as the same
  class-existence check `getModule` makes. A listed file whose class does
  not exist ends the fill with `ClassNotFound`.
- Url.ModuleUrl: requires the module's parent chain to end. The source's
  loop in `buildModuleUrl` has no watchdog and would not terminate on a
  cycle.
- ScalarAdapter.New: takes an ArrayAccessSerializer, not any
  SerializerInterface implementation; other serializers are not modelled.
- ScalarAdapter.RunKeepsCoherent: the adapter's serializer is always an
  ArrayAccessSerializer, where the source accepts any SerializerInterface.
  Coherence with the table rests on that serializer's read-after-write.
- ArrayAccessSerializer.Read: a serializer whose key is NULL reads NULL. The
  source would look the NULL offset up in the table.

## Findings

| source | as written | input that shows it | evidently intended | confidence | as-written member | corrected member |
|---|---|---|---|---|---|---|
| Nethgui/Client/View.php:146-155 | The path cache is set to an empty array before the walk, and the walk's identifiers are stored as it goes. When the watchdog throws, the partial path stays cached, and `isset` is true for it on the next call. | A module that is its own parent. The first call throws; the second returns 20 copies of its identifier. | Cache only a completed path, so every call on a cyclic structure throws. | not executed | ClientView.GetModulePath (shown by ClientView.PartialPathCachedOnCycle) | ClientView.GetModulePathChecked (ClientView.ModulePathMemoised, ClientView.CycleFailsEveryCall, used by ClientView.GetUniqueIdChecked) |
| Nethgui/Module/Help/Common.php:67-76 | The name patterns are unanchored and their `.` is unescaped. The suffix test is case-sensitive. | `fooxrst` binds module `foo`; `Ftp.RST` binds `Ft` | Serve only `<identifier>.rst` and `<identifier>.html`, as the comment "assuming a trailing .rst or .html suffix" says. | not executed | HelpCommon.TargetIdentifierAsWritten (shown by HelpCommon.UnanchoredPatternAcceptsStrayName, HelpCommon.UpperCaseExtensionCutsTooMuch) | HelpCommon.TargetIdentifier (HelpCommon.TargetIdentifierRoundTrip, used by HelpCommon.BindChecked) |

=== FILE: adapter.dfy ===
/**
 * NethGui_Adapter_ScalarAdapter: a dirty-tracking proxy for one value kept
 * through a serializer. Its `modified` field is NULL until the first get or
 * set, which reads the serializer once; a set that changes the value marks
 * it dirty; save writes a dirty value once and clears the flag.
 *
 * The table behind the serializer is threaded through every operation, and
 * every call the adapter makes on the serializer is reported as an Io event.
 */
module ScalarAdapter {
  import opened Wrappers
  import opened Php
  import S = ArrayAccessSerializer

  /** `modified === NULL` is Unloaded; otherwise the cached value and whether it is dirty. */
  datatype State = Unloaded | Loaded(value: Value, modified: bool)

  datatype Adapter = Adapter(serializer: S.Serializer, state: State)

  /** A call made on the serializer. */
  datatype Io = ReadIo | WriteIo(value: Value)

  /** The adapter and table after an operation, the serializer calls made, and the return value. */
  datatype Step<T> = Step(adapter: Adapter, table: S.Table, io: seq<Io>, out: T)

  /** A freshly constructed adapter: nothing loaded, not modified. */
  function New(s: S.Serializer): (a: Adapter)
    ensures !IsModified(a) && a.state.Unloaded?
  {
    Adapter(s, Unloaded)
  }

  /** isModified(): `modified === TRUE`. */
  predicate IsModified(a: Adapter) {
    a.state.Loaded? && a.state.modified
  }

  /** get(): reads through the serializer on the first call only, then answers from the cache. */
  function Get(a: Adapter, t: S.Table): (r: Step<Value>)
    ensures r.table == t && r.adapter.serializer == a.serializer
    ensures r.adapter.state == Loaded(r.out, IsModified(a))
    ensures a.state.Unloaded? ==> r.io == [ReadIo] && r.out == S.Read(a.serializer, t)
    ensures a.state.Loaded? ==> r.io == [] && r.adapter == a && r.out == a.state.value
  {
    match a.state
    case Unloaded =>
      var v := S.Read(a.serializer, t);
      Step(a.(state := Loaded(v, false)), t, [ReadIo], v)
    case Loaded(v, _) => Step(a, t, [], v)
  }

  /**
   * set(v): loads lazily like get(), then stores v; the adapter becomes dirty
   * when v differs from the loaded value, and a dirty adapter stays dirty.
   */
  function Set(a: Adapter, t: S.Table, v: Value): (r: Step<()>)
    ensures r.table == t && r.adapter.serializer == a.serializer
    ensures r.io == (if a.state.Unloaded? then [ReadIo] else [])
    ensures r.adapter.state.Loaded? && r.adapter.state.value == v
    ensures IsModified(r.adapter) <==> IsModified(a) || Get(a, t).out != v
  {
    var loaded := Get(a, t);
    var b := loaded.adapter;
    if b.state.value != v then Step(b.(state := Loaded(v, true)), t, loaded.io, ())
    else Step(b, t, loaded.io, ())
  }

  /** delete(): the value becomes NULL, with set(NULL)'s loading and dirty rules. */
  function Delete(a: Adapter, t: S.Table): (r: Step<()>)
    ensures r.table == t && r.io == (if a.state.Unloaded? then [ReadIo] else [])
    ensures r.adapter.state.Loaded? && r.adapter.state.value == Null
    ensures IsModified(r.adapter) <==> IsModified(a) || Get(a, t).out != Null
  {
    Set(a, t, Null)
  }

  /**
   * save(): a clean adapter returns 0 without touching the serializer; a
   * dirty one writes its value once, becomes clean and returns 1. A failing
   * write propagates and leaves the adapter dirty.
   */
  function Save(a: Adapter, t: S.Table): (r: Result<Step<nat>, S.SerializerError>)
    ensures !IsModified(a) ==> r == Ok(Step(a, t, [], 0))
    ensures IsModified(a) ==> (r.Err? <==> a.serializer.key.None?)
    ensures IsModified(a) && r.Ok? ==>
              && r.value.out == 1
              && r.value.io == [WriteIo(a.state.value)]
              && r.value.adapter == a.(state := Loaded(a.state.value, false))
              && S.Read(a.serializer, r.value.table) == a.state.value
              && S.Write(a.serializer, t, a.state.value) == Ok(r.value.table)
  {
    if !IsModified(a) then Ok(Step(a, t, [], 0))
    else match S.Write(a.serializer, t, a.state.value)
      case Err(e) => Err(e)
      case Ok(t') =>
        S.WriteThenRead(a.serializer, t, a.state.value);
        Ok(Step(a.(state := Loaded(a.state.value, false)), t', [WriteIo(a.state.value)], 1))
  }

  /** A save changes nothing that a serializer on another record or another property reads. */
  lemma SaveIsolated(a: Adapter, t: S.Table, other: S.Serializer)
    requires Save(a, t).Ok?
    requires other.key != a.serializer.key || other.prop != a.serializer.prop
    ensures S.Read(other, Save(a, t).value.table) == S.Read(other, t)
  {
    if IsModified(a) {
      S.WriteIsolated(a.serializer, other, t, a.state.value);
    }
  }

  /** A successful save leaves nothing to save: an immediate second save returns 0 and writes nothing. */
  lemma SaveTwice(a: Adapter, t: S.Table)
    requires Save(a, t).Ok?
    ensures var st := Save(a, t).value;
            Save(st.adapter, st.table) == Ok(Step(st.adapter, st.table, [], 0))
  {
  }

  // ---------------------------------------------------------------------
  // Sequences of calls

  datatype Op = GetOp | SetOp(v: Value) | DeleteOp | SaveOp

  /** One call: the adapter, table and serializer calls afterwards. */
  function Apply(a: Adapter, t: S.Table, op: Op): Result<(Adapter, S.Table, seq<Io>), S.SerializerError> {
    match op
    case GetOp => var r := Get(a, t); Ok((r.adapter, r.table, r.io))
    case SetOp(v) => var r := Set(a, t, v); Ok((r.adapter, r.table, r.io))
    case DeleteOp => var r := Delete(a, t); Ok((r.adapter, r.table, r.io))
    case SaveOp =>
      match Save(a, t)
      case Err(e) => Err(e)
      case Ok(r) => Ok((r.adapter, r.table, r.io))
  }

  /** A sequence of calls on one adapter, stopping at the first exception. */
  function Run(a: Adapter, t: S.Table, ops: seq<Op>): Result<(Adapter, S.Table, seq<Io>), S.SerializerError>
    decreases |ops|
  {
    if |ops| == 0 then Ok((a, t, []))
    else match Apply(a, t, ops[0])
      case Err(e) => Err(e)
      case Ok((a1, t1, io1)) =>
        match Run(a1, t1, ops[1..])
        case Err(e) => Err(e)
        case Ok((a2, t2, io2)) => Ok((a2, t2, io1 + io2))
  }

  function ReadCount(io: seq<Io>): nat
    decreases |io|
  {
    if |io| == 0 then 0 else (if io[0].ReadIo? then 1 else 0) + ReadCount(io[1..])
  }

  function WriteCount(io: seq<Io>): nat
    decreases |io|
  {
    if |io| == 0 then 0 else (if io[0].WriteIo? then 1 else 0) + WriteCount(io[1..])
  }

  function SaveCount(ops: seq<Op>): nat
    decreases |ops|
  {
    if |ops| == 0 then 0 else (if ops[0].SaveOp? then 1 else 0) + SaveCount(ops[1..])
  }

  lemma {:induction false} CountsAppend(x: seq<Io>, y: seq<Io>)
    ensures ReadCount(x + y) == ReadCount(x) + ReadCount(y)
    ensures WriteCount(x + y) == WriteCount(x) + WriteCount(y)
    decreases |x|
  {
    if |x| > 0 {
      assert (x + y)[1..] == x[1..] + y;
      CountsAppend(x[1..], y);
    } else {
      assert x + y == y;
    }
  }

  /**
   * Over any sequence of calls the serializer is read at most once: once
   * by the first get, set or delete, and never again, saves included.
   */
  lemma {:induction false} ReadsAtMostOnce(a: Adapter, t: S.Table, ops: seq<Op>)
    requires Run(a, t, ops).Ok?
    ensures ReadCount(Run(a, t, ops).value.2) <= (if a.state.Unloaded? then 1 else 0)
    decreases |ops|
  {
    if |ops| > 0 {
      var (a1, t1, io1) := Apply(a, t, ops[0]).value;
      ReadsAtMostOnce(a1, t1, ops[1..]);
      CountsAppend(io1, Run(a1, t1, ops[1..]).value.2);
      assert a.state.Loaded? ==> a1.state.Loaded?;
      assert ReadCount(io1) == (if a1.state.Loaded? && a.state.Unloaded? then 1 else 0);
    }
  }

  /** The serializer is written only by save, at most once per save. */
  lemma {:induction false} WritesOnlyBySave(a: Adapter, t: S.Table, ops: seq<Op>)
    requires Run(a, t, ops).Ok?
    ensures WriteCount(Run(a, t, ops).value.2) <= SaveCount(ops)
    decreases |ops|
  {
    if |ops| > 0 {
      var (a1, t1, io1) := Apply(a, t, ops[0]).value;
      WritesOnlyBySave(a1, t1, ops[1..]);
      CountsAppend(io1, Run(a1, t1, ops[1..]).value.2);
      assert WriteCount(io1) <= (if ops[0].SaveOp? then 1 else 0);
    }
  }

  /** A clean loaded value is the value the serializer would read from the table. */
  ghost predicate Coherent(a: Adapter, t: S.Table) {
    a.state.Loaded? && !a.state.modified ==> S.Read(a.serializer, t) == a.state.value
  }

  /**
   * With the table changed only through this adapter, a clean adapter always
   * agrees with the table: loading reads it, an equal set keeps it, and a
   * save writes the value that is then read back.
   */
  lemma {:induction false} RunKeepsCoherent(a: Adapter, t: S.Table, ops: seq<Op>)
    requires Coherent(a, t)
    requires Run(a, t, ops).Ok?
    ensures Coherent(Run(a, t, ops).value.0, Run(a, t, ops).value.1)
    decreases |ops|
  {
    if |ops| > 0 {
      var (a1, t1, io1) := Apply(a, t, ops[0]).value;
      assert Coherent(a1, t1);
      RunKeepsCoherent(a1, t1, ops[1..]);
    }
  }

  /** Without a set or delete an adapter that starts clean never becomes dirty. */
  lemma {:induction false} DirtyOnlyBySet(a: Adapter, t: S.Table, ops: seq<Op>)
    requires !IsModified(a)
    requires forall i :: 0 <= i < |ops| ==> ops[i].GetOp? || ops[i].SaveOp?
    requires Run(a, t, ops).Ok?
    ensures !IsModified(Run(a, t, ops).value.0)
    decreases |ops|
  {
    if |ops| > 0 {
      var (a1, t1, io1) := Apply(a, t, ops[0]).value;
      DirtyOnlyBySet(a1, t1, ops[1..]);
    }
  }
}

=== FILE: help_common.dfy ===
/**
 * Nethgui\Module\Help\Common: serves the help document of a module. bind()
 * derives the target module from the requested file name, the document
 * path is looked up by locale, then language, then English, and
 * {{{INCLUDE pattern}}} directives are expanded by reading every matching
 * document of the same directory, each file at most once.
 *
 * The file name resolver, file_exists() and glob() are inputs; a help
 * document is given as its sequence of text pieces and INCLUDE directives.
 */
module HelpCommon {
  import opened Wrappers
  import opened Php
  import opened PhpArray
  import ML = ModuleLoader

  // ---------------------------------------------------------------------
  // bind(): file name to module identifier

  predicate IsLetter(c: char) {
    'a' <= c <= 'z' || 'A' <= c <= 'Z'
  }

  predicate IsAlnum(c: char) {
    IsLetter(c) || '0' <= c <= '9'
  }

  function Lower(c: char): char {
    if 'A' <= c <= 'Z' then (c as int - 'A' as int + 'a' as int) as char else c
  }

  /** Case-insensitive equality of two strings of the same length. */
  predicate SameIgnoringCase(s: string, t: string) {
    |s| == |t| && forall k :: 0 <= k < |s| ==> Lower(s[k]) == Lower(t[k])
  }

  /**
   * `[a-z][a-z0-9]+(.<ext>)` with flag i matches at i, with the letters and
   * digits ending before j: a letter, at least one letter or digit, any
   * character but a newline at j, then the extension in any case.
   */
  predicate MatchesAt(s: string, ext: string, i: int, j: int) {
    && 0 <= i && i + 2 <= j && j + 1 + |ext| <= |s|
    && IsLetter(s[i])
    && (forall k :: i < k < j ==> IsAlnum(s[k]))
    && s[j] != '\n'
    && SameIgnoringCase(s[j + 1..j + 1 + |ext|], ext)
  }

  /** preg_match() of the unanchored pattern: a match anywhere in the name. */
  predicate NamePattern(s: string, ext: string) {
    exists i, j | 0 <= i < |s| && 0 <= j < |s| :: MatchesAt(s, ext, i, j)
  }

  lemma PatternLength(s: string)
    requires NamePattern(s, "rst") || NamePattern(s, "html")
    ensures |s| >= 6
  {
  }

  datatype HelpError =
    | NotFound                   // HttpException 404
    | Loader(e: ML.LoaderError)  // from the module set's getModule()
    | ForbiddenSlash(pattern: string)
    | ForbiddenExtension(file: string)
    | AlreadyIncluded(file: string)
    | DocumentNotFound(file: string)

  /**
   * bind()'s file name rule as written: 404 unless one of the two patterns
   * matches somewhere; then four characters are cut when the name ends in
   * 'rst' and five otherwise.
   */
  function TargetIdentifierAsWritten(fileName: string): (r: Result<string, HelpError>)
    ensures r.Err? <==> !NamePattern(fileName, "rst") && !NamePattern(fileName, "html")
    ensures r.Err? ==> r.error == NotFound
    ensures r.Ok? && fileName[|fileName| - 3..] == "rst" ==> r.value + fileName[|fileName| - 4..] == fileName
    ensures r.Ok? && fileName[|fileName| - 3..] != "rst" ==> r.value + fileName[|fileName| - 5..] == fileName
  {
    if !NamePattern(fileName, "rst") && !NamePattern(fileName, "html") then Err(NotFound)
    else
      PatternLength(fileName);
      if fileName[|fileName| - 3..] == "rst" then Ok(fileName[..|fileName| - 4])
      else Ok(fileName[..|fileName| - 5])
  }

  /** A module identifier as the pattern means it: a letter, then at least one letter or digit. */
  predicate IdentifierStem(s: string) {
    |s| >= 2 && IsLetter(s[0]) && forall k :: 1 <= k < |s| ==> IsAlnum(s[k])
  }

  /** The name rule as intended: the whole name is an identifier followed by '.rst' or '.html'. */
  function TargetIdentifier(fileName: string): (r: Result<string, HelpError>)
    ensures r.Ok? ==> IdentifierStem(r.value) && (fileName == r.value + ".rst" || fileName == r.value + ".html")
    ensures r.Err? ==> r.error == NotFound
  {
    if |fileName| >= 4 && fileName[|fileName| - 4..] == ".rst" && IdentifierStem(fileName[..|fileName| - 4]) then
      Ok(fileName[..|fileName| - 4])
    else if |fileName| >= 5 && fileName[|fileName| - 5..] == ".html" && IdentifierStem(fileName[..|fileName| - 5]) then
      Ok(fileName[..|fileName| - 5])
    else Err(NotFound)
  }

  /** Every identifier is served under both of its file names. */
  lemma TargetIdentifierRoundTrip(id: string)
    requires IdentifierStem(id)
    ensures TargetIdentifier(id + ".rst") == Ok(id)
    ensures TargetIdentifier(id + ".html") == Ok(id)
  {
    var a := id + ".rst";
    assert a[..|a| - 4] == id && a[|a| - 4..] == ".rst";
    var b := id + ".html";
    assert b[..|b| - 5] == id && b[|b| - 5..] == ".html";
    assert b[|b| - 4..] != ".rst" by { assert b[|b| - 4] == 'h'; }
  }

  /** On the names the rule is meant for, the code as written agrees with the intended rule. */
  lemma AsWrittenAgreesOnWellFormedNames(id: string)
    requires IdentifierStem(id)
    ensures TargetIdentifierAsWritten(id + ".rst") == Ok(id)
    ensures TargetIdentifierAsWritten(id + ".html") == Ok(id)
  {
    AsWrittenRst(id);
    AsWrittenHtml(id);
  }

  lemma AsWrittenRst(id: string)
    requires IdentifierStem(id)
    ensures TargetIdentifierAsWritten(id + ".rst") == Ok(id)
  {
    var a := id + ".rst";
    assert MatchesAt(a, "rst", 0, |id|) by {
      assert a[|id| + 1..|id| + 4] == "rst";
      forall k | 0 < k < |id| ensures IsAlnum(a[k]) { assert a[k] == id[k]; }
    }
    assert a[|a| - 3..] == "rst";
    assert a[..|a| - 4] == id;
  }

  lemma AsWrittenHtml(id: string)
    requires IdentifierStem(id)
    ensures TargetIdentifierAsWritten(id + ".html") == Ok(id)
  {
    var b := id + ".html";
    assert MatchesAt(b, "html", 0, |id|) by {
      assert b[|id| + 1..|id| + 5] == "html";
      forall k | 0 < k < |id| ensures IsAlnum(b[k]) { assert b[k] == id[k]; }
    }
    assert b[|b| - 3..] == "tml";
    assert b[..|b| - 5] == id;
  }

  /**
   * As written, the unescaped '.' and the missing anchors let 'fooxrst'
   * through as module 'foo', where the intended rule answers 404.
   */
  lemma UnanchoredPatternAcceptsStrayName()
    ensures TargetIdentifierAsWritten("fooxrst") == Ok("foo")
    ensures TargetIdentifier("fooxrst") == Err(NotFound)
  {
    var s := "fooxrst";
    assert s[4..7] == "rst";
    assert MatchesAt(s, "rst", 0, 3);
    assert NamePattern(s, "rst");
    assert s[|s| - 3..] == "rst" && s[..|s| - 4] == "foo";
  }

  /** As written, 'Ftp.RST' passes the case-insensitive pattern but loses its last letter: module 'Ft'. */
  lemma UpperCaseExtensionCutsTooMuch()
    ensures TargetIdentifierAsWritten("Ftp.RST") == Ok("Ft")
    ensures TargetIdentifier("Ftp.RST") == Err(NotFound)
  {
    var s := "Ftp.RST";
    assert s[4..7] == "RST";
    assert SameIgnoringCase(s[4..7], "rst");
    assert MatchesAt(s, "rst", 0, 3);
    assert NamePattern(s, "rst");
    assert s[|s| - 3..] == "RST" && s[..|s| - 5] == "Ft";
  }

  /** The state bind() leaves: the loader, the target module and the set of initialised modules. */
  datatype Bound = Bound(loader: ML.Loader, target: ML.Instance, initialized: set<nat>, initializeCalled: bool)

  /**
   * What bind() leaves once the target identifier is known: the module
   * set's answer for it, or its error; the module marked initialised, with
   * initialize() called exactly when it was not initialised before.
   */
  predicate BindsModule(l: ML.Loader, env: ML.Env, initialized: set<nat>, id: string, r: Result<Bound, HelpError>)
    requires ML.Valid(l)
  {
    && (r.Err? <==> ML.GetModule(l, env, id).Err?)
    && (r.Err? ==> r.error == Loader(ML.UnknownModule(id)))
    && (r.Ok? ==>
          && (r.value.loader, r.value.target) == ML.GetModule(l, env, id).value
          && r.value.initialized == initialized + {r.value.target.token}
          && (r.value.initializeCalled <==> r.value.target.token !in initialized))
  }

  /** The module fetched and initialised unless it already was. */
  function BindModule(l: ML.Loader, env: ML.Env, initialized: set<nat>, id: string): (r: Result<Bound, HelpError>)
    requires ML.Valid(l)
    ensures BindsModule(l, env, initialized, id, r)
  {
    match ML.GetModule(l, env, id)
    case Err(e) => Err(Loader(e))
    case Ok((l1, m)) =>
      if m.token in initialized then Ok(Bound(l1, m, initialized, false))
      else Ok(Bound(l1, m, initialized + {m.token}, true))
  }

  /**
   * bind() as written: the target module of the file name, by the name
   * rule as the source states it, fetched from the module set and
   * initialised unless it already was.
   */
  function Bind(l: ML.Loader, env: ML.Env, initialized: set<nat>, fileName: string): (r: Result<Bound, HelpError>)
    requires ML.Valid(l)
    ensures !NamePattern(fileName, "rst") && !NamePattern(fileName, "html") ==> r == Err(NotFound)
    ensures TargetIdentifierAsWritten(fileName).Ok? ==>
              BindsModule(l, env, initialized, TargetIdentifierAsWritten(fileName).value, r)
  {
    match TargetIdentifierAsWritten(fileName)
    case Err(e) => Err(e)
    case Ok(id) => BindModule(l, env, initialized, id)
  }

  /** bind() with the intended name rule: only `<identifier>.rst` and `<identifier>.html` reach the module set. */
  function BindChecked(l: ML.Loader, env: ML.Env, initialized: set<nat>, fileName: string): (r: Result<Bound, HelpError>)
    requires ML.Valid(l)
    ensures TargetIdentifier(fileName).Err? ==> r == Err(NotFound)
    ensures TargetIdentifier(fileName).Ok? ==> BindsModule(l, env, initialized, TargetIdentifier(fileName).value, r)
  {
    match TargetIdentifier(fileName)
    case Err(e) => Err(e)
    case Ok(id) => BindModule(l, env, initialized, id)
  }

  /** A second bind() of the same module finds it again and does not initialise it again. */
  lemma BindModuleOnce(l: ML.Loader, env: ML.Env, initialized: set<nat>, id: string)
    requires ML.Valid(l) && BindModule(l, env, initialized, id).Ok?
    ensures var b := BindModule(l, env, initialized, id).value;
            ML.Valid(b.loader) && BindModule(b.loader, env, b.initialized, id) == Ok(b.(initializeCalled := false))
  {
    ML.GetModuleMemoised(l, env, env, id);
  }

  /** A module is initialised by the first bind() that targets it and by no later one. */
  lemma BindInitializesOnce(l: ML.Loader, env: ML.Env, initialized: set<nat>, fileName: string)
    requires ML.Valid(l) && Bind(l, env, initialized, fileName).Ok?
    ensures var b := Bind(l, env, initialized, fileName).value;
            ML.Valid(b.loader) && Bind(b.loader, env, b.initialized, fileName) == Ok(b.(initializeCalled := false))
  {
    BindModuleOnce(l, env, initialized, TargetIdentifierAsWritten(fileName).value);
  }

  /** The same holds with the intended name rule. */
  lemma BindCheckedInitializesOnce(l: ML.Loader, env: ML.Env, initialized: set<nat>, fileName: string)
    requires ML.Valid(l) && BindChecked(l, env, initialized, fileName).Ok?
    ensures var b := BindChecked(l, env, initialized, fileName).value;
            ML.Valid(b.loader) && BindChecked(b.loader, env, b.initialized, fileName) == Ok(b.(initializeCalled := false))
  {
    BindModuleOnce(l, env, initialized, TargetIdentifier(fileName).value);
  }

  /**
   * As written, a request for 'fooxrst' binds module 'foo' and
   * 'Ftp.RST' binds module 'Ft'; the intended rule answers 404 to both.
   */
  lemma BindStrayNames(l: ML.Loader, env: ML.Env, initialized: set<nat>)
    requires ML.Valid(l)
    ensures Bind(l, env, initialized, "fooxrst") == BindModule(l, env, initialized, "foo")
    ensures Bind(l, env, initialized, "Ftp.RST") == BindModule(l, env, initialized, "Ft")
    ensures BindChecked(l, env, initialized, "fooxrst") == Err(NotFound)
    ensures BindChecked(l, env, initialized, "Ftp.RST") == Err(NotFound)
  {
    UnanchoredPatternAcceptsStrayName();
    UpperCaseExtensionCutsTooMuch();
  }

  // ---------------------------------------------------------------------
  // getHelpDocumentPath()

  /** The lookup inputs: the resolver callback, the files that exist, the namespace names in map order. */
  datatype Lookup = Lookup(resolve: string -> string, existing: set<string>, namespaces: seq<string>)

  /** `<ns>\Help\<dir>\<file>` through the resolver. */
  function HelpPath(lk: Lookup, ns: string, dir: string, fileName: string): string {
    lk.resolve(Implode('\\', [ns, "Help", dir, fileName]))
  }

  /** The document name of a class: its namespace separators turned into '_', plus '.html'. */
  function DocumentName(className: string): (f: string)
    ensures f == Implode('_', Explode('\\', className)) + ".html"
  {
    ReplaceIsRejoin('\\', '_', className);
    ReplaceChar('\\', '_', className) + ".html"
  }

  /** The locale with '-' turned into '_'. */
  function Locale(locale: string): string {
    ReplaceChar('-', '_', locale)
  }

  /** `substr($locale, 0, 2)`. */
  function Language(locale: string): (lang: string)
    ensures |locale| >= 2 ==> lang == locale[..2]
    ensures |locale| < 2 ==> lang == locale
  {
    if |locale| >= 2 then locale[..2] else locale
  }

  /** The paths tried, in order: for each namespace the locale path, then the language path. */
  function Candidates(lk: Lookup, locale: string, fileName: string, nss: seq<string>): (cs: seq<string>)
    ensures |cs| == 2 * |nss|
    ensures forall i :: 0 <= i < |nss| ==>
              && cs[2 * i] == HelpPath(lk, nss[i], locale, fileName)
              && cs[2 * i + 1] == HelpPath(lk, nss[i], Language(locale), fileName)
    decreases |nss|
  {
    if |nss| == 0 then []
    else
      var rest := Candidates(lk, locale, fileName, nss[1..]);
      var cs := [HelpPath(lk, nss[0], locale, fileName), HelpPath(lk, nss[0], Language(locale), fileName)] + rest;
      assert forall i :: 1 <= i < |nss| ==> nss[1..][i - 1] == nss[i] && cs[2 * i] == rest[2 * (i - 1)];
      cs
  }

  /** The index of the first candidate from i on that exists, if any. */
  function FirstFrom(cs: seq<string>, existing: set<string>, i: nat): (r: Option<nat>)
    requires i <= |cs|
    ensures r.Some? ==> && i <= r.value < |cs| && cs[r.value] in existing
                        && forall j :: i <= j < r.value ==> cs[j] !in existing
    ensures r.None? ==> forall j :: i <= j < |cs| ==> cs[j] !in existing
    decreases |cs| - i
  {
    if i == |cs| then None
    else if cs[i] in existing then Some(i)
    else FirstFrom(cs, existing, i + 1)
  }

  /** p is the first of the candidates that exists. */
  ghost predicate FirstPresent(cs: seq<string>, existing: set<string>, p: string) {
    exists k :: 0 <= k < |cs| && cs[k] == p && p in existing && forall j :: 0 <= j < k ==> cs[j] !in existing
  }

  /**
   * getHelpDocumentPath(): the first existing candidate; when none exists,
   * the English path under the last namespace of the map (an empty map
   * leaves the namespace part empty).
   */
  function HelpDocumentPath(lk: Lookup, className: string, requestLocale: string): (path: string)
    ensures var cs := Candidates(lk, Locale(requestLocale), DocumentName(className), lk.namespaces);
            (exists i :: 0 <= i < |cs| && cs[i] in lk.existing) ==> FirstPresent(cs, lk.existing, path)
    ensures var cs := Candidates(lk, Locale(requestLocale), DocumentName(className), lk.namespaces);
            (forall i :: 0 <= i < |cs| ==> cs[i] !in lk.existing) ==>
              path == HelpPath(lk, if |lk.namespaces| == 0 then "" else lk.namespaces[|lk.namespaces| - 1], "en", DocumentName(className))
  {
    var cs := Candidates(lk, Locale(requestLocale), DocumentName(className), lk.namespaces);
    match FirstFrom(cs, lk.existing, 0)
    case Some(k) => cs[k]
    case None =>
      var last := if |lk.namespaces| == 0 then "" else lk.namespaces[|lk.namespaces| - 1];
      HelpPath(lk, last, "en", DocumentName(className))
  }

  /** The full locale wins over the language within a namespace, and an earlier namespace over a later one. */
  lemma LocaleBeforeLanguage(lk: Lookup, className: string, requestLocale: string)
    requires |lk.namespaces| >= 1
    requires HelpPath(lk, lk.namespaces[0], Locale(requestLocale), DocumentName(className)) in lk.existing
    ensures HelpDocumentPath(lk, className, requestLocale)
            == HelpPath(lk, lk.namespaces[0], Locale(requestLocale), DocumentName(className))
  {
    var cs := Candidates(lk, Locale(requestLocale), DocumentName(className), lk.namespaces);
    assert cs[0] in lk.existing;
  }

  /** With only the language document present in the first namespace, that one is served. */
  lemma LanguageBeforeLaterNamespaces(lk: Lookup, className: string, requestLocale: string)
    requires |lk.namespaces| >= 1
    requires HelpPath(lk, lk.namespaces[0], Locale(requestLocale), DocumentName(className)) !in lk.existing
    requires HelpPath(lk, lk.namespaces[0], Language(Locale(requestLocale)), DocumentName(className)) in lk.existing
    ensures HelpDocumentPath(lk, className, requestLocale)
            == HelpPath(lk, lk.namespaces[0], Language(Locale(requestLocale)), DocumentName(className))
  {
    var cs := Candidates(lk, Locale(requestLocale), DocumentName(className), lk.namespaces);
    assert cs[0] !in lk.existing && cs[1] in lk.existing;
  }

  // ---------------------------------------------------------------------
  // INCLUDE expansion

  /** A help document's inner content: text, and {{{INCLUDE pattern}}} directives. */
  datatype Piece = Text(text: string) | Include(pattern: string)

  /**
   * The documents that can be read, what glob() answers for each absolute
   * pattern, and the directory of the target module's help document.
   */
  datatype Docs = Docs(documents: map<string, seq<Piece>>, glob: map<string, seq<string>>, dir: string)

  /** The outcome of an expansion: the included-file set, the files read in order, the text. */
  datatype Expansion = Expansion(includes: set<string>, read: seq<string>, text: string)

  ghost function AllFiles(h: Docs): set<string> {
    set p, f | p in h.glob && f in h.glob[p] :: f
  }

  function Glob(h: Docs, absolutePattern: string): (files: seq<string>)
    ensures forall f :: f in files ==> f in AllFiles(h)
  {
    if absolutePattern in h.glob then h.glob[absolutePattern] else []
  }

  /** The name ends in '.rst' or '.html'. */
  predicate HelpExtension(f: string) {
    (|f| >= 4 && f[|f| - 4..] == ".rst") || (|f| >= 5 && f[|f| - 5..] == ".html")
  }

  predicate NoDuplicates(s: seq<string>) {
    forall i, j :: 0 <= i < j < |s| ==> s[i] != s[j]
  }

  /** What every successful expansion keeps: each file read once, never one included before, and now marked. */
  ghost predicate Marks(inc: set<string>, e: Expansion) {
    && NoDuplicates(e.read)
    && (forall f :: f in e.read ==> f !in inc)
    && (forall f :: f in e.includes <==> f in inc || f in e.read)
  }

  lemma {:induction false} SubsetSize(a: set<string>, b: set<string>)
    requires a <= b
    ensures |a| <= |b|
    decreases |a|
  {
    if a != {} {
      var x :| x in a;
      SubsetSize(a - {x}, b - {x});
    }
  }

  /** One expansion after another: the reads concatenate and stay free of repeats. */
  lemma MarksJoin(inc: set<string>, d1: Expansion, d2: Expansion, text: string)
    requires Marks(inc, d1) && Marks(d1.includes, d2)
    ensures Marks(inc, Expansion(d2.includes, d1.read + d2.read, text))
  {
    var read := d1.read + d2.read;
    forall i, j | 0 <= i < j < |read| ensures read[i] != read[j] {
      if j < |d1.read| {
        assert read[i] == d1.read[i] && read[j] == d1.read[j];
      } else if i < |d1.read| {
        assert read[i] == d1.read[i] && read[j] == d2.read[j - |d1.read|];
        assert read[i] in d1.includes && read[j] !in d1.includes;
      } else {
        assert read[i] == d2.read[i - |d1.read|] && read[j] == d2.read[j - |d1.read|];
      }
    }
  }

  /** Marking a file, then expanding it. */
  lemma MarksCons(inc: set<string>, f: string, d: Expansion)
    requires f !in inc && Marks(inc + {f}, d)
    ensures Marks(inc, Expansion(d.includes, [f] + d.read, d.text))
  {
    var read := [f] + d.read;
    forall i, j | 0 <= i < j < |read| ensures read[i] != read[j] {
      assert read[j] == d.read[j - 1];
      if i > 0 { assert read[i] == d.read[i - 1]; }
    }
  }

  /** An expansion only ever adds to the included set, so the files left to include never grow. */
  lemma MarksShrinkLeft(h: Docs, inc: set<string>, d: Expansion)
    requires Marks(inc, d)
    ensures |AllFiles(h) - d.includes| <= |AllFiles(h) - inc|
  {
    SubsetSize(AllFiles(h) - d.includes, AllFiles(h) - inc);
  }

  /**
   * readHelpDocumentsByPattern(): a pattern with '/' is refused; otherwise
   * every file glob() finds in the document's directory is checked for
   * its extension and for an earlier inclusion, marked, read and expanded.
   */
  function ReadPattern(h: Docs, inc: set<string>, pattern: string): (r: Result<Expansion, HelpError>)
    ensures '/' in pattern ==> r == Err(ForbiddenSlash(pattern))
    ensures r.Ok? ==> '/' !in pattern && Marks(inc, r.value)
    ensures r.Ok? ==> forall f :: f in Glob(h, h.dir + "/" + pattern) ==> HelpExtension(f) && f in r.value.read
    decreases |AllFiles(h) - inc|, 2, 0
  {
    if '/' in pattern then Err(ForbiddenSlash(pattern))
    else ReadFiles(h, inc, Glob(h, h.dir + "/" + pattern))
  }

  /** The loop over the files of one pattern. */
  function ReadFiles(h: Docs, inc: set<string>, files: seq<string>): (r: Result<Expansion, HelpError>)
    requires forall f :: f in files ==> f in AllFiles(h)
    ensures r.Ok? ==> Marks(inc, r.value)
    ensures r.Ok? ==> forall f :: f in files ==> HelpExtension(f) && f in r.value.read
    ensures |files| > 0 && !HelpExtension(files[0]) ==> r == Err(ForbiddenExtension(files[0]))
    ensures |files| > 0 && HelpExtension(files[0]) && files[0] in inc ==> r == Err(AlreadyIncluded(files[0]))
    decreases |AllFiles(h) - inc|, 1, |files|
  {
    if |files| == 0 then Ok(Expansion(inc, [], ""))
    else
      var f := files[0];
      if !HelpExtension(f) then Err(ForbiddenExtension(f))
      else if f in inc then Err(AlreadyIncluded(f))
      else if f !in h.documents then Err(DocumentNotFound(f))
      else
        assert AllFiles(h) - (inc + {f}) == (AllFiles(h) - inc) - {f};
        match ExpandPieces(h, inc + {f}, h.documents[f])
        case Err(e) => Err(e)
        case Ok(d1) =>
          MarksCons(inc, f, d1);
          var d1' := Expansion(d1.includes, [f] + d1.read, d1.text);
          MarksShrinkLeft(h, inc + {f}, d1);
          match ReadFiles(h, d1.includes, files[1..])
          case Err(e) => Err(e)
          case Ok(d2) =>
            MarksJoin(inc, d1', d2, d1.text + d2.text);
            assert forall g :: g in files ==> g == f || g in files[1..];
            Ok(Expansion(d2.includes, d1'.read + d2.read, d1.text + d2.text))
  }

  /** expandIncludes() on a document's content: each directive replaced by the documents it includes. */
  function ExpandPieces(h: Docs, inc: set<string>, pieces: seq<Piece>): (r: Result<Expansion, HelpError>)
    ensures r.Ok? ==> Marks(inc, r.value)
    ensures r.Ok? ==> forall p :: Include(p) in pieces ==>
              '/' !in p && forall f :: f in Glob(h, h.dir + "/" + p) ==> f in r.value.read
    decreases |AllFiles(h) - inc|, 3, |pieces|
  {
    if |pieces| == 0 then Ok(Expansion(inc, [], ""))
    else
      match pieces[0]
      case Text(t) =>
        (match ExpandPieces(h, inc, pieces[1..])
         case Err(e) => Err(e)
         case Ok(d) => Ok(d.(text := t + d.text)))
      case Include(p) =>
        match ReadPattern(h, inc, p)
        case Err(e) => Err(e)
        case Ok(d1) =>
          MarksShrinkLeft(h, inc, d1);
          match ExpandPieces(h, d1.includes, pieces[1..])
          case Err(e) => Err(e)
          case Ok(d2) =>
            MarksJoin(inc, d1, d2, d1.text + d2.text);
            Ok(Expansion(d2.includes, d1.read + d2.read, d1.text + d2.text))
  }

  /** A directive that reaches a file already included makes the whole expansion fail. */
  lemma {:induction false} IncludedPatternRefused(h: Docs, inc: set<string>, pieces: seq<Piece>, p: string, f: string)
    requires f in inc && f in Glob(h, h.dir + "/" + p) && Include(p) in pieces
    ensures ExpandPieces(h, inc, pieces).Err?
    decreases |pieces|
  {
    if pieces[0] != Include(p) {
      assert Include(p) in pieces[1..];
      match pieces[0]
      case Text(_) =>
        IncludedPatternRefused(h, inc, pieces[1..], p, f);
      case Include(q) =>
        if ReadPattern(h, inc, q).Ok? {
          IncludedPatternRefused(h, ReadPattern(h, inc, q).value.includes, pieces[1..], p, f);
        }
    }
  }

  /**
   * Reading a document that includes, through some directive, a pattern
   * matching the document itself fails instead of expanding forever.
   */
  lemma SelfIncludeAlwaysRefused(h: Docs, inc: set<string>, p: string, f: string)
    requires HelpExtension(f) && f !in inc && f in h.documents
    requires f in Glob(h, h.dir + "/" + p) && Include(p) in h.documents[f]
    ensures ReadFiles(h, inc, [f]).Err?
  {
    IncludedPatternRefused(h, inc + {f}, h.documents[f], p, f);
  }

  /** Two directives reaching the same file: the expansion fails. */
  lemma {:induction false} RepeatedIncludeAlwaysRefused(h: Docs, inc: set<string>, pieces: seq<Piece>, p: string, f: string, i: nat, j: nat)
    requires i < j < |pieces| && pieces[i] == Include(p) && pieces[j] == Include(p)
    requires f in Glob(h, h.dir + "/" + p)
    ensures ExpandPieces(h, inc, pieces).Err?
    decreases i
  {
    assert pieces[1..][j - 1] == pieces[j];
    if i == 0 {
      if ReadPattern(h, inc, p).Ok? {
        IncludedPatternRefused(h, ReadPattern(h, inc, p).value.includes, pieces[1..], p, f);
      }
    } else {
      assert pieces[1..][i - 1] == pieces[i];
      match pieces[0]
      case Text(_) =>
        RepeatedIncludeAlwaysRefused(h, inc, pieces[1..], p, f, i - 1, j - 1);
      case Include(q) =>
        if ReadPattern(h, inc, q).Ok? {
          RepeatedIncludeAlwaysRefused(h, ReadPattern(h, inc, q).value.includes, pieces[1..], p, f, i - 1, j - 1);
        }
    }
  }

  /** For example, a document that is a single directive including itself is refused. */
  lemma SelfIncludeRefused(h: Docs, f: string, p: string)
    requires '/' !in p && HelpExtension(f)
    requires h.dir + "/" + p in h.glob && h.glob[h.dir + "/" + p] == [f]
    requires f in h.documents && h.documents[f] == [Include(p)]
    ensures ReadPattern(h, {}, p) == Err(AlreadyIncluded(f))
  {
    assert Glob(h, h.dir + "/" + p) == [f];
    assert ReadPattern(h, {f}, p) == Err(AlreadyIncluded(f));
    assert ExpandPieces(h, {f}, [Include(p)]) == Err(AlreadyIncluded(f));
    assert ({} + {f}) == {f};
    assert ReadFiles(h, {}, [f]) == Err(AlreadyIncluded(f));
  }

  /** For example, the second of two identical directives is refused with the file it reaches again. */
  lemma RepeatedIncludeRefused(h: Docs, f: string, p: string)
    requires '/' !in p && HelpExtension(f)
    requires h.dir + "/" + p in h.glob && h.glob[h.dir + "/" + p] == [f]
    requires f in h.documents && h.documents[f] == [Text("x")]
    ensures ExpandPieces(h, {}, [Include(p), Include(p)]) == Err(AlreadyIncluded(f))
  {
    assert Glob(h, h.dir + "/" + p) == [f];
    assert ExpandPieces(h, {f}, []) == Ok(Expansion({f}, [], ""));
    assert [Text("x")][1..] == [];
    assert "x" + "" == "x" && [f] + [] + [] == [f];
    assert ExpandPieces(h, {f}, [Text("x")]) == Ok(Expansion({f}, [], "x"));
    assert ({} + {f}) == {f};
    assert ReadFiles(h, {f}, []) == Ok(Expansion({f}, [], ""));
    assert ReadFiles(h, {}, [f]) == Ok(Expansion({f}, [f], "x"));
    assert ReadPattern(h, {}, p) == Ok(Expansion({f}, [f], "x"));
    assert ReadPattern(h, {f}, p) == Err(AlreadyIncluded(f));
    assert [Include(p), Include(p)][1..] == [Include(p)];
  }
}

=== FILE: list_composite.dfy ===
/**
 * Nethgui\Controller\ListComposite: a module that executes no action of its
 * own and forwards bind, validate and process to those of its children
 * that handle requests, in child order, and prepareView to every child.
 *
 * What a child does when called is outside this model: bind and process
 * are reported as the calls made, a child's validate contributes its
 * given violations to the shared report, and a child's prepareView is a
 * function given as a parameter.
 */
module ListComposite {
  import opened Wrappers
  import opened Php
  import opened PhpArray
  import opened ModuleTree
  import opened ClientView

  /** A child module: its place in the tree, whether it implements RequestHandlerInterface, and what its validate() reports. */
  datatype Child = Child(mod: Mod, handler: bool, violations: seq<string>)

  /** A request, and the request spawned from it for a child identifier. */
  datatype Request = Root | Spawned(parent: Request, identifier: string)

  ghost predicate ChildrenIn(g: Tree, cs: seq<Child>) {
    forall i :: 0 <= i < |cs| ==> cs[i].mod in g
  }

  predicate Increasing(xs: seq<nat>) {
    forall a, b :: 0 <= a < b < |xs| ==> xs[a] < xs[b]
  }

  /** The positions of the request-handling children, from `from` on, in child order. */
  function HandlerPositions(cs: seq<Child>, from: nat): (ps: seq<nat>)
    requires from <= |cs|
    ensures Increasing(ps)
    ensures forall i :: i in ps <==> from <= i < |cs| && cs[i].handler
    ensures forall j :: 0 <= j < |ps| ==> ps[j] < |cs| && cs[ps[j]].handler
    decreases |cs| - from
  {
    if from == |cs| then []
    else
      var rest := HandlerPositions(cs, from + 1);
      assert forall b :: 0 <= b < |rest| ==> rest[b] in rest;
      if cs[from].handler then [from] + rest else rest
  }

  /** Two increasing lists with the same members are the same list. */
  lemma {:induction false} IncreasingUnique(xs: seq<nat>, ys: seq<nat>)
    requires Increasing(xs) && Increasing(ys)
    requires forall i :: i in xs <==> i in ys
    ensures xs == ys
    decreases |xs|
  {
    if |xs| > 0 || |ys| > 0 {
      if |xs| > 0 { assert xs[0] in ys; }
      if |ys| > 0 { assert ys[0] in xs; }
      assert |xs| > 0 && |ys| > 0;
      assert xs[0] == ys[0];
      forall i ensures i in xs[1..] <==> i in ys[1..] {
        if i in xs[1..] {
          assert i in ys && i != ys[0];
        }
        if i in ys[1..] {
          assert i in xs && i != xs[0];
        }
      }
      IncreasingUnique(xs[1..], ys[1..]);
      assert xs == [xs[0]] + xs[1..] && ys == [ys[0]] + ys[1..];
    }
  }

  /**
   * bind(): each request-handling child, in child order, is bound to the
   * request spawned for its identifier; the other children are skipped.
   */
  function Bind(g: Tree, cs: seq<Child>, req: Request): (calls: seq<(nat, Request)>)
    requires ChildrenIn(g, cs)
    ensures |calls| == |HandlerPositions(cs, 0)|
    ensures forall j :: 0 <= j < |calls| ==>
              && calls[j].0 < |cs| && cs[calls[j].0].handler
              && calls[j].1 == Spawned(req, g[cs[calls[j].0].mod].identifier)
    ensures forall a, b :: 0 <= a < b < |calls| ==> calls[a].0 < calls[b].0
    ensures forall i :: 0 <= i < |cs| && cs[i].handler ==> exists j :: 0 <= j < |calls| && calls[j].0 == i
  {
    var ps := HandlerPositions(cs, 0);
    var calls := seq(|ps|, j requires 0 <= j < |ps| => (ps[j], Spawned(req, g[cs[ps[j]].mod].identifier)));
    assert forall i :: 0 <= i < |cs| && cs[i].handler ==> exists j :: 0 <= j < |calls| && calls[j].0 == i by {
      forall i | 0 <= i < |cs| && cs[i].handler ensures exists j :: 0 <= j < |calls| && calls[j].0 == i {
        assert i in ps;
        var j :| 0 <= j < |ps| && ps[j] == i;
        assert calls[j].0 == i;
      }
    }
    calls
  }

  /** process(): the positions of the children called, each request-handling child once, in order. */
  function Process(cs: seq<Child>): (called: seq<nat>)
    ensures Increasing(called)
    ensures forall i :: i in called <==> 0 <= i < |cs| && cs[i].handler
  {
    HandlerPositions(cs, 0)
  }

  /** The calls process() makes are the calls bind() makes, child for child. */
  lemma ProcessMatchesBind(g: Tree, cs: seq<Child>, req: Request)
    requires ChildrenIn(g, cs)
    ensures |Process(cs)| == |Bind(g, cs, req)|
    ensures forall j :: 0 <= j < |Process(cs)| ==> Process(cs)[j] == Bind(g, cs, req)[j].0
  {
    var b := Bind(g, cs, req);
    var ids := seq(|b|, j requires 0 <= j < |b| => b[j].0);
    assert Increasing(ids);
    forall i ensures i in ids <==> i in Process(cs) {
      if i in Process(cs) {
        var j :| 0 <= j < |b| && b[j].0 == i;
        assert ids[j] == i;
      }
    }
    IncreasingUnique(ids, Process(cs));
  }

  /**
   * validate(): the same report goes to every request-handling child in
   * turn, with no early exit; each adds its violations.
   */
  function Validate(cs: seq<Child>, report: seq<string>): (r: seq<string>)
    ensures |r| >= |report| && r[..|report|] == report
    decreases |cs|
  {
    if |cs| == 0 then report
    else
      var r1 := if cs[0].handler then report + cs[0].violations else report;
      var r := Validate(cs[1..], r1);
      assert r[..|report|] == r1[..|report|];
      r
  }

  /** Validating a list is validating its first part, then the rest on the resulting report. */
  lemma {:induction false} ValidateAppend(xs: seq<Child>, ys: seq<Child>, report: seq<string>)
    ensures Validate(xs + ys, report) == Validate(ys, Validate(xs, report))
    decreases |xs|
  {
    if |xs| == 0 {
      assert xs + ys == ys;
    } else {
      assert (xs + ys)[0] == xs[0];
      assert (xs + ys)[1..] == xs[1..] + ys;
      var r1 := if xs[0].handler then report + xs[0].violations else report;
      ValidateAppend(xs[1..], ys, r1);
    }
  }

  /**
   * Every request-handling child's violations reach the report, in one
   * piece, right after what the children before it reported.
   */
  lemma ValidateReachesEveryHandler(cs: seq<Child>, report: seq<string>, i: nat)
    requires i < |cs| && cs[i].handler
    ensures var off := |Validate(cs[..i], report)|;
            && off + |cs[i].violations| <= |Validate(cs, report)|
            && Validate(cs, report)[off..off + |cs[i].violations|] == cs[i].violations
  {
    var before := Validate(cs[..i], report);
    var v := cs[i].violations;
    assert cs == cs[..i] + ([cs[i]] + cs[i + 1..]);
    ValidateAppend(cs[..i], [cs[i]] + cs[i + 1..], report);
    var mid := before + v;
    assert Validate([cs[i]] + cs[i + 1..], before) == Validate(cs[i + 1..], mid);
    var r := Validate(cs[i + 1..], mid);
    assert r[..|mid|] == mid;
    assert r[|before|..|before| + |v|] == mid[|before|..|before| + |v|];
  }

  /** Children that do not handle requests add nothing to the report. */
  lemma {:induction false} ValidateSkipsOthers(cs: seq<Child>, report: seq<string>)
    requires forall i :: 0 <= i < |cs| ==> !cs[i].handler
    ensures Validate(cs, report) == report
    decreases |cs|
  {
    if |cs| > 0 {
      ValidateSkipsOthers(cs[1..], report);
    }
  }

  /** nextPath(): a list never names a next module. */
  function NextPath(): (next: bool)
    ensures !next
  {
    false
  }

  /** The keys the children's views are registered under, in child order. */
  function ChildKeys(g: Tree, cs: seq<Child>): (ks: seq<Key>)
    requires ChildrenIn(g, cs)
    ensures |ks| == |cs| && forall i :: 0 <= i < |cs| ==> ks[i] == KeyOf(g[cs[i].mod].identifier)
  {
    seq(|cs|, i requires 0 <= i < |cs| => KeyOf(g[cs[i].mod].identifier))
  }

  /** The entry a child's view ends up as: a fresh view of the child, prepared by the child. */
  function Prepared(c: Child, prepare: (Mod, View) -> View): Entry {
    Nested(prepare(c.mod, NewView(c.mod)))
  }

  /**
   * One pass of the loop of prepareView(): a view of the child spawned and
   * registered under its identifier, then prepared by the child and stored
   * again (views are values here).
   */
  function PrepareOne(g: Tree, v: View, c: Child, prepare: (Mod, View) -> View): (r: View)
    requires Wf(v.data) && c.mod in g
    ensures Wf(r.data) && r.owner == v.owner && r.modulePath == v.modulePath
    ensures Get(r.data, KeyOf(g[c.mod].identifier)) == Some(Prepared(c, prepare))
    ensures forall k :: k != KeyOf(g[c.mod].identifier) ==> Get(r.data, k) == Get(v.data, k)
  {
    var (v1, inner) := SpawnView(g, v, c.mod, ByIdentifier);
    OffsetSet(v1, StrOffset(g[c.mod].identifier), Nested(prepare(c.mod, inner)))
  }

  /** A child's key is appended when new and keeps its place otherwise. */
  lemma PrepareOneKeys(g: Tree, v: View, c: Child, prepare: (Mod, View) -> View)
    requires Wf(v.data) && c.mod in g
    ensures var k := KeyOf(g[c.mod].identifier);
            Keys(PrepareOne(g, v, c, prepare).data) == if k in Keys(v.data) then Keys(v.data) else Keys(v.data) + [k]
  {
    HasKeyInKeys(v.data, KeyOf(g[c.mod].identifier));
  }

  /**
   * The loop of prepareView() over every child, request-handling or not.
   * Every child key is present afterwards; no other key changes.
   */
  function PrepareChildren(g: Tree, v: View, cs: seq<Child>, prepare: (Mod, View) -> View): (r: View)
    requires Wf(v.data) && ChildrenIn(g, cs)
    ensures Wf(r.data) && r.owner == v.owner && r.modulePath == v.modulePath
    ensures forall k :: k in ChildKeys(g, cs) ==> HasKey(r.data, k)
    ensures forall k :: k !in ChildKeys(g, cs) ==> Get(r.data, k) == Get(v.data, k)
    decreases |cs|
  {
    if |cs| == 0 then v
    else
      var r := PrepareChildren(g, PrepareOne(g, v, cs[0], prepare), cs[1..], prepare);
      assert ChildKeys(g, cs) == [KeyOf(g[cs[0].mod].identifier)] + ChildKeys(g, cs[1..]);
      r
  }

  /** The entry under a child's key is that child's prepared view, unless a later child has the same key. */
  lemma {:induction false} PrepareChildrenEntry(g: Tree, v: View, cs: seq<Child>, prepare: (Mod, View) -> View, i: nat)
    requires Wf(v.data) && ChildrenIn(g, cs) && i < |cs|
    requires ChildKeys(g, cs)[i] !in ChildKeys(g, cs)[i + 1..]
    ensures Get(PrepareChildren(g, v, cs, prepare).data, ChildKeys(g, cs)[i]) == Some(Prepared(cs[i], prepare))
    decreases |cs|
  {
    var v1 := PrepareOne(g, v, cs[0], prepare);
    var ks := ChildKeys(g, cs);
    var rest := ChildKeys(g, cs[1..]);
    assert ks[1..] == rest;
    if i > 0 {
      assert rest[i - 1] == ks[i];
      assert rest[i..] == ks[i + 1..];
      PrepareChildrenEntry(g, v1, cs[1..], prepare, i - 1);
    }
  }

  /** The keys of ks not in present, each once, in order of first appearance. */
  function NewKeys(present: seq<Key>, ks: seq<Key>): (r: seq<Key>)
    decreases |ks|
  {
    if |ks| == 0 then []
    else if ks[0] in present then NewKeys(present, ks[1..])
    else [ks[0]] + NewKeys(present + [ks[0]], ks[1..])
  }

  /** Distinct keys, none present yet, are all new, in their own order. */
  lemma {:induction false} NewKeysAllFresh(present: seq<Key>, ks: seq<Key>)
    requires forall i, j :: 0 <= i < j < |ks| ==> ks[i] != ks[j]
    requires forall i :: 0 <= i < |ks| ==> ks[i] !in present
    ensures NewKeys(present, ks) == ks
    decreases |ks|
  {
    if |ks| > 0 {
      assert ks[0] !in present;
      forall i | 0 <= i < |ks[1..]| ensures ks[1..][i] !in present + [ks[0]] {
        assert ks[1..][i] == ks[i + 1];
      }
      NewKeysAllFresh(present + [ks[0]], ks[1..]);
      assert [ks[0]] + ks[1..] == ks;
    }
  }

  /**
   * The loop appends each child key the view does not have yet, in the
   * order of the children; keys already there keep their place.
   */
  lemma {:induction false} PrepareChildrenKeys(g: Tree, v: View, cs: seq<Child>, prepare: (Mod, View) -> View)
    requires Wf(v.data) && ChildrenIn(g, cs)
    ensures Keys(PrepareChildren(g, v, cs, prepare).data) == Keys(v.data) + NewKeys(Keys(v.data), ChildKeys(g, cs))
    decreases |cs|
  {
    var ks := ChildKeys(g, cs);
    var kv := Keys(v.data);
    if |cs| == 0 {
      assert ks == [];
    } else {
      var k := KeyOf(g[cs[0].mod].identifier);
      var v1 := PrepareOne(g, v, cs[0], prepare);
      var rest := ChildKeys(g, cs[1..]);
      assert ks[0] == k && ks[1..] == rest;
      assert PrepareChildren(g, v, cs, prepare) == PrepareChildren(g, v1, cs[1..], prepare);
      PrepareChildrenKeys(g, v1, cs[1..], prepare);
      PrepareOneKeys(g, v, cs[0], prepare);
      if k in kv {
        assert NewKeys(kv, ks) == NewKeys(kv, rest);
      } else {
        assert NewKeys(kv, ks) == [k] + NewKeys(kv + [k], rest);
        assert kv + [k] + NewKeys(kv + [k], rest) == kv + ([k] + NewKeys(kv + [k], rest));
      }
    }
  }

  /**
   * prepareView(): starting from the view the inherited prepareView()
   * produced (not part of this model), one registered view per child.
   */
  function PrepareView(g: Tree, v: View, cs: seq<Child>, prepare: (Mod, View) -> View): (r: View)
    requires Wf(v.data) && ChildrenIn(g, cs)
    ensures Wf(r.data) && r.owner == v.owner
    ensures forall i :: 0 <= i < |cs| ==> OffsetExists(r, StrOffset(g[cs[i].mod].identifier))
    ensures forall k :: k !in ChildKeys(g, cs) ==> Get(r.data, k) == Get(v.data, k)
    ensures Keys(r.data) == Keys(v.data) + NewKeys(Keys(v.data), ChildKeys(g, cs))
  {
    var r := PrepareChildren(g, v, cs, prepare);
    PrepareChildrenKeys(g, v, cs, prepare);
    assert forall i :: 0 <= i < |cs| ==> ChildKeys(g, cs)[i] in ChildKeys(g, cs);
    r
  }

  /**
   * With distinct identifiers not yet in the view, the child views follow
   * the existing entries in the order of the children.
   */
  lemma PrepareViewKeyOrder(g: Tree, v: View, cs: seq<Child>, prepare: (Mod, View) -> View)
    requires Wf(v.data) && ChildrenIn(g, cs)
    requires forall i, j :: 0 <= i < j < |cs| ==> g[cs[i].mod].identifier != g[cs[j].mod].identifier
    requires forall i :: 0 <= i < |cs| ==> !HasKey(v.data, KeyOf(g[cs[i].mod].identifier))
    ensures Keys(PrepareView(g, v, cs, prepare).data) == Keys(v.data) + ChildKeys(g, cs)
  {
    var ks := ChildKeys(g, cs);
    forall i, j | 0 <= i < j < |ks| ensures ks[i] != ks[j] {
      if ks[i] == ks[j] { KeyOfInjective(g[cs[i].mod].identifier, g[cs[j].mod].identifier); }
    }
    forall i | 0 <= i < |ks| ensures ks[i] !in Keys(v.data) {
      HasKeyInKeys(v.data, ks[i]);
    }
    NewKeysAllFresh(Keys(v.data), ks);
  }

  /**
   * With distinct identifiers, every child's prepared view is found under
   * its identifier.
   */
  lemma PrepareViewRegistersEveryChild(g: Tree, v: View, cs: seq<Child>, prepare: (Mod, View) -> View)
    requires Wf(v.data) && ChildrenIn(g, cs)
    requires forall i, j :: 0 <= i < j < |cs| ==> g[cs[i].mod].identifier != g[cs[j].mod].identifier
    ensures forall i :: 0 <= i < |cs| ==>
              OffsetGet(PrepareView(g, v, cs, prepare), StrOffset(g[cs[i].mod].identifier)) == Prepared(cs[i], prepare)
  {
    var ks := ChildKeys(g, cs);
    forall i | 0 <= i < |cs|
      ensures OffsetGet(PrepareView(g, v, cs, prepare), StrOffset(g[cs[i].mod].identifier)) == Prepared(cs[i], prepare)
    {
      forall j | i + 1 <= j < |cs| ensures ks[j] != ks[i] {
        if ks[j] == ks[i] { KeyOfInjective(g[cs[j].mod].identifier, g[cs[i].mod].identifier); }
      }
      assert ks[i] !in ks[i + 1..];
      PrepareChildrenEntry(g, v, cs, prepare, i);
    }
  }
}

=== FILE: module_loader.dfy ===
/**
 * Nethgui\Module\ModuleLoader: a registry of module instances keyed by
 * identifier. getModule() resolves one identifier against the namespaces,
 * newest first; fillCache() instantiates every module file of every
 * namespace, oldest first, skipping identifiers already cached. Every new
 * instance is handed to the instantiate callbacks in registration order.
 *
 * Instantiation yields a fresh token; class_exists() and scandir() are
 * answered by an environment given as input; a callback is an opaque
 * handle, and each notification is recorded in a trace.
 */
module ModuleLoader {
  import opened Wrappers
  import opened Php
  import opened PhpArray

  /** A module object: a token no other instance carries, and its class. */
  datatype Instance = Instance(token: nat, className: string)

  datatype Callback = Callback(id: nat)

  /**
   * The namespace map (name, root path) in registration order, the instance
   * cache, the callbacks, whether the cache was filled, the next free token,
   * and the notifications made so far.
   */
  datatype Loader = Loader(
    namespaces: seq<(string, string)>,
    cache: Array<Instance>,
    callbacks: seq<Callback>,
    filled: bool,
    nextToken: nat,
    notified: seq<(Callback, Instance)>)

  /** The classes class_exists() finds and the directories scandir() can list. */
  datatype Env = Env(classes: set<string>, dirs: map<string, seq<string>>)

  datatype LoaderError =
    | UnknownModule(identifier: string)
    | InvalidModuleDirectory(path: string)
    | ClassNotFound(className: string)

  /** Every instance was created by this loader, and no two cached instances share a token. */
  predicate Valid(l: Loader) {
    && Wf(l.cache)
    && (forall i :: 0 <= i < |l.cache.entries| ==> l.cache.entries[i].1.token < l.nextToken)
    && (forall i, j :: 0 <= i < j < |l.cache.entries| ==> l.cache.entries[i].1.token != l.cache.entries[j].1.token)
    && (forall i :: 0 <= i < |l.notified| ==> l.notified[i].1.token < l.nextToken)
  }

  /** The constructor: the namespace map, an empty cache and no callbacks. */
  function NewLoader(namespaces: seq<(string, string)>): (l: Loader)
    ensures Valid(l) && !l.filled && |l.cache.entries| == 0 && |l.callbacks| == 0
  {
    Loader(namespaces, Empty(), [], false, 0, [])
  }

  /** addInstantiateCallback(): the callback is called for every later instance, after the earlier ones. */
  function AddInstantiateCallback(l: Loader, c: Callback): (r: Loader)
    ensures r.callbacks == l.callbacks + [c]
    ensures r == l.(callbacks := r.callbacks)
  {
    l.(callbacks := l.callbacks + [c])
  }

  /** The class a namespace provides for an identifier: `<ns>\Module\<id>`. */
  function ClassName(ns: string, id: string): string {
    ns + "\\Module\\" + id
  }

  /** notifyCallbacks(): one call per callback, in registration order, each with the instance. */
  function Notify(cbs: seq<Callback>, inst: Instance): (n: seq<(Callback, Instance)>)
    ensures |n| == |cbs|
    ensures forall i :: 0 <= i < |n| ==> n[i] == (cbs[i], inst)
  {
    seq(|cbs|, i requires 0 <= i < |cbs| => (cbs[i], inst))
  }

  /**
   * The notifications for a run of newly cached instances: each instance,
   * in caching order, handed to every callback in registration order.
   */
  function Announcements(cbs: seq<Callback>, es: seq<(Key, Instance)>): (a: seq<(Callback, Instance)>)
    decreases |es|
  {
    if |es| == 0 then [] else Notify(cbs, es[0].1) + Announcements(cbs, es[1..])
  }

  /** The i-th instance is announced to the j-th callback at position i * |cbs| + j, and nothing else is. */
  lemma {:induction false} AnnouncementsOrder(cbs: seq<Callback>, es: seq<(Key, Instance)>)
    ensures |Announcements(cbs, es)| == |es| * |cbs|
    ensures forall i, j :: 0 <= i < |es| && 0 <= j < |cbs| ==>
              AnnouncedAt(Announcements(cbs, es), cbs, i, j) == (cbs[j], es[i].1)
    decreases |es|
  {
    if |es| > 0 {
      var c := |cbs|;
      var rest := Announcements(cbs, es[1..]);
      var a := Announcements(cbs, es);
      AnnouncementsOrder(cbs, es[1..]);
      assert |es| * c == c + (|es| - 1) * c;
      forall i, j | 0 <= i < |es| && 0 <= j < c
        ensures AnnouncedAt(a, cbs, i, j) == (cbs[j], es[i].1)
      {
        if i > 0 {
          var k := (i - 1) * c + j;
          IndexBelow(i - 1, |es| - 1, j, c);
          assert i * c + j == c + k;
          assert a[c + k] == rest[k];
          assert AnnouncedAt(rest, cbs, i - 1, j) == (cbs[j], es[1..][i - 1].1);
        }
      }
    }
  }

  /** Row-major positions stay inside the table. */
  lemma IndexBelow(i: nat, n: nat, j: nat, c: nat)
    requires i < n && j < c
    ensures i * c + j < n * c
  {
    assert (i + 1) * c <= n * c by {
      assert n * c == (i + 1) * c + (n - i - 1) * c;
    }
  }

  /** The notification of the i-th instance to the j-th callback. */
  function AnnouncedAt(a: seq<(Callback, Instance)>, cbs: seq<Callback>, i: nat, j: nat): (Callback, Instance) {
    if i * |cbs| + j < |a| then a[i * |cbs| + j] else (Callback(0), Instance(0, ""))
  }

  lemma AnnouncementsCons(cbs: seq<Callback>, e: (Key, Instance), es: seq<(Key, Instance)>)
    ensures Announcements(cbs, [e] + es) == Notify(cbs, e.1) + Announcements(cbs, es)
  {
    assert ([e] + es)[1..] == es;
  }

  lemma {:induction false} AnnouncementsAppend(cbs: seq<Callback>, xs: seq<(Key, Instance)>, ys: seq<(Key, Instance)>)
    ensures Announcements(cbs, xs + ys) == Announcements(cbs, xs) + Announcements(cbs, ys)
    decreases |xs|
  {
    if |xs| == 0 {
      assert xs + ys == ys;
    } else {
      assert xs + ys == [xs[0]] + (xs[1..] + ys);
      AnnouncementsCons(cbs, xs[0], xs[1..] + ys);
      AnnouncementsAppend(cbs, xs[1..], ys);
      AnnouncementsCons(cbs, xs[0], xs[1..]);
      assert [xs[0]] + xs[1..] == xs;
    }
  }

  /** A callback added last is called last, after the earlier ones. */
  lemma NotifyAppend(cbs: seq<Callback>, c: Callback, inst: Instance)
    ensures Notify(cbs + [c], inst) == Notify(cbs, inst) + [(c, inst)]
  {
  }

  /** `new $className()` followed by notifyCallbacks(). */
  function Instantiate(l: Loader, className: string): (r: (Loader, Instance))
    requires Valid(l)
    ensures r.1 == Instance(l.nextToken, className)
    ensures forall i :: 0 <= i < |l.cache.entries| ==> l.cache.entries[i].1.token != r.1.token
    ensures r.0 == l.(nextToken := l.nextToken + 1, notified := l.notified + Notify(l.callbacks, r.1))
    ensures Valid(r.0)
  {
    var inst := Instance(l.nextToken, className);
    (l.(nextToken := l.nextToken + 1, notified := l.notified + Notify(l.callbacks, inst)), inst)
  }

  /** Stores a just created instance under an identifier not yet cached. */
  function Cache(l: Loader, id: string, inst: Instance): (r: Loader)
    requires Valid(l) && !HasKey(l.cache, KeyOf(id)) && inst.token < l.nextToken
    requires forall i :: 0 <= i < |l.cache.entries| ==> l.cache.entries[i].1.token != inst.token
    ensures Valid(r)
    ensures r == l.(cache := r.cache)
    ensures Get(r.cache, KeyOf(id)) == Some(inst)
    ensures forall k :: k != KeyOf(id) ==> Get(r.cache, k) == Get(l.cache, k)
    ensures Keys(r.cache) == Keys(l.cache) + [KeyOf(id)]
    ensures r.cache.entries == l.cache.entries + [(KeyOf(id), inst)]
  {
    var c := Put(l.cache, KeyOf(id), inst);
    assert c.entries == l.cache.entries + [(KeyOf(id), inst)];
    l.(cache := c)
  }

  // ---------------------------------------------------------------------
  // getModule

  function Names(ns: seq<(string, string)>): (names: seq<string>)
    ensures |names| == |ns| && forall i :: 0 <= i < |ns| ==> names[i] == ns[i].0
  {
    seq(|ns|, i requires 0 <= i < |ns| => ns[i].0)
  }

  /**
   * The namespace getModule() takes the class from: popping names off the
   * end, the first whose class exists, stopping early at a falsy name.
   */
  function Resolve(names: seq<string>, id: string, classes: set<string>): (r: Option<nat>)
    ensures r.Some? ==> r.value < |names| && ClassName(names[r.value], id) in classes
    ensures r.Some? ==> !FalsyString(names[r.value])
    ensures r.Some? ==> forall j :: r.value < j < |names| ==> !FalsyString(names[j]) && ClassName(names[j], id) !in classes
    ensures r.None? ==> forall j :: 0 <= j < |names| ==>
              ClassName(names[j], id) !in classes || exists j' :: j <= j' < |names| && FalsyString(names[j'])
    decreases |names|
  {
    if |names| == 0 then None
    else
      var last := |names| - 1;
      if FalsyString(names[last]) then None
      else if ClassName(names[last], id) in classes then Some(last)
      else
        var r := Resolve(names[..last], id, classes);
        assert forall j :: 0 <= j < last ==> names[..last][j] == names[j];
        r
  }

  /** With no falsy name in the map, the newest namespace providing the class wins, and any provider is found. */
  lemma ResolveNewestWins(names: seq<string>, id: string, classes: set<string>, i: nat)
    requires forall j :: 0 <= j < |names| ==> !FalsyString(names[j])
    requires i < |names| && ClassName(names[i], id) in classes
    ensures Resolve(names, id, classes).Some?
    ensures i <= Resolve(names, id, classes).value
  {
  }

  /**
   * getModule(): a cached identifier gives the identical instance and
   * changes nothing; otherwise the resolved class is instantiated, the
   * callbacks are notified and the instance is cached; an identifier no
   * namespace resolves is an error naming it.
   */
  function GetModule(l: Loader, env: Env, id: string): (r: Result<(Loader, Instance), LoaderError>)
    requires Valid(l)
    ensures HasKey(l.cache, KeyOf(id)) ==> r == Ok((l, Get(l.cache, KeyOf(id)).value))
    ensures !HasKey(l.cache, KeyOf(id)) ==>
              (r.Err? <==> Resolve(Names(l.namespaces), id, env.classes).None?)
    ensures r.Err? ==> r.error == UnknownModule(id)
    ensures r.Ok? ==> Valid(r.value.0) && Get(r.value.0.cache, KeyOf(id)) == Some(r.value.1)
    ensures r.Ok? ==> forall k :: k != KeyOf(id) ==> Get(r.value.0.cache, k) == Get(l.cache, k)
    ensures r.Ok? && !HasKey(l.cache, KeyOf(id)) ==>
              var (l1, inst) := r.value;
              && inst.token == l.nextToken
              && inst.className == ClassName(l.namespaces[Resolve(Names(l.namespaces), id, env.classes).value].0, id)
              && l1.notified == l.notified + Notify(l.callbacks, inst)
              && l1.nextToken == l.nextToken + 1
              && l1.callbacks == l.callbacks && l1.namespaces == l.namespaces && l1.filled == l.filled
              && Keys(l1.cache) == Keys(l.cache) + [KeyOf(id)]
  {
    match Get(l.cache, KeyOf(id))
    case Some(inst) => Ok((l, inst))
    case None =>
      match Resolve(Names(l.namespaces), id, env.classes)
      case None => Err(UnknownModule(id))
      case Some(i) =>
        var (l1, inst) := Instantiate(l, ClassName(l.namespaces[i].0, id));
        Ok((Cache(l1, id, inst), inst))
  }

  /**
   * A callback added with addInstantiateCallback() hears of the next
   * instance getModule() creates, after the callbacks added before it.
   */
  lemma CallbackHearsNewModule(l: Loader, c: Callback, env: Env, id: string)
    requires Valid(l) && !HasKey(l.cache, KeyOf(id))
    requires GetModule(AddInstantiateCallback(l, c), env, id).Ok?
    ensures var (l1, inst) := GetModule(AddInstantiateCallback(l, c), env, id).value;
            l1.notified == l.notified + Notify(l.callbacks, inst) + [(c, inst)]
  {
    var (l1, inst) := GetModule(AddInstantiateCallback(l, c), env, id).value;
    NotifyAppend(l.callbacks, c, inst);
  }

  /** Nothing is notified when the module is already cached. */
  lemma CachedModuleIsSilent(l: Loader, env: Env, id: string)
    requires Valid(l) && HasKey(l.cache, KeyOf(id))
    ensures GetModule(l, env, id).Ok? && GetModule(l, env, id).value.0.notified == l.notified
  {
  }

  /** A second getModule() of the same identifier is a cache hit: same instance, no change, no callback. */
  lemma GetModuleMemoised(l: Loader, env: Env, env2: Env, id: string)
    requires Valid(l) && GetModule(l, env, id).Ok?
    ensures var (l1, inst) := GetModule(l, env, id).value;
            GetModule(l1, env2, id) == Ok((l1, inst))
  {
  }

  /** A newly created module never shares its token with an instance seen before. */
  lemma GetModuleFresh(l: Loader, env: Env, id: string)
    requires Valid(l) && !HasKey(l.cache, KeyOf(id)) && GetModule(l, env, id).Ok?
    ensures var inst := GetModule(l, env, id).value.1;
            && (forall i :: 0 <= i < |l.cache.entries| ==> l.cache.entries[i].1.token != inst.token)
            && (forall i :: 0 <= i < |l.notified| ==> l.notified[i].1.token != inst.token)
  {
  }

  // ---------------------------------------------------------------------
  // fillCache and getIterator

  /** `substr($f, -4) === '.php'` (a name shorter than four characters is returned whole). */
  predicate IsPhpFile(f: string) {
    |f| >= 4 && f[|f| - 4..] == ".php"
  }

  /** `substr($f, 0, -4)`. */
  function FileId(f: string): (id: string)
    requires IsPhpFile(f)
    ensures id + ".php" == f
  {
    f[..|f| - 4]
  }

  /** A module file names exactly one identifier. */
  lemma FileIdOf(f: string, id: string)
    requires IsPhpFile(f)
    ensures FileId(f) == id <==> f == id + ".php"
  {
    if f == id + ".php" {
      assert f[..|f| - 4] == id;
    }
  }

  /** The directory fillCache() lists for a namespace. */
  function ModuleDir(ns: (string, string)): string {
    ns.1 + "/" + ns.0 + "/Module"
  }

  /** The identifiers a listing names. */
  predicate Lists(files: seq<string>, id: string) {
    id + ".php" in files
  }

  /** A listing names what its first file names and what the rest names. */
  lemma ListsCons(files: seq<string>)
    requires |files| > 0
    ensures forall id :: Lists(files, id) <==> files[0] == id + ".php" || Lists(files[1..], id)
  {
    assert files == [files[0]] + files[1..];
  }

  /** The identifiers a single file name names: FileId() of a module file, none otherwise. */
  lemma FileNames(f: string)
    ensures !IsPhpFile(f) ==> forall id :: f != id + ".php"
    ensures IsPhpFile(f) ==> forall id :: f == id + ".php" <==> id == FileId(f)
  {
    if IsPhpFile(f) {
      forall id ensures f == id + ".php" <==> id == FileId(f) { FileIdOf(f, id); }
    }
  }

  /** No other identifier shares an identifier's cache key. */
  lemma KeyOfOnly(id: string)
    ensures forall id' :: KeyOf(id') == KeyOf(id) ==> id' == id
  {
    forall id' | KeyOf(id') == KeyOf(id) ensures id' == id { KeyOfInjective(id', id); }
  }

  /**
   * l1 follows l: the instances cached since were appended to the cache,
   * and each was announced to every callback, in caching order, with
   * nothing else notified.
   */
  predicate Extends(l: Loader, l1: Loader) {
    && |l.cache.entries| <= |l1.cache.entries|
    && l1.cache.entries[..|l.cache.entries|] == l.cache.entries
    && l1.notified == l.notified + Announcements(l.callbacks, l1.cache.entries[|l.cache.entries|..])
  }

  /** Caching one announced instance and then extending further extends the start. */
  lemma ExtendsStep(l: Loader, l2: Loader, r: Loader, k: Key, inst: Instance)
    requires l2.cache.entries == l.cache.entries + [(k, inst)]
    requires l2.notified == l.notified + Notify(l.callbacks, inst)
    requires l2.callbacks == l.callbacks
    requires Extends(l2, r)
    ensures Extends(l, r)
  {
    var n := |l.cache.entries|;
    var later := r.cache.entries[n + 1..];
    assert r.cache.entries[..n] == l2.cache.entries[..n] == l.cache.entries;
    assert r.cache.entries[n] == (k, inst);
    assert r.cache.entries[n..] == [(k, inst)] + later;
    AnnouncementsCons(l.callbacks, (k, inst), later);
  }

  /**
   * The inner loop of fillCache(): every module file of one namespace
   * whose identifier is not cached yet is instantiated and cached. A
   * class that cannot be loaded stops the loop with what was cached so far.
   */
  function FillFiles(l: Loader, env: Env, ns: string, files: seq<string>): (r: (Loader, Option<LoaderError>))
    requires Valid(l)
    ensures Valid(r.0) && r.0.namespaces == l.namespaces && r.0.callbacks == l.callbacks && r.0.filled == l.filled
    ensures forall k :: HasKey(l.cache, k) ==> Get(r.0.cache, k) == Get(l.cache, k)
    ensures r.1.None? ==> forall id :: Lists(files, id) ==> HasKey(r.0.cache, KeyOf(id))
    ensures r.1.None? ==> forall id :: Lists(files, id) && !HasKey(l.cache, KeyOf(id)) ==>
              Get(r.0.cache, KeyOf(id)).Some? && Get(r.0.cache, KeyOf(id)).value.className == ClassName(ns, id)
    ensures forall id :: !Lists(files, id) && !HasKey(l.cache, KeyOf(id)) ==> !HasKey(r.0.cache, KeyOf(id))
    decreases |files|
  {
    if |files| == 0 then (l, None)
    else
      var f := files[0];
      var rest := files[1..];
      ListsCons(files);
      FileNames(f);
      if !IsPhpFile(f) then FillFiles(l, env, ns, rest)
      else
        var id := FileId(f);
        if HasKey(l.cache, KeyOf(id)) then FillFiles(l, env, ns, rest)
        else
          var cls := ClassName(ns, id);
          if cls !in env.classes then (l, Some(ClassNotFound(cls)))
          else
            var (l1, inst) := Instantiate(l, cls);
            var l2 := Cache(l1, id, inst);
            KeyOfOnly(id);
            FillFiles(l2, env, ns, rest)
  }

  /** Every instance the inner loop creates is announced to the callbacks, in the order it is cached. */
  lemma {:induction false} FillFilesAnnounces(l: Loader, env: Env, ns: string, files: seq<string>)
    requires Valid(l)
    ensures Extends(l, FillFiles(l, env, ns, files).0)
    decreases |files|
  {
    if |files| == 0 {
      assert l.cache.entries[|l.cache.entries|..] == [];
    } else {
      var f := files[0];
      if IsPhpFile(f) {
        var id := FileId(f);
        var cls := ClassName(ns, id);
        if !HasKey(l.cache, KeyOf(id)) && cls in env.classes {
          var (l1, inst) := Instantiate(l, cls);
          var l2 := Cache(l1, id, inst);
          FillFilesAnnounces(l2, env, ns, files[1..]);
          ExtendsStep(l, l2, FillFiles(l2, env, ns, files[1..]).0, KeyOf(id), inst);
        } else if HasKey(l.cache, KeyOf(id)) {
          FillFilesAnnounces(l, env, ns, files[1..]);
        } else {
          assert l.cache.entries[|l.cache.entries|..] == [];
        }
      } else {
        FillFilesAnnounces(l, env, ns, files[1..]);
      }
    }
  }

  /** The outer loop of fillCache(): the namespaces in registration order, skipping 'Nethgui'. */
  function FillNamespaces(l: Loader, env: Env, nss: seq<(string, string)>): (r: (Loader, Option<LoaderError>))
    requires Valid(l)
    ensures Valid(r.0) && r.0.namespaces == l.namespaces && r.0.callbacks == l.callbacks && r.0.filled == l.filled
    ensures forall k :: HasKey(l.cache, k) ==> Get(r.0.cache, k) == Get(l.cache, k)
    decreases |nss|
  {
    if |nss| == 0 then (l, None)
    else if nss[0].0 == "Nethgui" then FillNamespaces(l, env, nss[1..])
    else
      var path := ModuleDir(nss[0]);
      if path !in env.dirs then (l, Some(InvalidModuleDirectory(path)))
      else
        var (l1, e) := FillFiles(l, env, nss[0].0, env.dirs[path]);
        if e.Some? then (l1, e) else FillNamespaces(l1, env, nss[1..])
  }

  /** Extending twice, with the same callbacks, is extending. */
  lemma ExtendsTrans(a: Loader, b: Loader, c: Loader)
    requires Extends(a, b) && Extends(b, c) && b.callbacks == a.callbacks
    ensures Extends(a, c)
  {
    var n := |a.cache.entries|;
    var m := |b.cache.entries|;
    var cs := c.cache.entries;
    var xs := b.cache.entries[n..];
    var ys := cs[m..];
    assert cs[..n] == cs[..m][..n];
    assert cs[n..] == xs + ys by {
      assert cs[n..] == cs[n..m] + cs[m..];
      assert cs[n..m] == cs[..m][n..];
    }
    AnnouncementsAppend(a.callbacks, xs, ys);
    ConcatAssoc(a.notified, Announcements(a.callbacks, xs), Announcements(a.callbacks, ys));
  }

  lemma ConcatAssoc<T>(x: seq<T>, y: seq<T>, z: seq<T>)
    ensures (x + y) + z == x + (y + z)
  {
  }

  /** Every instance the whole fill creates is announced, in the order it is cached. */
  lemma {:induction false} FillNamespacesAnnounces(l: Loader, env: Env, nss: seq<(string, string)>)
    requires Valid(l)
    ensures Extends(l, FillNamespaces(l, env, nss).0)
    decreases |nss|
  {
    if |nss| == 0 || (nss[0].0 != "Nethgui" && ModuleDir(nss[0]) !in env.dirs) {
      assert l.cache.entries[|l.cache.entries|..] == [];
    } else if nss[0].0 == "Nethgui" {
      FillNamespacesAnnounces(l, env, nss[1..]);
    } else {
      var files := env.dirs[ModuleDir(nss[0])];
      var (l1, e) := FillFiles(l, env, nss[0].0, files);
      FillFilesAnnounces(l, env, nss[0].0, files);
      if e.None? {
        FillNamespacesAnnounces(l1, env, nss[1..]);
        ExtendsTrans(l, l1, FillNamespaces(l1, env, nss[1..]).0);
      }
    }
  }

  // The outcome of the fill

  /** Every listed identifier not cached yet has a class in the namespace. */
  ghost predicate AllFound(l: Loader, env: Env, ns: string, files: seq<string>) {
    forall id :: Lists(files, id) && !HasKey(l.cache, KeyOf(id)) ==> ClassName(ns, id) in env.classes
  }

  /** e reports the missing class of a listed identifier not cached yet. */
  ghost predicate ReportsMissing(l: Loader, env: Env, ns: string, files: seq<string>, e: LoaderError) {
    exists id :: && Lists(files, id) && !HasKey(l.cache, KeyOf(id))
                 && ClassName(ns, id) !in env.classes && e == ClassNotFound(ClassName(ns, id))
  }

  /** A first file that names no module, or a module already cached, changes neither judgement. */
  lemma SkipFile(l: Loader, env: Env, ns: string, files: seq<string>, e: LoaderError)
    requires |files| > 0 && (!IsPhpFile(files[0]) || HasKey(l.cache, KeyOf(FileId(files[0]))))
    ensures AllFound(l, env, ns, files) <==> AllFound(l, env, ns, files[1..])
    ensures ReportsMissing(l, env, ns, files[1..], e) ==> ReportsMissing(l, env, ns, files, e)
  {
    ListsCons(files);
    FileNames(files[0]);
    if ReportsMissing(l, env, ns, files[1..], e) {
      var id :| && Lists(files[1..], id) && !HasKey(l.cache, KeyOf(id))
                && ClassName(ns, id) !in env.classes && e == ClassNotFound(ClassName(ns, id));
      assert Lists(files, id);
    }
  }

  /** Caching the first file's module, whose class exists, moves both judgements to the rest. */
  lemma CacheFile(l: Loader, l2: Loader, env: Env, ns: string, files: seq<string>, id: string, e: LoaderError)
    requires |files| > 0 && files[0] == id + ".php" && ClassName(ns, id) in env.classes
    requires forall id' :: HasKey(l2.cache, KeyOf(id')) <==> HasKey(l.cache, KeyOf(id')) || id' == id
    ensures AllFound(l, env, ns, files) <==> AllFound(l2, env, ns, files[1..])
    ensures ReportsMissing(l2, env, ns, files[1..], e) ==> ReportsMissing(l, env, ns, files, e)
  {
    ListsCons(files);
    if AllFound(l, env, ns, files) {
      forall id' | Lists(files[1..], id') && !HasKey(l2.cache, KeyOf(id')) ensures ClassName(ns, id') in env.classes {
        assert Lists(files, id');
      }
    }
    if AllFound(l2, env, ns, files[1..]) {
      forall id' | Lists(files, id') && !HasKey(l.cache, KeyOf(id')) ensures ClassName(ns, id') in env.classes {
        if id' != id {
          FileNames(files[0]);
          assert Lists(files[1..], id');
        }
      }
    }
    if ReportsMissing(l2, env, ns, files[1..], e) {
      var id' :| && Lists(files[1..], id') && !HasKey(l2.cache, KeyOf(id'))
                 && ClassName(ns, id') !in env.classes && e == ClassNotFound(ClassName(ns, id'));
      assert Lists(files, id');
    }
  }

  /**
   * What makes the inner loop fail: a listed identifier, not cached yet,
   * whose class is missing; the error names that class.
   */
  lemma {:induction false} FillFilesOutcome(l: Loader, env: Env, ns: string, files: seq<string>)
    requires Valid(l)
    ensures FillFiles(l, env, ns, files).1.None? <==> AllFound(l, env, ns, files)
    ensures FillFiles(l, env, ns, files).1.Some? ==> ReportsMissing(l, env, ns, files, FillFiles(l, env, ns, files).1.value)
    decreases |files|
  {
    if |files| > 0 {
      var f := files[0];
      var rest := files[1..];
      var e := if FillFiles(l, env, ns, files).1.Some? then FillFiles(l, env, ns, files).1.value else UnknownModule("");
      if !IsPhpFile(f) || HasKey(l.cache, KeyOf(FileId(f))) {
        FillFilesOutcome(l, env, ns, rest);
        SkipFile(l, env, ns, files, e);
      } else {
        var id := FileId(f);
        var cls := ClassName(ns, id);
        if cls !in env.classes {
          ListsCons(files);
          assert Lists(files, id);
        } else {
          var (l1, inst) := Instantiate(l, cls);
          var l2 := Cache(l1, id, inst);
          KeyOfOnly(id);
          FillFilesOutcome(l2, env, ns, rest);
          CacheFile(l, l2, env, ns, files, id, e);
        }
      }
    }
  }

  /** Every namespace other than 'Nethgui' has a module directory that can be listed. */
  ghost predicate DirsListed(env: Env, nss: seq<(string, string)>) {
    forall i :: 0 <= i < |nss| && nss[i].0 != "Nethgui" ==> ModuleDir(nss[i]) in env.dirs
  }

  lemma DirsListedCons(env: Env, nss: seq<(string, string)>)
    requires |nss| > 0
    ensures DirsListed(env, nss) <==> (nss[0].0 != "Nethgui" ==> ModuleDir(nss[0]) in env.dirs) && DirsListed(env, nss[1..])
  {
    assert forall i :: 1 <= i < |nss| ==> nss[i] == nss[1..][i - 1];
  }

  /** Every identifier not cached yet has, in the first namespace listing it, a class that exists. */
  ghost predicate ClassesFound(l: Loader, env: Env, nss: seq<(string, string)>) {
    forall id :: !HasKey(l.cache, KeyOf(id)) && FirstProvider(env, nss, id).Some? ==>
      ClassName(FirstProvider(env, nss, id).value, id) in env.classes
  }

  /**
   * Past a first namespace that fills without error, the identifiers still
   * missing are those it did not list, and their providers are the later ones.
   */
  lemma ClassesFoundStep(l: Loader, env: Env, nss: seq<(string, string)>)
    requires Valid(l) && |nss| > 0 && nss[0].0 != "Nethgui" && ModuleDir(nss[0]) in env.dirs
    requires FillFiles(l, env, nss[0].0, env.dirs[ModuleDir(nss[0])]).1.None?
    ensures var l1 := FillFiles(l, env, nss[0].0, env.dirs[ModuleDir(nss[0])]).0;
            ClassesFound(l, env, nss) <==> ClassesFound(l1, env, nss[1..])
  {
    var files := env.dirs[ModuleDir(nss[0])];
    var l1 := FillFiles(l, env, nss[0].0, files).0;
    FillFilesOutcome(l, env, nss[0].0, files);
    assert forall id :: !HasKey(l1.cache, KeyOf(id)) <==> !HasKey(l.cache, KeyOf(id)) && !Lists(files, id);
    assert forall id :: FirstProvider(env, nss, id) == if Lists(files, id) then Some(nss[0].0) else FirstProvider(env, nss[1..], id);
  }

  /**
   * fillCache()'s loop succeeds exactly when every module directory can be
   * listed and every identifier's class exists in the first namespace that
   * lists it; a missing class is reported with the class its first
   * provider would have, for an identifier that was not cached.
   */
  lemma {:induction false} FillNamespacesOutcome(l: Loader, env: Env, nss: seq<(string, string)>)
    requires Valid(l)
    ensures FillNamespaces(l, env, nss).1.None? <==> DirsListed(env, nss) && ClassesFound(l, env, nss)
    ensures FillNamespaces(l, env, nss).1.Some? && FillNamespaces(l, env, nss).1.value.ClassNotFound? ==>
              exists id :: && !HasKey(l.cache, KeyOf(id)) && FirstProvider(env, nss, id).Some?
                           && FillNamespaces(l, env, nss).1.value.className == ClassName(FirstProvider(env, nss, id).value, id)
                           && ClassName(FirstProvider(env, nss, id).value, id) !in env.classes
    decreases |nss|
  {
    if |nss| == 0 {
    } else if nss[0].0 == "Nethgui" {
      FillNamespacesOutcome(l, env, nss[1..]);
      DirsListedCons(env, nss);
      assert forall id :: FirstProvider(env, nss, id) == FirstProvider(env, nss[1..], id);
    } else if ModuleDir(nss[0]) !in env.dirs {
      assert !DirsListed(env, nss);
    } else {
      var files := env.dirs[ModuleDir(nss[0])];
      var (l1, e) := FillFiles(l, env, nss[0].0, files);
      FillFilesOutcome(l, env, nss[0].0, files);
      assert forall id :: Lists(files, id) ==> FirstProvider(env, nss, id) == Some(nss[0].0);
      if e.None? {
        FillNamespacesOutcome(l1, env, nss[1..]);
        ClassesFoundStep(l, env, nss);
        DirsListedCons(env, nss);
        var r := FillNamespaces(l1, env, nss[1..]);
        if r.1.Some? && r.1.value.ClassNotFound? {
          var id :| && !HasKey(l1.cache, KeyOf(id)) && FirstProvider(env, nss[1..], id).Some?
                    && r.1.value.className == ClassName(FirstProvider(env, nss[1..], id).value, id)
                    && ClassName(FirstProvider(env, nss[1..], id).value, id) !in env.classes;
          FillFilesNotListed(l, env, nss[0].0, files, id);
          assert FirstProvider(env, nss, id) == FirstProvider(env, nss[1..], id);
        }
      } else {
        var id :| && Lists(files, id) && !HasKey(l.cache, KeyOf(id)) && ClassName(nss[0].0, id) !in env.classes
                  && e == Some(ClassNotFound(ClassName(nss[0].0, id)));
        assert !ClassesFound(l, env, nss);
      }
    }
  }

  /** After a complete inner loop, an identifier still missing was not listed and was not cached before. */
  lemma FillFilesNotListed(l: Loader, env: Env, ns: string, files: seq<string>, id: string)
    requires Valid(l) && FillFiles(l, env, ns, files).1.None?
    requires !HasKey(FillFiles(l, env, ns, files).0.cache, KeyOf(id))
    ensures !Lists(files, id) && !HasKey(l.cache, KeyOf(id))
  {
  }

  /**
   * A namespace whose module directory cannot be listed, reached with no
   * missing class before it, makes fillCache() fail with that directory.
   */
  lemma {:induction false} FillStopsAtUnlistedDir(l: Loader, env: Env, nss: seq<(string, string)>, i: nat)
    requires Valid(l) && i < |nss| && nss[i].0 != "Nethgui" && ModuleDir(nss[i]) !in env.dirs
    requires DirsListed(env, nss[..i]) && ClassesFound(l, env, nss[..i])
    ensures FillNamespaces(l, env, nss).1 == Some(InvalidModuleDirectory(ModuleDir(nss[i])))
    decreases i
  {
    if i > 0 {
      var pre := nss[..i];
      assert pre[0] == nss[0];
      assert pre[1..] == nss[1..][..i - 1];
      DirsListedCons(env, pre);
      if nss[0].0 == "Nethgui" {
        assert forall id :: FirstProvider(env, pre, id) == FirstProvider(env, pre[1..], id);
        FillStopsAtUnlistedDir(l, env, nss[1..], i - 1);
      } else {
        var files := env.dirs[ModuleDir(nss[0])];
        assert AllFound(l, env, nss[0].0, files) by {
          forall id | Lists(files, id) && !HasKey(l.cache, KeyOf(id)) ensures ClassName(nss[0].0, id) in env.classes {
            assert FirstProvider(env, pre, id) == Some(nss[0].0);
          }
        }
        FillFilesOutcome(l, env, nss[0].0, files);
        ClassesFoundStep(l, env, pre);
        FillStopsAtUnlistedDir(FillFiles(l, env, nss[0].0, files).0, env, nss[1..], i - 1);
      }
    }
  }

  /**
   * The namespace whose class fillCache() instantiates for an identifier:
   * the first, in registration order and other than 'Nethgui', whose
   * module directory lists the identifier's file.
   */
  function FirstProvider(env: Env, nss: seq<(string, string)>, id: string): (r: Option<string>)
    ensures r.Some? ==> exists i :: 0 <= i < |nss| && nss[i].0 == r.value && nss[i].0 != "Nethgui"
    decreases |nss|
  {
    if |nss| == 0 then None
    else if nss[0].0 != "Nethgui" && ModuleDir(nss[0]) in env.dirs && Lists(env.dirs[ModuleDir(nss[0])], id)
    then Some(nss[0].0)
    else
      var r := FirstProvider(env, nss[1..], id);
      assert r.Some? ==> exists i :: 1 <= i < |nss| && nss[i].0 == r.value && nss[i].0 != "Nethgui" by {
        if r.Some? {
          var i :| 0 <= i < |nss[1..]| && nss[1..][i].0 == r.value && nss[1..][i].0 != "Nethgui";
          assert nss[i + 1] == nss[1..][i];
        }
      }
      r
  }

  /**
   * In bulk mode the oldest namespace wins: after a complete fill, an
   * identifier that was not cached holds an instance of the class of the
   * first namespace listing it.
   */
  lemma {:induction false} FillFirstProviderWins(l: Loader, env: Env, nss: seq<(string, string)>, id: string)
    requires Valid(l) && FillNamespaces(l, env, nss).1.None?
    requires !HasKey(l.cache, KeyOf(id)) && FirstProvider(env, nss, id).Some?
    ensures HasKey(FillNamespaces(l, env, nss).0.cache, KeyOf(id))
    ensures Get(FillNamespaces(l, env, nss).0.cache, KeyOf(id)).value.className
            == ClassName(FirstProvider(env, nss, id).value, id)
    decreases |nss|
  {
    if nss[0].0 == "Nethgui" {
      FillFirstProviderWins(l, env, nss[1..], id);
    } else {
      var path := ModuleDir(nss[0]);
      var (l1, e) := FillFiles(l, env, nss[0].0, env.dirs[path]);
      if Lists(env.dirs[path], id) {
        assert Get(l1.cache, KeyOf(id)).value.className == ClassName(nss[0].0, id);
      } else {
        FillFirstProviderWins(l1, env, nss[1..], id);
      }
    }
  }

  /**
   * fillCache(): fills from every namespace and marks the cache filled; a
   * directory that cannot be listed or a class that cannot be loaded
   * leaves the instances created so far cached and `filled` as it was.
   */
  function FillCache(l: Loader, env: Env): (r: (Loader, Option<LoaderError>))
    requires Valid(l)
    ensures Valid(r.0) && r.0.namespaces == l.namespaces && r.0.callbacks == l.callbacks
    ensures r.1.None? ==> r.0.filled
    ensures r.1.Some? ==> r.0.filled == l.filled
    ensures r.1.None? ==> r.0 == FillNamespaces(l, env, l.namespaces).0.(filled := true)
    ensures r.1.Some? ==> r.0 == FillNamespaces(l, env, l.namespaces).0
    ensures forall k :: HasKey(l.cache, k) ==> Get(r.0.cache, k) == Get(l.cache, k)
  {
    var (l1, e) := FillNamespaces(l, env, l.namespaces);
    if e.None? then (l1.(filled := true), None) else (l1, e)
  }

  /** Whether or not it completes, the fill announces every instance it caches, in caching order. */
  lemma FillCacheAnnounces(l: Loader, env: Env)
    requires Valid(l)
    ensures Extends(l, FillCache(l, env).0)
    ensures FillCache(l, env).1.None? <==> DirsListed(env, l.namespaces) && ClassesFound(l, env, l.namespaces)
  {
    FillNamespacesAnnounces(l, env, l.namespaces);
    FillNamespacesOutcome(l, env, l.namespaces);
  }

  /**
   * getIterator(): fills the cache unless it was filled before, then
   * iterates the cached instances in the order they were cached.
   */
  function GetIterator(l: Loader, env: Env): (r: (Loader, Result<seq<(Key, Instance)>, LoaderError>))
    requires Valid(l)
    ensures Valid(r.0)
    ensures l.filled ==> r == (l, Ok(l.cache.entries))
    ensures !l.filled ==> r.0 == FillCache(l, env).0
    ensures r.1.Ok? <==> r.0.filled
    ensures r.1.Ok? ==> r.1.value == r.0.cache.entries
  {
    if l.filled then (l, Ok(l.cache.entries))
    else match FillCache(l, env)
      case (l1, None) => (l1, Ok(l1.cache.entries))
      case (l1, Some(e)) => (l1, Err(e))
  }

  /** Iterating announces exactly the instances the iteration caches. */
  lemma GetIteratorAnnounces(l: Loader, env: Env)
    requires Valid(l)
    ensures Extends(l, GetIterator(l, env).0)
  {
    if l.filled {
      assert l.cache.entries[|l.cache.entries|..] == [];
    } else {
      FillCacheAnnounces(l, env);
    }
  }

  /**
   * The cache is filled at most once: after a successful getIterator(),
   * later calls change nothing and create no instance, whatever the
   * environment then says.
   */
  lemma IteratorFillsOnce(l: Loader, env: Env, env2: Env)
    requires Valid(l) && GetIterator(l, env).1.Ok?
    ensures var l1 := GetIterator(l, env).0;
            GetIterator(l1, env2) == (l1, Ok(l1.cache.entries))
  {
  }

  /** Example: a namespace whose module directory is missing makes fillCache() fail and stay unfilled. */
  lemma MissingDirectoryFails(root: string)
    ensures var l := NewLoader([("Acme", root)]);
            FillCache(l, Env({}, map[])) == (l, Some(InvalidModuleDirectory(root + "/Acme/Module")))
  {
    var l := NewLoader([("Acme", root)]);
    assert ModuleDir(("Acme", root)) == root + "/Acme/Module";
    assert FillNamespaces(l, Env({}, map[]), l.namespaces) == (l, Some(InvalidModuleDirectory(root + "/Acme/Module")));
  }
}

=== FILE: module_tree.dfy ===
/**
 * The module tree as a view walks it: every module has an identifier and an
 * optional parent (getIdentifier(), getParent()). Modules are opaque tokens;
 * the tree maps each token to those two attributes. Nothing here forbids a
 * cycle: the walks below either bound their length or require it bounded.
 */
module ModuleTree {
  import opened Wrappers

  datatype Mod = Mod(token: nat)

  datatype Node = Node(identifier: string, parent: Option<Mod>)

  type Tree = map<Mod, Node>

  /** Every parent a module names is itself in the tree. */
  ghost predicate Closed(g: Tree) {
    forall m :: m in g && g[m].parent.Some? ==> g[m].parent.value in g
  }

  /** The k-th module on the parent chain of m (m itself at 0); None past the root. */
  function Up(g: Tree, m: Mod, k: nat): (r: Option<Mod>)
    requires Closed(g) && m in g
    ensures r.Some? ==> r.value in g
    decreases k
  {
    if k == 0 then Some(m)
    else match g[m].parent
      case None => None
      case Some(p) => Up(g, p, k - 1)
  }

  /** One more hop up the chain is one parent step from the k-th module. */
  lemma {:induction false} UpStep(g: Tree, m: Mod, k: nat)
    requires Closed(g) && m in g
    ensures Up(g, m, k + 1) == (match Up(g, m, k) case None => None case Some(x) => g[x].parent)
    decreases k
  {
    if k > 0 && g[m].parent.Some? {
      UpStep(g, g[m].parent.value, k - 1);
    }
  }

  /** Once past the root, the chain stays past the root. */
  lemma {:induction false} UpNoneStays(g: Tree, m: Mod, k: nat, j: nat)
    requires Closed(g) && m in g && k <= j && Up(g, m, k).None?
    ensures Up(g, m, j).None?
    decreases j
  {
    if j > k {
      UpNoneStays(g, m, k, j - 1);
      UpStep(g, m, j - 1);
    }
  }

  /** Below a module that exists on the chain, every module exists. */
  lemma {:induction false} UpSomeBelow(g: Tree, m: Mod, k: nat, j: int)
    requires Closed(g) && m in g && Up(g, m, k).Some? && j <= k
    ensures j >= 0 ==> Up(g, m, j).Some?
  {
    if j >= 0 && Up(g, m, j).None? {
      UpNoneStays(g, m, j, k);
    }
  }

  /** Climbing a then b hops is climbing a + b hops. */
  lemma {:induction false} UpCompose(g: Tree, m: Mod, a: nat, b: nat)
    requires Closed(g) && m in g && Up(g, m, a).Some?
    ensures Up(g, m, a + b) == Up(g, Up(g, m, a).value, b)
    decreases a
  {
    if a > 0 {
      UpCompose(g, g[m].parent.value, a - 1, b);
    }
  }

  /** The identifiers of the first k modules of the chain, root-most first. */
  function PathIds(g: Tree, m: Mod, k: nat): (p: seq<string>)
    requires Closed(g) && m in g
    requires k > 0 ==> Up(g, m, k - 1).Some?
    ensures |p| == k
    decreases k
  {
    if k == 0 then []
    else
      UpSomeBelow(g, m, k - 1, k - 2);
      [g[Up(g, m, k - 1).value].identifier] + PathIds(g, m, k - 1)
  }

  /** The path of a module is its parent's path followed by its own identifier. */
  lemma {:induction false} PathIdsParent(g: Tree, m: Mod, k: nat)
    requires Closed(g) && m in g && g[m].parent.Some?
    requires k > 0 ==> Up(g, g[m].parent.value, k - 1).Some?
    ensures Up(g, m, k).Some?
    ensures PathIds(g, m, k + 1) == PathIds(g, g[m].parent.value, k) + [g[m].identifier]
    decreases k
  {
    if k > 0 {
      UpSomeBelow(g, g[m].parent.value, k - 1, k - 2);
      PathIdsParent(g, m, k - 1);
    }
  }

  /**
   * The loop of getModulePath(): from the module cur, prepend its identifier
   * and move to its parent, throwing once the watchdog passes 20.
   */
  function Climb(g: Tree, cur: Option<Mod>, watchdog: nat, path: seq<string>): (seq<string>, bool)
    requires Closed(g) && (cur.Some? ==> cur.value in g) && watchdog <= 20
    decreases 20 - watchdog
  {
    match cur
    case None => (path, true)
    case Some(c) =>
      if watchdog + 1 > 20 then (path, false)
      else Climb(g, g[c].parent, watchdog + 1, [g[c].identifier] + path)
  }

  lemma {:induction false} ClimbFrom(g: Tree, m: Mod, w: nat)
    requires Closed(g) && m in g && w <= 20
    requires w > 0 ==> Up(g, m, w - 1).Some?
    ensures var r := Climb(g, Up(g, m, w), w, PathIds(g, m, w));
            && (r.1 <==> Up(g, m, 20).None?)
            && (r.1 ==> 1 <= |r.0| <= 20 && Up(g, m, |r.0| - 1).Some? && Up(g, m, |r.0|).None? && r.0 == PathIds(g, m, |r.0|))
            && (!r.1 ==> Up(g, m, 19).Some? && r.0 == PathIds(g, m, 20))
    decreases 20 - w
  {
    match Up(g, m, w)
    case None =>
      UpNoneStays(g, m, w, 20);
    case Some(c) =>
      if w < 20 {
        UpStep(g, m, w);
        ClimbFrom(g, m, w + 1);
      } else {
        UpSomeBelow(g, m, 20, 19);
      }
  }

  /**
   * getModulePath()'s walk: when the chain from m to the root has at most 20
   * modules, their identifiers root first; otherwise (a deeper or cyclic
   * chain) a failure, with the 20 identifiers collected before the throw.
   */
  function ModulePathWalk(g: Tree, m: Mod): (r: (seq<string>, bool))
    requires Closed(g) && m in g
    ensures r.1 <==> Up(g, m, 20).None?
    ensures r.1 ==> 1 <= |r.0| <= 20 && Up(g, m, |r.0| - 1).Some? && Up(g, m, |r.0|).None? && r.0 == PathIds(g, m, |r.0|)
    ensures !r.1 ==> Up(g, m, 19).Some? && r.0 == PathIds(g, m, 20)
  {
    ClimbFrom(g, m, 0);
    Climb(g, Some(m), 0, [])
  }

  /** A module that is its own ancestor makes the walk fail instead of looping. */
  lemma {:induction false} CycleTripsWatchdog(g: Tree, m: Mod, k: nat)
    requires Closed(g) && m in g && k >= 1 && Up(g, m, k) == Some(m)
    ensures !ModulePathWalk(g, m).1
  {
    CycleAlwaysUp(g, m, k, 20);
  }

  lemma {:induction false} CycleAlwaysUp(g: Tree, m: Mod, k: nat, n: nat)
    requires Closed(g) && m in g && k >= 1 && Up(g, m, k) == Some(m)
    ensures Up(g, m, n).Some?
    decreases n
  {
    if n <= k {
      if Up(g, m, n).None? {
        UpNoneStays(g, m, n, k);
      }
    } else {
      CycleAlwaysUp(g, m, k, n - k);
      UpCompose(g, m, k, n - k);
    }
  }

  /** The number of modules on a finished chain is determined by the chain. */
  lemma {:induction false} ChainLengthUnique(g: Tree, m: Mod, a: nat, b: nat)
    requires Closed(g) && m in g && a >= 1 && b >= 1
    requires Up(g, m, a - 1).Some? && Up(g, m, a).None?
    requires Up(g, m, b - 1).Some? && Up(g, m, b).None?
    ensures a == b
  {
    if a < b {
      UpNoneStays(g, m, a, b - 1);
    } else if b < a {
      UpNoneStays(g, m, b, a - 1);
    }
  }

  /**
   * buildModuleUrl()'s walk, which has no watchdog: the identifiers from the
   * root down to m, for a chain that ends within `bound` hops.
   */
  function Lineage(g: Tree, m: Mod, bound: nat): (p: seq<string>)
    requires Closed(g) && m in g && Up(g, m, bound).None?
    ensures 1 <= |p| && Up(g, m, |p| - 1).Some? && Up(g, m, |p|).None?
    ensures p == PathIds(g, m, |p|)
    decreases bound
  {
    match g[m].parent
    case None => [g[m].identifier]
    case Some(q) =>
      var p := Lineage(g, q, bound - 1);
      PathIdsParent(g, m, |p|);
      p + [g[m].identifier]
  }

  /** Both walks agree wherever the watchdog lets getModulePath() finish. */
  lemma {:induction false} LineageIsModulePath(g: Tree, m: Mod, bound: nat)
    requires Closed(g) && m in g && Up(g, m, bound).None?
    ensures ModulePathWalk(g, m).1 ==> Lineage(g, m, bound) == ModulePathWalk(g, m).0
  {
    if ModulePathWalk(g, m).1 {
      var p := Lineage(g, m, bound);
      var w := ModulePathWalk(g, m).0;
      ChainLengthUnique(g, m, |p|, |w|);
    }
  }
}

=== FILE: php.dfy ===
/**
 * The fragments of PHP 7 value and string semantics that the modelled code
 * relies on: scalar values, truthiness of strings, implode/explode with a
 * one-character separator, str_replace of one character, and the decimal
 * form of integers (strval, and the integer-like string keys of arrays).
 */
module Php {
  import opened Wrappers

  /** A PHP scalar. Floats, arrays and objects are not modelled. */
  datatype Value = Null | Bool(b: bool) | Int(i: int) | Str(s: string)

  /** A string is falsy in PHP exactly when it is '' or '0'. */
  predicate FalsyString(s: string) {
    s == "" || s == "0"
  }

  // ---------------------------------------------------------------------
  // implode / explode

  /** implode() with a one-character glue. */
  function Implode(glue: char, parts: seq<string>): string
    decreases |parts|
  {
    if |parts| == 0 then ""
    else if |parts| == 1 then parts[0]
    else parts[0] + [glue] + Implode(glue, parts[1..])
  }

  /** explode() with a one-character delimiter: the pieces between delimiters. */
  function Explode(delim: char, s: string): (pieces: seq<string>)
    ensures |pieces| >= 1
    ensures forall k :: 0 <= k < |pieces| ==> delim !in pieces[k]
    decreases |s|
  {
    if |s| == 0 then [""]
    else
      var rest := Explode(delim, s[1..]);
      if s[0] == delim then [""] + rest
      else [[s[0]] + rest[0]] + rest[1..]
  }

  /** Gluing the pieces of an explode back together gives the original string. */
  lemma {:induction false} ImplodeExplode(delim: char, s: string)
    ensures Implode(delim, Explode(delim, s)) == s
    decreases |s|
  {
    if |s| > 0 {
      var rest := Explode(delim, s[1..]);
      ImplodeExplode(delim, s[1..]);
      if s[0] == delim {
        assert Implode(delim, [""] + rest) == "" + [delim] + Implode(delim, rest);
        assert [delim] + s[1..] == s;
      } else if |rest| == 1 {
        assert [s[0]] + s[1..] == s;
      } else {
        var tail := [[s[0]] + rest[0]] + rest[1..];
        assert tail[1..] == rest[1..];
        assert Implode(delim, rest) == rest[0] + [delim] + Implode(delim, rest[1..]);
        assert [s[0]] + s[1..] == s;
      }
    }
  }

  /** Exploding a delimiter-free prefix followed by more text extends the first piece. */
  lemma {:induction false} ExplodePrefix(delim: char, p: string, s: string)
    requires delim !in p
    ensures Explode(delim, p + s) == [p + Explode(delim, s)[0]] + Explode(delim, s)[1..]
    decreases |p|
  {
    if |p| > 0 {
      assert (p + s)[1..] == p[1..] + s;
      assert (p + s)[0] == p[0];
      ExplodePrefix(delim, p[1..], s);
      assert [p[0]] + (p[1..] + Explode(delim, s)[0]) == p + Explode(delim, s)[0];
    } else {
      var e := Explode(delim, s);
      assert p + s == s && p + e[0] == e[0];
      assert [e[0]] + e[1..] == e;
    }
  }

  /** explode() undoes implode() when no part contains the glue. */
  lemma {:induction false} ExplodeImplode(delim: char, parts: seq<string>)
    requires |parts| >= 1
    requires forall k :: 0 <= k < |parts| ==> delim !in parts[k]
    ensures Explode(delim, Implode(delim, parts)) == parts
    decreases |parts|
  {
    if |parts| == 1 {
      ExplodePrefix(delim, parts[0], "");
      assert parts[0] + "" == parts[0];
    } else {
      var rest := Implode(delim, parts[1..]);
      ExplodeImplode(delim, parts[1..]);
      assert parts[0] + [delim] + rest == parts[0] + ([delim] + rest);
      ExplodePrefix(delim, parts[0], [delim] + rest);
      assert ([delim] + rest)[1..] == rest;
      assert Explode(delim, [delim] + rest) == [""] + parts[1..];
      assert parts[0] + "" == parts[0];
      assert [parts[0]] + parts[1..] == parts;
    }
  }

  /** Imploding two non-empty lists is imploding each and gluing the results. */
  lemma {:induction false} ImplodeAppend(glue: char, a: seq<string>, b: seq<string>)
    requires |a| >= 1 && |b| >= 1
    ensures Implode(glue, a + b) == Implode(glue, a) + [glue] + Implode(glue, b)
    decreases |a|
  {
    if |a| == 1 {
      assert (a + b)[1..] == b;
    } else {
      assert (a + b)[1..] == a[1..] + b;
      ImplodeAppend(glue, a[1..], b);
    }
  }

  /** A character other than the glue occurs in an implode only if it occurs in a part. */
  lemma {:induction false} ImplodeAvoids(glue: char, c: char, parts: seq<string>)
    requires c != glue
    requires forall k :: 0 <= k < |parts| ==> c !in parts[k]
    ensures c !in Implode(glue, parts)
    decreases |parts|
  {
    if |parts| > 1 {
      ImplodeAvoids(glue, c, parts[1..]);
    }
  }

  /** The pieces of an explode contain only characters of the exploded string. */
  lemma {:induction false} ExplodeAvoids(delim: char, c: char, s: string)
    requires c !in s
    ensures forall k :: 0 <= k < |Explode(delim, s)| ==> c !in Explode(delim, s)[k]
    decreases |s|
  {
    if |s| > 0 {
      assert c !in s[1..] by {
        forall k | 0 <= k < |s[1..]| ensures s[1..][k] != c {
          assert s[1..][k] == s[k + 1];
        }
      }
      ExplodeAvoids(delim, c, s[1..]);
    }
  }

  // ---------------------------------------------------------------------
  // str_replace of a single character

  /** str_replace(from, to, s) for one-character search and replacement strings. */
  function ReplaceChar(from: char, to: char, s: string): (r: string)
    ensures |r| == |s|
    ensures from != to ==> from !in r
    ensures forall k :: 0 <= k < |s| && s[k] != from ==> r[k] == s[k]
    ensures forall k :: 0 <= k < |s| && s[k] == from ==> r[k] == to
  {
    seq(|s|, k requires 0 <= k < |s| => if s[k] == from then to else s[k])
  }

  /** Replacing one character by another is splitting at the first and gluing with the second. */
  lemma {:induction false} ReplaceIsRejoin(from: char, to: char, s: string)
    ensures ReplaceChar(from, to, s) == Implode(to, Explode(from, s))
    decreases |s|
  {
    if |s| > 0 {
      var rest := Explode(from, s[1..]);
      ReplaceIsRejoin(from, to, s[1..]);
      var r := ReplaceChar(from, to, s);
      assert r == [r[0]] + ReplaceChar(from, to, s[1..]);
      if s[0] == from {
        assert Implode(to, [""] + rest) == "" + [to] + Implode(to, rest);
      } else if |rest| == 1 {
      } else {
        var pieces := [[s[0]] + rest[0]] + rest[1..];
        assert pieces[1..] == rest[1..];
        assert Implode(to, rest) == rest[0] + [to] + Implode(to, rest[1..]);
      }
    }
  }

  // ---------------------------------------------------------------------
  // Decimal integers

  predicate IsDigit(c: char) {
    '0' <= c <= '9'
  }

  predicate AllDigits(s: string) {
    forall k :: 0 <= k < |s| ==> IsDigit(s[k])
  }

  function DigitChar(d: nat): (c: char)
    requires d < 10
    ensures IsDigit(c) && c as int - '0' as int == d
  {
    ('0' as int + d) as char
  }

  /** The value of a string of decimal digits, most significant first. */
  function DigitsValue(s: string): nat
    requires AllDigits(s)
    decreases |s|
  {
    if |s| == 0 then 0
    else DigitsValue(s[..|s| - 1]) * 10 + (s[|s| - 1] as int - '0' as int)
  }

  /** The digits of a natural number without leading zeros. */
  function NatString(n: nat): (s: string)
    ensures |s| >= 1 && AllDigits(s)
    ensures s[0] == '0' ==> n == 0
    decreases n
  {
    if n < 10 then [DigitChar(n)] else NatString(n / 10) + [DigitChar(n % 10)]
  }

  /** strval() of an integer. */
  function DecimalString(i: int): string {
    if i < 0 then "-" + NatString(-i) else NatString(i)
  }

  /** A digit string in PHP's canonical form: no leading zero unless it is "0". */
  predicate CanonicalDigits(s: string) {
    |s| >= 1 && AllDigits(s) && (s[0] != '0' || |s| == 1)
  }

  /**
   * The integer a string denotes when PHP would use it as an integer array
   * key: "0", or an optional '-' followed by digits without a leading zero
   * ("-0" is not canonical). The machine-integer range limit is not modelled.
   */
  function ParseCanonicalInt(s: string): Option<int> {
    if |s| >= 2 && s[0] == '-' && s[1] != '0' && CanonicalDigits(s[1..]) then Some(-(DigitsValue(s[1..]) as int))
    else if CanonicalDigits(s) then Some(DigitsValue(s))
    else None
  }

  lemma {:induction false} DigitsOfNatString(n: nat)
    ensures DigitsValue(NatString(n)) == n
    decreases n
  {
    if n >= 10 {
      DigitsOfNatString(n / 10);
      var s := NatString(n);
      assert s[..|s| - 1] == NatString(n / 10);
    }
  }

  lemma {:induction false} DigitsValuePositive(s: string)
    requires AllDigits(s) && |s| >= 1 && s[0] != '0'
    ensures DigitsValue(s) >= 1
    decreases |s|
  {
    if |s| > 1 {
      assert s[..|s| - 1][0] == s[0];
      DigitsValuePositive(s[..|s| - 1]);
    }
  }

  lemma {:induction false} NatStringOfDigits(s: string)
    requires CanonicalDigits(s)
    ensures NatString(DigitsValue(s)) == s
    decreases |s|
  {
    var p := s[..|s| - 1];
    var d := s[|s| - 1] as int - '0' as int;
    if |s| > 1 {
      assert p[0] == s[0];
      NatStringOfDigits(p);
      DigitsValuePositive(p);
      var n := DigitsValue(s);
      assert n / 10 == DigitsValue(p) && n % 10 == d;
      assert DigitChar(d) == s[|s| - 1];
      assert p + [s[|s| - 1]] == s;
    } else {
      assert DigitChar(d) == s[0];
    }
  }

  /** The digits of a positive number behind a minus sign read back as its negation. */
  lemma NegativeRoundTrip(n: nat)
    requires n >= 1
    ensures ParseCanonicalInt("-" + NatString(n)) == Some(-(n as int))
  {
    var t := NatString(n);
    var s := "-" + t;
    assert s[0] == '-' && s[1..] == t && s[1] == t[0];
    assert CanonicalDigits(t);
    DigitsOfNatString(n);
  }

  /** strval() of an integer is read back as that integer key, and only canonical forms are. */
  lemma DecimalRoundTrip(i: int)
    ensures ParseCanonicalInt(DecimalString(i)) == Some(i)
  {
    if i < 0 {
      NegativeRoundTrip(-i);
    } else {
      var s := NatString(i);
      assert s[0] != '-' && CanonicalDigits(s);
      DigitsOfNatString(i);
    }
  }

  lemma CanonicalRoundTrip(s: string)
    requires ParseCanonicalInt(s).Some?
    ensures DecimalString(ParseCanonicalInt(s).value) == s
  {
    if |s| >= 2 && s[0] == '-' && s[1] != '0' && CanonicalDigits(s[1..]) {
      NatStringOfDigits(s[1..]);
      DigitsValuePositive(s[1..]);
      assert "-" + s[1..] == s;
    } else {
      NatStringOfDigits(s);
    }
  }
}

=== FILE: phparray.dfy ===
/**
 * PHP's ordered array, as used for keyed data (the view state, the module
 * instance cache): entries in insertion order under integer or string keys,
 * plus the hidden "next free integer key" that `$a[] = v` uses. In PHP 7 that
 * counter starts at 0, moves past every non-negative integer key inserted,
 * and is never lowered by unset().
 */
module PhpArray {
  import opened Wrappers
  import opened Php

  datatype Key = IntKey(i: int) | StrKey(s: string)

  /** The key PHP uses for a string offset: a canonical integer string becomes an integer key. */
  function KeyOf(s: string): (k: Key)
    ensures k.IntKey? <==> ParseCanonicalInt(s).Some?
    ensures k.StrKey? ==> k.s == s
    ensures k.IntKey? ==> DecimalString(k.i) == s
  {
    match ParseCanonicalInt(s)
    case Some(n) => CanonicalRoundTrip(s); IntKey(n)
    case None => StrKey(s)
  }

  /** Distinct strings never collide as array keys. */
  lemma KeyOfInjective(s: string, t: string)
    requires KeyOf(s) == KeyOf(t)
    ensures s == t
  {
  }

  datatype Array<V> = Array(entries: seq<(Key, V)>, nextFree: nat)

  function Empty<V>(): Array<V> {
    Array([], 0)
  }

  predicate UniqueKeys<V>(e: seq<(Key, V)>) {
    forall i, j :: 0 <= i < j < |e| ==> e[i].0 != e[j].0
  }

  /** Every PHP array: keys are unique and every integer key lies below the next free key. */
  predicate Wf<V>(a: Array<V>) {
    && UniqueKeys(a.entries)
    && forall i :: 0 <= i < |a.entries| && a.entries[i].0.IntKey? ==> a.entries[i].0.i < a.nextFree
  }

  /** The position of the first entry under key k. */
  function Find<V>(e: seq<(Key, V)>, k: Key): (r: Option<nat>)
    ensures r.Some? ==> r.value < |e| && e[r.value].0 == k
    ensures r.Some? ==> forall i :: 0 <= i < r.value ==> e[i].0 != k
    ensures r.None? <==> forall i :: 0 <= i < |e| ==> e[i].0 != k
    decreases |e|
  {
    if |e| == 0 then None
    else if e[0].0 == k then Some(0)
    else match Find(e[1..], k)
      case None => None
      case Some(j) => Some(j + 1)
  }

  lemma FindUnique<V>(e: seq<(Key, V)>, i: nat)
    requires UniqueKeys(e) && i < |e|
    ensures Find(e, e[i].0) == Some(i)
  {
  }

  /** array_key_exists(). */
  predicate HasKey<V>(a: Array<V>, k: Key) {
    Find(a.entries, k).Some?
  }

  /** `$a[k]` when the key exists, None otherwise. */
  function Get<V>(a: Array<V>, k: Key): Option<V> {
    match Find(a.entries, k)
    case Some(i) => Some(a.entries[i].1)
    case None => None
  }

  /** The keys in iteration order. */
  function Keys<V>(a: Array<V>): seq<Key> {
    seq(|a.entries|, i requires 0 <= i < |a.entries| => a.entries[i].0)
  }

  /** array_key_exists() agrees with array_keys(). */
  lemma HasKeyInKeys<V>(a: Array<V>, k: Key)
    ensures HasKey(a, k) <==> k in Keys(a)
  {
    if HasKey(a, k) {
      assert Keys(a)[Find(a.entries, k).value] == k;
    }
    if k in Keys(a) {
      var i :| 0 <= i < |Keys(a)| && Keys(a)[i] == k;
      assert a.entries[i].0 == k;
    }
  }

  function Bump(next: nat, k: Key): nat {
    if k.IntKey? && k.i >= next then k.i + 1 else next
  }

  /** Entries of a and r under keys other than k are the same, positions aside. */
  ghost predicate SameOutside<V>(a: Array<V>, r: Array<V>, k: Key) {
    && (forall e :: e in a.entries && e.0 != k ==> e in r.entries)
    && (forall e :: e in r.entries && e.0 != k ==> e in a.entries)
  }

  /** Replacing, adding or dropping the entry under k leaves every other key's lookup as it was. */
  lemma OtherKeysKept<V>(a: Array<V>, r: Array<V>, k: Key)
    requires UniqueKeys(a.entries) && UniqueKeys(r.entries)
    requires SameOutside(a, r, k)
    ensures forall k' :: k' != k ==> Get(r, k') == Get(a, k')
  {
    forall k' | k' != k
      ensures Get(r, k') == Get(a, k')
    {
      match Find(a.entries, k')
      case Some(j) =>
        assert a.entries[j] in r.entries;
        var j' :| 0 <= j' < |r.entries| && r.entries[j'] == a.entries[j];
        FindUnique(r.entries, j');
      case None =>
        match Find(r.entries, k')
        case Some(j') =>
          assert false;
        case None =>
    }
  }

  /** Overwriting the value at position i keeps the keys and every other entry. */
  lemma ReplaceAt<V>(a: Array<V>, i: nat, v: V)
    requires Wf(a) && i < |a.entries|
    ensures var r := Array(a.entries[i := (a.entries[i].0, v)], a.nextFree);
            && Wf(r)
            && Get(r, a.entries[i].0) == Some(v)
            && SameOutside(a, r, a.entries[i].0)
            && Keys(r) == Keys(a)
  {
    var r := Array(a.entries[i := (a.entries[i].0, v)], a.nextFree);
    FindUnique(r.entries, i);
    assert forall j :: 0 <= j < |a.entries| && j != i ==> a.entries[j] == r.entries[j];
  }

  /** Adding an entry under a new key keeps the array well formed and every other entry. */
  lemma AddNew<V>(a: Array<V>, k: Key, v: V)
    requires Wf(a) && !HasKey(a, k)
    ensures var r := Array(a.entries + [(k, v)], Bump(a.nextFree, k));
            && Wf(r)
            && Get(r, k) == Some(v)
            && SameOutside(a, r, k)
            && Keys(r) == Keys(a) + [k]
  {
    var r := Array(a.entries + [(k, v)], Bump(a.nextFree, k));
    FindUnique(r.entries, |a.entries|);
  }

  /** `$a[k] = v`: overwrite in place when k is present, otherwise add at the end. */
  function Put<V>(a: Array<V>, k: Key, v: V): (r: Array<V>)
    requires Wf(a)
    ensures Wf(r)
    ensures Get(r, k) == Some(v)
    ensures forall k' :: k' != k ==> Get(r, k') == Get(a, k')
    ensures HasKey(a, k) ==> Keys(r) == Keys(a)
    ensures !HasKey(a, k) ==> Keys(r) == Keys(a) + [k]
  {
    match Find(a.entries, k)
    case Some(i) =>
      var r := Array(a.entries[i := (k, v)], a.nextFree);
      ReplaceAt(a, i, v);
      OtherKeysKept(a, r, k);
      r
    case None =>
      var r := Array(a.entries + [(k, v)], Bump(a.nextFree, k));
      AddNew(a, k, v);
      OtherKeysKept(a, r, k);
      r
  }

  /** `$a[] = v`: add at the end under the next free integer key, which is always unused. */
  function Append<V>(a: Array<V>, v: V): (r: Array<V>)
    requires Wf(a)
    ensures Wf(r)
    ensures !HasKey(a, IntKey(a.nextFree))
    ensures Get(r, IntKey(a.nextFree)) == Some(v)
    ensures forall k' :: k' != IntKey(a.nextFree) ==> Get(r, k') == Get(a, k')
    ensures Keys(r) == Keys(a) + [IntKey(a.nextFree)]
    ensures r.nextFree == a.nextFree + 1
  {
    var k := IntKey(a.nextFree);
    var r := Array(a.entries + [(k, v)], a.nextFree + 1);
    AddNew(a, k, v);
    OtherKeysKept(a, r, k);
    r
  }

  /** Dropping the entry at position i keeps the array well formed and every other entry. */
  lemma RemoveAt<V>(a: Array<V>, i: nat)
    requires Wf(a) && i < |a.entries|
    ensures var r := Array(a.entries[..i] + a.entries[i + 1..], a.nextFree);
            && Wf(r)
            && (forall j :: 0 <= j < |r.entries| ==> r.entries[j].0 != a.entries[i].0)
            && SameOutside(a, r, a.entries[i].0)
  {
    var e := a.entries;
    var d := e[..i] + e[i + 1..];
    forall j | 0 <= j < |d|
      ensures d[j] == e[if j < i then j else j + 1]
    {
      if j < i {
        assert d[j] == e[..i][j];
      } else {
        assert d[j] == e[i + 1..][j - i];
      }
    }
    forall p, q | 0 <= p < q < |d|
      ensures d[p].0 != d[q].0
    {
      assert d[p] == e[if p < i then p else p + 1];
      assert d[q] == e[if q < i then q else q + 1];
    }
    forall x | x in e && x.0 != e[i].0
      ensures x in d
    {
      var j :| 0 <= j < |e| && e[j] == x;
      assert d[if j < i then j else j - 1] == x;
    }
    forall x | x in d
      ensures x in e
    {
      var j :| 0 <= j < |d| && d[j] == x;
      assert e[if j < i then j else j + 1] == x;
    }
  }

  /** unset($a[k]): drops the entry; the next free key is not lowered. */
  function Remove<V>(a: Array<V>, k: Key): (r: Array<V>)
    requires Wf(a)
    ensures Wf(r)
    ensures !HasKey(r, k)
    ensures forall k' :: k' != k ==> Get(r, k') == Get(a, k')
    ensures r.nextFree == a.nextFree
    ensures |r.entries| == |a.entries| - (if HasKey(a, k) then 1 else 0)
  {
    match Find(a.entries, k)
    case None => a
    case Some(i) =>
      var r := Array(a.entries[..i] + a.entries[i + 1..], a.nextFree);
      RemoveAt(a, i);
      OtherKeysKept(a, r, k);
      r
  }
}

=== FILE: serializer.dfy ===
/**
 * Nethgui_Serializer_ArrayAccessSerializer: transfers one property of the
 * record stored under one key of a keyed table. Reading a missing record or
 * property gives NULL; writing is read-modify-write of that one property.
 */
module ArrayAccessSerializer {
  import opened Wrappers
  import opened Php

  /** A record of the table: property name to value. */
  type Record = map<string, Value>

  /** The ArrayAccess table: record key to record. */
  type Table = map<string, Record>

  /** The serializer's key (None is PHP NULL) and the property it transfers. */
  datatype Serializer = Serializer(key: Option<string>, prop: string)

  datatype SerializerError =
    | InvalidProp   // InvalidArgumentException from the constructor
    | MissingKey    // Nethgui_Exception_Serializer from write()

  /** PHP 7 loose comparison `$v == ''`. */
  predicate LooseEqualsEmpty(v: Value) {
    match v
    case Null => true
    case Bool(b) => !b
    case Int(i) => i == 0
    case Str(s) => s == ""
  }

  /** strval() of an accepted prop argument. */
  function PropName(v: Value): string
    requires !LooseEqualsEmpty(v)
  {
    match v
    case Bool(_) => "1"
    case Int(i) => DecimalString(i)
    case Str(s) => s
  }

  /**
   * The constructor: rejects a NULL, '' or FALSE prop (under PHP 7 loose
   * comparison the integer 0 also equals ''), and stores strval(prop).
   */
  function New(key: Option<string>, prop: Value): (r: Result<Serializer, SerializerError>)
    ensures r.Err? <==> prop.Null? || prop == Bool(false) || prop == Str("") || prop == Int(0)
    ensures r.Err? ==> r.error == InvalidProp
    ensures r.Ok? ==> r.value.key == key && r.value.prop != ""
    ensures r.Ok? && prop.Str? ==> r.value.prop == prop.s
  {
    if prop.Null? || LooseEqualsEmpty(prop) || prop == Bool(false) then Err(InvalidProp)
    else Ok(Serializer(key, PropName(prop)))
  }

  /** read(): the property's value, NULL when the record or property is missing or holds NULL. */
  function Read(s: Serializer, t: Table): (v: Value)
    ensures s.key.None? || s.key.value !in t ==> v == Null
    ensures s.key.Some? && s.key.value in t && s.prop !in t[s.key.value] ==> v == Null
    ensures s.key.Some? && s.key.value in t && s.prop in t[s.key.value] ==> v == t[s.key.value][s.prop]
  {
    match s.key
    case None => Null
    case Some(k) =>
      if k !in t then Null
      else if s.prop !in t[k] then Null
      else t[k][s.prop]
  }

  /**
   * write(v): fails without a key; otherwise sets the property in the
   * record under the key, creating the record when it is missing.
   */
  function Write(s: Serializer, t: Table, v: Value): (r: Result<Table, SerializerError>)
    ensures r.Err? <==> s.key.None?
    ensures r.Err? ==> r.error == MissingKey
    ensures r.Ok? ==> r.value.Keys == t.Keys + {s.key.value}
    ensures r.Ok? ==> forall k :: k in t && k != s.key.value ==> r.value[k] == t[k]
    ensures r.Ok? && s.key.value !in t ==> r.value[s.key.value] == map[s.prop := v]
    ensures r.Ok? && s.key.value in t ==>
              && r.value[s.key.value].Keys == t[s.key.value].Keys + {s.prop}
              && r.value[s.key.value][s.prop] == v
              && forall p :: p in t[s.key.value] && p != s.prop ==> r.value[s.key.value][p] == t[s.key.value][p]
  {
    match s.key
    case None => Err(MissingKey)
    case Some(k) =>
      var record := if k in t then t[k] else map[];
      Ok(t[k := record[s.prop := v]])
  }

  /** Reading back what was written gives the written value, NULL included. */
  lemma WriteThenRead(s: Serializer, t: Table, v: Value)
    requires s.key.Some?
    ensures Write(s, t, v).Ok? && Read(s, Write(s, t, v).value) == v
  {
  }

  /** A write through one serializer is invisible to every serializer on another key or property. */
  lemma WriteIsolated(s: Serializer, other: Serializer, t: Table, v: Value)
    requires s.key.Some?
    requires other.key != s.key || other.prop != s.prop
    ensures Read(other, Write(s, t, v).value) == Read(other, t)
  {
  }
}

=== FILE: template_renderer.dfy ===
/**
 * The widget factory of Nethgui\Renderer\TemplateRenderer. Every factory
 * method ORs the renderer's default flags into its own flags argument and
 * asks createWidget() for a widget of its type; a few of them then set
 * attributes or insert children.
 *
 * A flag word is modelled as the set of its flags, so `|` is union and `&`
 * is intersection; NETHGUI_INHERITABLE_FLAGS is a parameter. createWidget()
 * is the constructor of the Widget record.
 */
module TemplateRenderer {
  import opened Wrappers
  import opened Php

  /** The named flags of the widget factory interface; any other bit is OtherFlag. */
  datatype Flag =
    | ButtonSubmit | ButtonReset | ButtonCancel | ButtonHelp | Buttonset
    | DialogSuccess | DialogWarning | DialogError | DialogModal
    | StateDisabled | StateReadonly | LabelNone
    | OtherFlag(bit: nat)

  type Flags = set<Flag>

  /** An attribute value. */
  datatype Attr = FlagsAttr(flags: Flags) | TextAttr(text: string) | BoolAttr(b: bool) | ValueAttr(v: Value) | NullAttr

  /** A widget: its type, its attributes and the widgets inserted into it. */
  datatype Widget = Widget(kind: string, attrs: map<string, Attr>, children: seq<Widget>)

  /** createWidget(): a widget with the given attributes and no children. */
  function CreateWidget(kind: string, attrs: map<string, Attr>): (w: Widget)
    ensures w.kind == kind && w.attrs == attrs && w.children == []
  {
    Widget(kind, attrs, [])
  }

  function SetAttribute(w: Widget, name: string, value: Attr): (w': Widget)
    ensures w'.kind == w.kind && w'.children == w.children
    ensures name in w'.attrs && w'.attrs[name] == value
    ensures forall k :: k != name ==> (k in w'.attrs <==> k in w.attrs)
    ensures forall k :: k != name && k in w.attrs ==> w'.attrs[k] == w.attrs[k]
  {
    w.(attrs := w.attrs[name := value])
  }

  function Insert(w: Widget, child: Widget): (w': Widget)
    ensures w'.kind == w.kind && w'.attrs == w.attrs
    ensures w'.children == w.children + [child]
  {
    w.(children := w.children + [child])
  }

  /** The flags a widget was created with, empty when it has none. */
  function FlagsOf(w: Widget): Flags {
    if "flags" in w.attrs && w.attrs["flags"].FlagsAttr? then w.attrs["flags"].flags else {}
  }

  // ---------------------------------------------------------------------
  // Default flags

  datatype Renderer = Renderer(defaultFlags: Flags)

  /** The constructor keeps only the inheritable part of the flags it is given. */
  function NewRenderer(inheritFlags: Flags, inheritable: Flags): (r: Renderer)
    ensures r.defaultFlags <= inheritable && r.defaultFlags <= inheritFlags
    ensures forall f :: f in inheritFlags && f in inheritable ==> f in r.defaultFlags
  {
    Renderer(inheritFlags * inheritable)
  }

  function GetDefaultFlags(r: Renderer): Flags {
    r.defaultFlags
  }

  /** setDefaultFlags() stores its argument as it is, without the inheritable mask. */
  function SetDefaultFlags(r: Renderer, flags: Flags): (r': Renderer)
    ensures GetDefaultFlags(r') == flags
  {
    Renderer(flags)
  }

  /** The constructor masks, setDefaultFlags() does not: a non-inheritable flag can become a default. */
  lemma SetDefaultFlagsIsUnmasked(inheritFlags: Flags, inheritable: Flags, f: Flag)
    requires f !in inheritable
    ensures f !in GetDefaultFlags(NewRenderer(inheritFlags + {f}, inheritable))
    ensures f in GetDefaultFlags(SetDefaultFlags(NewRenderer(inheritFlags, inheritable), inheritFlags + {f}))
  {
  }

  // ---------------------------------------------------------------------
  // Factories that only create

  /** The factories that create a widget of their own type from a name and flags. */
  datatype NamedKind = ButtonWidget | HiddenWidget | InsetWidget | TextInputWidget | TextLabelWidget | ProgressBarWidget | TextAreaWidget

  function NamedType(k: NamedKind): string {
    match k
    case ButtonWidget => "button"
    case HiddenWidget => "hidden"
    case InsetWidget => "inset"
    case TextInputWidget => "textInput"
    case TextLabelWidget => "textLabel"
    case ProgressBarWidget => "progressBar"
    case TextAreaWidget => "textArea"
  }

  /** button(), hidden(), inset(), textInput(), textLabel(), progressBar(), textArea(). */
  function Named(r: Renderer, k: NamedKind, name: string, flags: Flags): (w: Widget)
    ensures w.kind == NamedType(k) && w.children == []
    ensures w.attrs.Keys == {"name", "flags"} && w.attrs["name"] == TextAttr(name)
    ensures FlagsOf(w) == flags + r.defaultFlags
  {
    CreateWidget(NamedType(k), map["name" := TextAttr(name), "flags" := FlagsAttr(flags + r.defaultFlags)])
  }

  /** The factories that create a widget from flags alone. */
  datatype PlainKind = FormWidget | PanelWidget | TabsWidget

  function PlainType(k: PlainKind): string {
    match k
    case FormWidget => "form"
    case PanelWidget => "panel"
    case TabsWidget => "tabs"
  }

  /** form(), panel(), tabs(). */
  function Plain(r: Renderer, k: PlainKind, flags: Flags): (w: Widget)
    ensures w.kind == PlainType(k) && w.children == []
    ensures w.attrs.Keys == {"flags"} && FlagsOf(w) == flags + r.defaultFlags
  {
    CreateWidget(PlainType(k), map["flags" := FlagsAttr(flags + r.defaultFlags)])
  }

  /** The factories that create a widget from a name, a value and flags. */
  datatype ValuedKind = CheckBoxWidget | FieldsetSwitchWidget | RadioButtonWidget

  function ValuedType(k: ValuedKind): string {
    match k
    case CheckBoxWidget => "checkBox"
    case FieldsetSwitchWidget => "fieldsetSwitch"
    case RadioButtonWidget => "radioButton"
  }

  /** checkBox(), fieldsetSwitch(), radioButton(). */
  function Valued(r: Renderer, k: ValuedKind, name: string, value: Value, flags: Flags): (w: Widget)
    ensures w.kind == ValuedType(k) && w.children == []
    ensures w.attrs.Keys == {"name", "value", "flags"}
    ensures w.attrs["name"] == TextAttr(name) && w.attrs["value"] == ValueAttr(value)
    ensures FlagsOf(w) == flags + r.defaultFlags
  {
    CreateWidget(ValuedType(k), map["name" := TextAttr(name), "value" := ValueAttr(value), "flags" := FlagsAttr(flags + r.defaultFlags)])
  }

  /** The icon the selector, fieldset and object picker widgets show before their label. */
  const TriangleIcon := "ui-icon-triangle-1-s"

  /** selector(): a named widget with the triangle icon. */
  function Selector(r: Renderer, name: string, flags: Flags): (w: Widget)
    ensures w.kind == "selector" && w.children == []
    ensures w.attrs.Keys == {"name", "flags", "icon-before"}
    ensures w.attrs["name"] == TextAttr(name) && w.attrs["icon-before"] == TextAttr(TriangleIcon)
    ensures FlagsOf(w) == flags + r.defaultFlags
  {
    CreateWidget("selector", map["name" := TextAttr(name), "flags" := FlagsAttr(flags + r.defaultFlags), "icon-before" := TextAttr(TriangleIcon)])
  }

  /** objectPicker(): as selector(), but a NULL name is stored as NULL. */
  function ObjectPicker(r: Renderer, name: Option<string>, flags: Flags): (w: Widget)
    ensures w.kind == "objectPicker" && w.children == []
    ensures w.attrs.Keys == {"name", "flags", "icon-before"}
    ensures w.attrs["name"] == (if name.Some? then TextAttr(name.value) else NullAttr)
    ensures FlagsOf(w) == flags + r.defaultFlags
  {
    var n := match name case Some(s) => TextAttr(s) case None => NullAttr;
    CreateWidget("objectPicker", map["name" := n, "flags" := FlagsAttr(flags + r.defaultFlags), "icon-before" := TextAttr(TriangleIcon)])
  }

  /** fieldset(): the name attribute is set only when a name is given. */
  function Fieldset(r: Renderer, name: Option<string>, flags: Flags): (w: Widget)
    ensures w.kind == "fieldset" && w.children == []
    ensures ("name" in w.attrs <==> name.Some?) && (name.Some? ==> w.attrs["name"] == TextAttr(name.value))
    ensures "icon-before" in w.attrs && w.attrs["icon-before"] == TextAttr(TriangleIcon)
    ensures FlagsOf(w) == flags + r.defaultFlags
  {
    var w := CreateWidget("fieldset", map["flags" := FlagsAttr(flags + r.defaultFlags), "icon-before" := TextAttr(TriangleIcon)]);
    if name.Some? then SetAttribute(w, "name", TextAttr(name.value)) else w
  }

  const HeaderClass := "header ui-widget-header ui-corner-all ui-helper-clearfix"

  /** header(): an h2 text label with the header classes; the name only when given. */
  function Header(r: Renderer, name: Option<string>, flags: Flags): (w: Widget)
    ensures w.kind == "textLabel" && w.children == []
    ensures ("name" in w.attrs <==> name.Some?) && (name.Some? ==> w.attrs["name"] == TextAttr(name.value))
    ensures "class" in w.attrs && w.attrs["class"] == TextAttr(HeaderClass)
    ensures "tag" in w.attrs && w.attrs["tag"] == TextAttr("h2")
    ensures FlagsOf(w) == flags + r.defaultFlags
  {
    var w := CreateWidget("textLabel", map["flags" := FlagsAttr(flags + r.defaultFlags), "class" := TextAttr(HeaderClass), "tag" := TextAttr("h2")]);
    if name.Some? then SetAttribute(w, "name", TextAttr(name.value)) else w
  }

  /** literal(): the flags are taken as given, without the defaults. */
  function Literal(r: Renderer, data: string, flags: Flags): (w: Widget)
    ensures w.kind == "literal" && w.children == []
    ensures w.attrs.Keys == {"data", "flags"} && w.attrs["data"] == TextAttr(data)
    ensures FlagsOf(w) == flags
  {
    CreateWidget("literal", map["data" := TextAttr(data), "flags" := FlagsAttr(flags)])
  }

  /** columns(): no attributes at all. */
  function Columns(r: Renderer): (w: Widget)
    ensures w.kind == "columns" && w.attrs == map[] && w.children == []
  {
    CreateWidget("columns", map[])
  }

  /** Every factory but literal() and columns() carries the default flags along with its own. */
  lemma FactoriesInheritDefaults(r: Renderer, name: string, value: Value, flags: Flags, nk: NamedKind, pk: PlainKind, vk: ValuedKind)
    ensures var d := GetDefaultFlags(r);
            && d + flags <= FlagsOf(Named(r, nk, name, flags))
            && d + flags <= FlagsOf(Plain(r, pk, flags))
            && d + flags <= FlagsOf(Valued(r, vk, name, value, flags))
            && d + flags <= FlagsOf(Selector(r, name, flags))
            && d + flags <= FlagsOf(ObjectPicker(r, Some(name), flags))
            && d + flags <= FlagsOf(Fieldset(r, Some(name), flags))
            && d + flags <= FlagsOf(Header(r, Some(name), flags))
            && d + flags <= FlagsOf(ElementList(r, flags))
            && d + flags <= FlagsOf(ButtonList(r, flags))
            && d + flags <= FlagsOf(Dialog(r, name, flags))
            && d + flags <= FlagsOf(Console(r, name, flags))
  {
  }

  /** literal() and columns() come out the same whatever the default flags. */
  lemma LiteralAndColumnsIgnoreDefaults(r1: Renderer, r2: Renderer, data: string, flags: Flags)
    ensures Literal(r1, data, flags) == Literal(r2, data, flags)
    ensures Columns(r1) == Columns(r2)
  {
  }

  /** OR-ing the defaults twice is OR-ing them once: a factory given already-inherited flags changes nothing. */
  lemma InheritanceIdempotent(r: Renderer, k: PlainKind, flags: Flags)
    ensures Plain(r, k, flags + r.defaultFlags) == Plain(r, k, flags)
  {
    assert flags + r.defaultFlags + r.defaultFlags == flags + r.defaultFlags;
  }

  // ---------------------------------------------------------------------
  // elementList() and buttonList()

  predicate IsButtonFlag(f: Flag) {
    f == ButtonSubmit || f == ButtonReset || f == ButtonCancel || f == ButtonHelp
  }

  /** The position of a button in the automatic list; every other flag comes after. */
  function ButtonRank(f: Flag): nat {
    match f
    case ButtonSubmit => 0
    case ButtonReset => 1
    case ButtonCancel => 2
    case ButtonHelp => 3
    case _ => 4
  }

  function ButtonLabel(f: Flag): string {
    match f
    case ButtonSubmit => "Submit"
    case ButtonReset => "Reset"
    case ButtonCancel => "Cancel"
    case _ => "Help"
  }

  predicate StrictlyRanked(bs: seq<Flag>) {
    forall i, j :: 0 <= i < j < |bs| ==> ButtonRank(bs[i]) < ButtonRank(bs[j])
  }

  /** The order in which elementList() inserts its buttons. */
  const ButtonOrder: seq<Flag> := [ButtonSubmit, ButtonReset, ButtonCancel, ButtonHelp]

  /** In a ranked list, the head ranks below everything after it. */
  lemma HeadRanksFirst(order: seq<Flag>)
    requires StrictlyRanked(order) && |order| > 0
    ensures forall f :: f in order[1..] ==> ButtonRank(order[0]) < ButtonRank(f)
  {
    forall f | f in order[1..]
      ensures ButtonRank(order[0]) < ButtonRank(f)
    {
      var j :| 0 <= j < |order[1..]| && order[1..][j] == f;
      assert order[j + 1] == f;
    }
  }

  /** Putting a flag that ranks below every element in front keeps a list ranked. */
  lemma ConsRanked(x: Flag, rest: seq<Flag>)
    requires StrictlyRanked(rest)
    requires forall f :: f in rest ==> ButtonRank(x) < ButtonRank(f)
    ensures StrictlyRanked([x] + rest)
  {
    var l := [x] + rest;
    forall i, j | 0 <= i < j < |l|
      ensures ButtonRank(l[i]) < ButtonRank(l[j])
    {
      assert l[j] == rest[j - 1];
      if i > 0 {
        assert l[i] == rest[i - 1];
      } else {
        assert rest[j - 1] in rest;
      }
    }
  }

  /** The flags of order that are set, in the order given. */
  function Keep(flags: Flags, order: seq<Flag>): (bs: seq<Flag>)
    requires StrictlyRanked(order)
    ensures forall f :: f in bs <==> f in flags && f in order
    ensures StrictlyRanked(bs)
    decreases |order|
  {
    if |order| == 0 then []
    else
      HeadRanksFirst(order);
      var rest := Keep(flags, order[1..]);
      if order[0] in flags then
        ConsRanked(order[0], rest);
        [order[0]] + rest
      else rest
  }

  /** The buttons elementList() adds for the given flags: every button flag set, in Submit, Reset, Cancel, Help order. */
  function Buttons(flags: Flags): (bs: seq<Flag>)
    ensures forall f :: f in bs <==> f in flags && IsButtonFlag(f)
    ensures StrictlyRanked(bs)
  {
    assert forall f :: f in ButtonOrder <==> IsButtonFlag(f);
    Keep(flags, ButtonOrder)
  }

  /** Two ranked button lists with the same buttons are the same list: the order is fixed. */
  lemma {:induction false} RankedButtonsUnique(xs: seq<Flag>, ys: seq<Flag>)
    requires forall f :: f in xs ==> IsButtonFlag(f)
    requires forall f :: f in ys ==> IsButtonFlag(f)
    requires StrictlyRanked(xs) && StrictlyRanked(ys)
    requires forall f :: f in xs <==> f in ys
    ensures xs == ys
    decreases |xs|
  {
    if |xs| > 0 || |ys| > 0 {
      if |xs| > 0 { assert xs[0] in ys; }
      if |ys| > 0 { assert ys[0] in xs; }
      assert |xs| > 0 && |ys| > 0;
      assert ButtonRank(xs[0]) <= ButtonRank(ys[0]) by {
        assert ys[0] in xs;
      }
      assert ButtonRank(ys[0]) <= ButtonRank(xs[0]) by {
        assert xs[0] in ys;
      }
      assert xs[0] == ys[0];
      forall f ensures f in xs[1..] <==> f in ys[1..] {
        if f in xs[1..] {
          assert f in ys && f != ys[0];
        }
        if f in ys[1..] {
          assert f in xs && f != xs[0];
        }
      }
      RankedButtonsUnique(xs[1..], ys[1..]);
      assert xs == [xs[0]] + xs[1..] && ys == [ys[0]] + ys[1..];
    }
  }

  /** The button widget elementList() inserts for a button flag. */
  function AutoButton(r: Renderer, f: Flag): Widget {
    Named(r, ButtonWidget, ButtonLabel(f), {f})
  }

  /**
   * elementList(): 'Buttonset' when the BUTTONSET flag is set; otherwise
   * 'Buttonlist' when a button flag is set; then the standard buttons.
   */
  function ElementList(r: Renderer, flags: Flags): (w: Widget)
    ensures var eff := flags + r.defaultFlags;
            && w.kind == "elementList" && FlagsOf(w) == eff
            && ("class" in w.attrs <==> Buttonset in eff || |Buttons(eff)| > 0)
            && (Buttonset in eff ==> w.attrs["class"] == TextAttr("Buttonset"))
            && (Buttonset !in eff && |Buttons(eff)| > 0 ==> w.attrs["class"] == TextAttr("Buttonlist"))
            && ("wrap" in w.attrs <==> "class" in w.attrs)
            && ("wrap" in w.attrs ==> w.attrs["wrap"] == TextAttr("div/"))
            && |w.children| == |Buttons(eff)|
            && forall i :: 0 <= i < |w.children| ==> w.children[i] == AutoButton(r, Buttons(eff)[i])
  {
    var eff := flags + r.defaultFlags;
    var w0 := CreateWidget("elementList", map["flags" := FlagsAttr(eff)]);
    var w1 := if Buttonset in eff then SetAttribute(SetAttribute(w0, "class", TextAttr("Buttonset")), "wrap", TextAttr("div/")) else w0;
    var bs := Buttons(eff);
    if |bs| > 0 then
      var w2 := if !("class" in w1.attrs) then SetAttribute(SetAttribute(w1, "class", TextAttr("Buttonlist")), "wrap", TextAttr("div/")) else w1;
      w2.(children := seq(|bs|, i requires 0 <= i < |bs| => AutoButton(r, bs[i])))
    else w1
  }

  /** The automatic buttons are exactly the button flags set, in Submit, Reset, Cancel, Help order. */
  lemma ElementListButtonOrder(r: Renderer, flags: Flags, order: seq<Flag>)
    requires forall f :: f in order <==> f in flags + r.defaultFlags && IsButtonFlag(f)
    requires StrictlyRanked(order)
    ensures |ElementList(r, flags).children| == |order|
    ensures forall i :: 0 <= i < |order| ==> ElementList(r, flags).children[i] == AutoButton(r, order[i])
  {
    RankedButtonsUnique(order, Buttons(flags + r.defaultFlags));
  }

  /** A button flag never replaces the class the BUTTONSET flag gave. */
  lemma ButtonsetNotOverridden(r: Renderer, flags: Flags)
    requires Buttonset in flags && ButtonSubmit in flags
    ensures ElementList(r, flags).attrs["class"] == TextAttr("Buttonset")
    ensures |ElementList(r, flags).children| >= 1
  {
    assert ButtonSubmit in Buttons(flags + r.defaultFlags);
  }

  /** buttonList(): an elementList widget that is always a 'Buttonlist', with no buttons inserted. */
  function ButtonList(r: Renderer, flags: Flags): (w: Widget)
    ensures w.kind == "elementList" && w.children == [] && FlagsOf(w) == flags + r.defaultFlags
    ensures w.attrs.Keys == {"flags", "class", "wrap"}
    ensures w.attrs["class"] == TextAttr("Buttonlist") && w.attrs["wrap"] == TextAttr("div/")
  {
    var w := CreateWidget("elementList", map["flags" := FlagsAttr(flags + r.defaultFlags)]);
    SetAttribute(SetAttribute(w, "class", TextAttr("Buttonlist")), "wrap", TextAttr("div/"))
  }

  // ---------------------------------------------------------------------
  // dialog()

  /** The words a dialog's class is made of. */
  datatype ClassWord = DialogWord | SuccessWord | WarningWord | ErrorWord | ModalWord | DisabledWord

  function WordText(w: ClassWord): (t: string)
    ensures |t| > 0 && ' ' !in t
  {
    match w
    case DialogWord => "dialog"
    case SuccessWord => "success"
    case WarningWord => "warning"
    case ErrorWord => "error"
    case ModalWord => "modal"
    case DisabledWord => "disabled"
  }

  /** The order of the words: 'dialog', the severity, 'modal', 'disabled'. */
  function WordRank(w: ClassWord): nat {
    match w
    case DialogWord => 0
    case SuccessWord => 1
    case WarningWord => 1
    case ErrorWord => 1
    case ModalWord => 2
    case DisabledWord => 3
  }

  /** The severity word of a dialog, success taking priority over warning over error. */
  function Severity(flags: Flags): Option<ClassWord> {
    if DialogSuccess in flags then Some(SuccessWord)
    else if DialogWarning in flags then Some(WarningWord)
    else if DialogError in flags then Some(ErrorWord)
    else None
  }

  function When(cond: bool, word: ClassWord): Option<ClassWord> {
    if cond then Some(word) else None
  }

  /** `.= ' <word>'` when there is a word. */
  function AddWord(c: string, word: Option<ClassWord>): string {
    match word
    case Some(w) => c + " " + WordText(w)
    case None => c
  }

  function Words(word: Option<ClassWord>): seq<ClassWord> {
    match word
    case Some(w) => [w]
    case None => []
  }

  function Texts(ws: seq<ClassWord>): (ts: seq<string>)
    ensures |ts| == |ws| && forall i :: 0 <= i < |ws| ==> ts[i] == WordText(ws[i])
  {
    seq(|ws|, i requires 0 <= i < |ws| => WordText(ws[i]))
  }

  /** The class of dialog(): 'dialog', then the severity, then ' modal', then ' disabled'. */
  function DialogClass(flags: Flags): string {
    var c1 := AddWord("dialog", Severity(flags));
    var c2 := AddWord(c1, When(DialogModal in flags, ModalWord));
    AddWord(c2, When(StateDisabled in flags, DisabledWord))
  }

  /** The words of the class, as the flags determine them. */
  function DialogWords(flags: Flags): (ws: seq<ClassWord>)
    ensures |ws| >= 1 && ws[0] == DialogWord
    ensures SuccessWord in ws <==> DialogSuccess in flags
    ensures WarningWord in ws <==> DialogWarning in flags && DialogSuccess !in flags
    ensures ErrorWord in ws <==> DialogError in flags && DialogSuccess !in flags && DialogWarning !in flags
    ensures ModalWord in ws <==> DialogModal in flags
    ensures DisabledWord in ws <==> StateDisabled in flags
    ensures forall i, j :: 0 <= i < j < |ws| ==> WordRank(ws[i]) < WordRank(ws[j])
  {
    var sev := Severity(flags);
    assert sev == Some(SuccessWord) <==> DialogSuccess in flags;
    assert sev == Some(WarningWord) <==> DialogWarning in flags && DialogSuccess !in flags;
    assert sev == Some(ErrorWord) <==> DialogError in flags && DialogSuccess !in flags && DialogWarning !in flags;
    assert sev != Some(ModalWord) && sev != Some(DisabledWord);
    WordsFrom(sev, DialogModal in flags, StateDisabled in flags)
  }

  /** 'dialog', the severity word if any, 'modal' if asked for, 'disabled' if asked for. */
  function WordsFrom(sev: Option<ClassWord>, modal: bool, disabled: bool): (ws: seq<ClassWord>)
    requires sev.Some? ==> WordRank(sev.value) == 1
    ensures |ws| >= 1 && ws[0] == DialogWord
    ensures forall w :: w in ws <==>
              w == DialogWord || sev == Some(w) || (modal && w == ModalWord) || (disabled && w == DisabledWord)
    ensures forall i, j :: 0 <= i < j < |ws| ==> WordRank(ws[i]) < WordRank(ws[j])
  {
    WordsRanked(sev, modal, disabled);
    [DialogWord] + Words(sev) + Words(When(modal, ModalWord)) + Words(When(disabled, DisabledWord))
  }

  /** Each piece holds at most one word and ranks above the pieces before it, so the words are in rank order. */
  lemma WordsRanked(sev: Option<ClassWord>, modal: bool, disabled: bool)
    requires sev.Some? ==> WordRank(sev.value) == 1
    ensures var ws := [DialogWord] + Words(sev) + Words(When(modal, ModalWord)) + Words(When(disabled, DisabledWord));
            forall i, j :: 0 <= i < j < |ws| ==> WordRank(ws[i]) < WordRank(ws[j])
  {
    var s := Words(sev);
    var m := Words(When(modal, ModalWord));
    var ws := [DialogWord] + s + m + Words(When(disabled, DisabledWord));
    assert forall i :: 0 <= i < |ws| ==>
      WordRank(ws[i]) == if i == 0 then 0 else if i <= |s| then 1 else if i <= |s| + |m| then 2 else 3;
  }

  /** Adding a word to the class string matches adding it to the words. */
  lemma AddWordJoins(ws: seq<ClassWord>, c: string, word: Option<ClassWord>)
    requires |ws| >= 1 && Implode(' ', Texts(ws)) == c
    ensures Implode(' ', Texts(ws + Words(word))) == AddWord(c, word)
  {
    match word
    case Some(w) =>
      assert Texts(ws + [w]) == Texts(ws) + [WordText(w)];
      ImplodeAppend(' ', Texts(ws), [WordText(w)]);
      assert [WordText(w)][1..] == [];
    case None =>
      assert ws + [] == ws;
  }

  /** Joining the words with spaces gives the class string. */
  lemma DialogClassJoinsWords(flags: Flags)
    ensures Implode(' ', Texts(DialogWords(flags))) == DialogClass(flags)
  {
    var w0 := [DialogWord];
    assert Texts(w0) == ["dialog"];
    var w1 := w0 + Words(Severity(flags));
    AddWordJoins(w0, "dialog", Severity(flags));
    var c1 := AddWord("dialog", Severity(flags));
    var w2 := w1 + Words(When(DialogModal in flags, ModalWord));
    AddWordJoins(w1, c1, When(DialogModal in flags, ModalWord));
    var c2 := AddWord(c1, When(DialogModal in flags, ModalWord));
    AddWordJoins(w2, c2, When(StateDisabled in flags, DisabledWord));
  }

  /** The class string splits on spaces into exactly its words. */
  lemma DialogClassWords(flags: Flags)
    ensures Explode(' ', DialogClass(flags)) == Texts(DialogWords(flags))
  {
    DialogClassJoinsWords(flags);
    ExplodeImplode(' ', Texts(DialogWords(flags)));
  }

  /** dialog(): a panel with the class and the name, holding one inset of the same name. */
  function Dialog(r: Renderer, name: string, flags: Flags): (w: Widget)
    ensures var eff := flags + r.defaultFlags;
            && w.kind == "panel" && FlagsOf(w) == eff
            && w.attrs.Keys == {"flags", "class", "name"}
            && w.attrs["class"] == TextAttr(DialogClass(eff)) && w.attrs["name"] == TextAttr(name)
            && |w.children| == 1
            && w.children[0] == Named(r, InsetWidget, name, eff)
  {
    var eff := flags + r.defaultFlags;
    var panel := SetAttribute(SetAttribute(Plain(r, PanelWidget, eff), "class", TextAttr(DialogClass(eff))), "name", TextAttr(name));
    var inset := CreateWidget("inset", map["name" := TextAttr(name), "flags" := FlagsAttr(eff)]);
    assert inset == Named(r, InsetWidget, name, eff) by {
      assert eff + r.defaultFlags == eff;
    }
    Insert(panel, inset)
  }

  /** The severity of a dialog: success over warning over error, and never two of them. */
  lemma DialogSeverityPriority(r: Renderer, name: string, flags: Flags)
    ensures var eff := flags + r.defaultFlags;
            var ws := DialogWords(eff);
            && Explode(' ', Dialog(r, name, flags).attrs["class"].text) == Texts(ws)
            && (SuccessWord in ws <==> DialogSuccess in eff)
            && (WarningWord in ws <==> DialogWarning in eff && DialogSuccess !in eff)
            && (ErrorWord in ws <==> DialogError in eff && DialogSuccess !in eff && DialogWarning !in eff)
            && (ModalWord in ws <==> DialogModal in eff)
            && (DisabledWord in ws <==> StateDisabled in eff)
            && forall i, j :: 0 <= i < j < |ws| ==> WordRank(ws[i]) < WordRank(ws[j])
  {
    DialogClassWords(flags + r.defaultFlags);
  }

  // ---------------------------------------------------------------------
  // console() and dateInput()

  /** console(): a read-only, unlabelled, append-only text area of class 'console'. */
  function Console(r: Renderer, name: string, flags: Flags): (w: Widget)
    ensures w.kind == "textArea" && w.children == []
    ensures flags + r.defaultFlags + {StateReadonly, LabelNone} == FlagsOf(w)
    ensures w.attrs.Keys == {"name", "flags", "appendOnly", "class"}
    ensures w.attrs["name"] == TextAttr(name)
    ensures w.attrs["appendOnly"] == BoolAttr(true) && w.attrs["class"] == TextAttr("console")
  {
    var area := Named(r, TextAreaWidget, name, flags + {StateReadonly, LabelNone});
    SetAttribute(SetAttribute(area, "appendOnly", BoolAttr(true)), "class", TextAttr("console"))
  }

  /** dateInput(): a text input named 'date' of class 'Date be', carrying only the default flags. */
  function DateInput(r: Renderer, name: string, flags: Flags): (w: Widget)
    ensures w.kind == "textInput" && w.children == []
    ensures w.attrs.Keys == {"name", "flags", "class"}
    ensures w.attrs["name"] == TextAttr("date") && w.attrs["class"] == TextAttr("Date be")
    ensures FlagsOf(w) == r.defaultFlags
  {
    SetAttribute(Named(r, TextInputWidget, "date", {}), "class", TextAttr("Date be"))
  }

  /** The name and flags given to dateInput() make no difference. */
  lemma DateInputIgnoresArguments(r: Renderer, n1: string, f1: Flags, n2: string, f2: Flags)
    ensures DateInput(r, n1, f1) == DateInput(r, n2, f2)
  {
  }
}

=== FILE: url.dfy ===
/**
 * URL construction of Nethgui_Client_View: buildUrl() normalises a
 * '/'-separated path ('.' and falsy segments dropped, '..' popping the
 * previous segment, a '#' segment taken out as the fragment), prefixes the
 * controller segment and the base URL, and appends query and fragment;
 * buildModuleUrl() prefixes the identifiers of the module's ancestors.
 *
 * NETHGUI_BASEURL and NETHGUI_CONTROLLER are parameters; the query string is
 * taken already encoded, None standing for an empty parameter array.
 */
module Url {
  import opened Wrappers
  import opened Php
  import opened ModuleTree

  /** The segments kept so far and the fragment seen last. */
  datatype Norm = Norm(segments: seq<string>, fragment: string)

  /** A path slice that the loop removes and keeps as the fragment. */
  predicate IsFragment(slice: string) {
    slice != "." && !FalsyString(slice) && slice != ".." && slice[0] == '#'
  }

  /** One pass of the buildUrl() loop. */
  function Step(n: Norm, slice: string): Norm {
    if slice == "." || FalsyString(slice) then n
    else if slice == ".." && |n.segments| > 0 then n.(segments := n.segments[..|n.segments| - 1])
    else if IsFragment(slice) then n.(fragment := slice)
    else n.(segments := n.segments + [slice])
  }

  function NormalizeFrom(n: Norm, slices: seq<string>): Norm
    decreases |slices|
  {
    if |slices| == 0 then n else NormalizeFrom(Step(n, slices[0]), slices[1..])
  }

  lemma {:induction false} NormalizeFromSnoc(n: Norm, slices: seq<string>, x: string)
    ensures NormalizeFrom(n, slices + [x]) == Step(NormalizeFrom(n, slices), x)
    decreases |slices|
  {
    if |slices| > 0 {
      assert (slices + [x])[1..] == slices[1..] + [x];
      NormalizeFromSnoc(Step(n, slices[0]), slices[1..], x);
    }
  }

  /**
   * A normalised path: no '.', empty, '0' or '#' segment, no '/', and '..'
   * only as the first segment (a '..' with nothing to pop is kept literally,
   * and the next '..' pops it).
   */
  predicate Clean(segs: seq<string>) {
    forall k :: 0 <= k < |segs| ==>
      && segs[k] != "." && !FalsyString(segs[k]) && segs[k][0] != '#' && '/' !in segs[k]
      && (segs[k] == ".." ==> k == 0)
  }

  /** The last fragment slice, or '' when there is none. */
  function LastFragment(slices: seq<string>): string
    decreases |slices|
  {
    if |slices| == 0 then ""
    else if IsFragment(slices[|slices| - 1]) then slices[|slices| - 1]
    else LastFragment(slices[..|slices| - 1])
  }

  lemma {:induction false} NormalizeInvariant(slices: seq<string>)
    requires forall k :: 0 <= k < |slices| ==> '/' !in slices[k]
    ensures Clean(NormalizeFrom(Norm([], ""), slices).segments)
    ensures NormalizeFrom(Norm([], ""), slices).fragment == LastFragment(slices)
    decreases |slices|
  {
    if |slices| > 0 {
      var init := slices[..|slices| - 1];
      var x := slices[|slices| - 1];
      assert init + [x] == slices;
      NormalizeInvariant(init);
      NormalizeFromSnoc(Norm([], ""), init, x);
    }
  }

  /** The normalised path: clean segments, and the last '#' slice as the fragment. */
  function Normalize(slices: seq<string>): (n: Norm)
    requires forall k :: 0 <= k < |slices| ==> '/' !in slices[k]
    ensures Clean(n.segments)
    ensures n.fragment == LastFragment(slices)
  {
    NormalizeInvariant(slices);
    NormalizeFrom(Norm([], ""), slices)
  }

  /** An ordinary segment: kept as it is by the normalisation. */
  predicate Plain(seg: string) {
    seg != "." && seg != ".." && !FalsyString(seg) && seg[0] != '#' && '/' !in seg
  }

  /** A '..' right after an ordinary segment cancels it. */
  lemma DotDotCancels(n: Norm, a: string)
    requires a != "." && a != ".." && !FalsyString(a) && a[0] != '#'
    ensures Step(Step(n, a), "..") == n
  {
    assert (n.segments + [a])[..|n.segments|] == n.segments;
  }

  /** The loop over two runs of slices is the loop over the second, started where the first ended. */
  lemma {:induction false} NormalizeFromAppend(n: Norm, a: seq<string>, b: seq<string>)
    ensures NormalizeFrom(n, a + b) == NormalizeFrom(NormalizeFrom(n, a), b)
    decreases |a|
  {
    if |a| > 0 {
      assert (a + b)[1..] == a[1..] + b;
      NormalizeFromAppend(Step(n, a[0]), a[1..], b);
    } else {
      assert a + b == b;
    }
  }

  /** No slice of any of the runs contains '/'. */
  predicate NoSlash(slices: seq<string>) {
    forall k :: 0 <= k < |slices| ==> '/' !in slices[k]
  }

  lemma NoSlashJoin(a: seq<string>, b: seq<string>)
    requires NoSlash(a) && NoSlash(b)
    ensures NoSlash(a + b)
  {
    forall k | 0 <= k < |a + b| ensures '/' !in (a + b)[k] {
      if k >= |a| { assert (a + b)[k] == b[k - |a|]; }
    }
  }

  /** A '.' or falsy slice anywhere in the path is dropped: the path normalises as if it were absent. */
  lemma NormalizeDropsEmpty(a: seq<string>, x: string, b: seq<string>)
    requires NoSlash(a) && NoSlash(b) && '/' !in x
    requires x == "." || FalsyString(x)
    ensures NoSlash(a + [x] + b) && NoSlash(a + b)
    ensures Normalize(a + [x] + b) == Normalize(a + b)
  {
    NoSlashJoin(a, [x]);
    NoSlashJoin(a + [x], b);
    NoSlashJoin(a, b);
    var init := Norm([], "");
    NormalizeFromAppend(init, a + [x], b);
    NormalizeFromAppend(init, a, [x]);
    NormalizeFromAppend(init, a, b);
    assert NormalizeFrom(NormalizeFrom(init, a), [x]) == NormalizeFrom(init, a) by {
      assert [x][1..] == [];
    }
  }

  /** An ordinary slice is kept, after the segments kept before it, and the fragment is unchanged. */
  lemma NormalizeKeepsPlain(a: seq<string>, s: string)
    requires NoSlash(a) && Plain(s)
    ensures NoSlash(a + [s])
    ensures Normalize(a + [s]) == Normalize(a).(segments := Normalize(a).segments + [s])
  {
    NoSlashJoin(a, [s]);
    NormalizeFromSnoc(Norm([], ""), a, s);
  }

  /** An ordinary slice followed by '..' leaves the path as it was. */
  lemma NormalizePopsPlain(a: seq<string>, s: string)
    requires NoSlash(a) && Plain(s)
    ensures NoSlash(a + [s, ".."])
    ensures Normalize(a + [s, ".."]) == Normalize(a)
  {
    NoSlashJoin(a, [s, ".."]);
    NormalizeFromSnoc(Norm([], ""), a, s);
    NormalizeFromSnoc(Norm([], ""), a + [s], "..");
    assert a + [s] + [".."] == a + [s, ".."];
    DotDotCancels(NormalizeFrom(Norm([], ""), a), s);
  }

  /**
   * A '..' slice drops the last kept segment, whatever slice put it there;
   * with no segment kept, the '..' itself is kept.
   */
  lemma NormalizeDotDot(a: seq<string>)
    requires NoSlash(a)
    ensures NoSlash(a + [".."])
    ensures Normalize(a + [".."]) ==
              var n := Normalize(a);
              if |n.segments| > 0 then n.(segments := n.segments[..|n.segments| - 1])
              else n.(segments := [".."])
  {
    NoSlashJoin(a, [".."]);
    NormalizeFromSnoc(Norm([], ""), a, "..");
  }

  /** A '#' slice leaves the segments alone and becomes the fragment. */
  lemma NormalizeTakesFragment(a: seq<string>, f: string)
    requires NoSlash(a) && IsFragment(f) && '/' !in f
    ensures NoSlash(a + [f])
    ensures Normalize(a + [f]) == Normalize(a).(fragment := f)
  {
    NoSlashJoin(a, [f]);
    NormalizeFromSnoc(Norm([], ""), a, f);
  }

  lemma {:induction false} CleanIsFixedPoint(segs: seq<string>, i: nat, f: string)
    requires Clean(segs) && i <= |segs|
    ensures NormalizeFrom(Norm(segs[..i], f), segs[i..]) == Norm(segs, f)
    decreases |segs| - i
  {
    if i < |segs| {
      assert segs[..i] + [segs[i]] == segs[..i + 1];
      assert segs[i..][1..] == segs[i + 1..];
      CleanIsFixedPoint(segs, i + 1, f);
    } else {
      assert segs[..i] == segs;
    }
  }

  /** Normalising is idempotent: a normalised path normalises to itself, with no fragment. */
  lemma NormalizeIdempotent(slices: seq<string>)
    requires forall k :: 0 <= k < |slices| ==> '/' !in slices[k]
    ensures Normalize(Normalize(slices).segments) == Norm(Normalize(slices).segments, "")
  {
    var segs := Normalize(slices).segments;
    CleanIsFixedPoint(segs, 0, "");
    assert segs[..0] == [] && segs[0..] == segs;
  }

  /** The path argument: a string, or an array that is imploded with '/' first. */
  datatype PathArg = PathString(s: string) | PathList(parts: seq<string>)

  function Slices(path: PathArg): (slices: seq<string>)
    ensures forall k :: 0 <= k < |slices| ==> '/' !in slices[k]
  {
    match path
    case PathString(s) => Explode('/', s)
    case PathList(parts) => Explode('/', Implode('/', parts))
  }

  /** The segments buildUrl() joins: the controller (when truthy) then the normalised path. */
  function UrlSegments(path: PathArg, controller: string): seq<string> {
    var n := Normalize(Slices(path));
    if FalsyString(controller) then n.segments else [controller] + n.segments
  }

  /** buildUrl(): base, joined segments, '?' and the query when given, then the fragment. */
  function BuildUrl(path: PathArg, query: Option<string>, base: string, controller: string): (url: string)
    ensures url == base + Implode('/', UrlSegments(path, controller))
                   + (if query.Some? then "?" + query.value else "")
                   + LastFragment(Slices(path))
  {
    var n := Normalize(Slices(path));
    var q := match query case Some(qs) => "?" + qs case None => "";
    base + Implode('/', UrlSegments(path, controller)) + q + n.fragment
  }

  /**
   * The path part of a built URL splits back into exactly the normalised
   * segments, controller first.
   */
  lemma UrlPathRoundTrip(path: PathArg, base: string, controller: string)
    requires '/' !in controller
    requires |UrlSegments(path, controller)| >= 1
    requires LastFragment(Slices(path)) == ""
    ensures var url := BuildUrl(path, None, base, controller);
            Explode('/', url[|base|..]) == UrlSegments(path, controller)
  {
    var segs := UrlSegments(path, controller);
    var url := BuildUrl(path, None, base, controller);
    assert url == base + Implode('/', segs);
    assert url[|base|..] == Implode('/', segs);
    ExplodeImplode('/', segs);
  }

  /** The argument of buildModuleUrl() after `empty($path)` and string wrapping. */
  function PathTail(path: PathArg): seq<string> {
    match path
    case PathString(s) => if FalsyString(s) then [] else [s]
    case PathList(parts) => parts
  }

  /**
   * getModuleUrl(): the identifiers from the root down to the view's module,
   * then the given path, built without query. The source's loop has no
   * watchdog, so the module's parent chain must end (within |g| hops).
   */
  function ModuleUrl(g: Tree, m: Mod, path: PathArg, base: string, controller: string): (url: string)
    requires Closed(g) && m in g && Up(g, m, |g|).None?
    ensures forall n: nat :: 1 <= n && Up(g, m, n - 1).Some? && Up(g, m, n).None? ==>
              url == BuildUrl(PathList(PathIds(g, m, n) + PathTail(path)), None, base, controller)
    ensures ModulePathWalk(g, m).1 ==>
              url == BuildUrl(PathList(ModulePathWalk(g, m).0 + PathTail(path)), None, base, controller)
  {
    LineageIsModulePath(g, m, |g|);
    var p := Lineage(g, m, |g|);
    forall n: nat | 1 <= n && Up(g, m, n - 1).Some? && Up(g, m, n).None?
      ensures PathIds(g, m, n) == p
    {
      ChainLengthUnique(g, m, n, |p|);
    }
    BuildUrl(PathList(Lineage(g, m, |g|) + PathTail(path)), None, base, controller)
  }

  // ---------------------------------------------------------------------
  // Worked cases

  /** `x/./y/../z` normalises to `x/z`. */
  lemma DotAndDotDotExample()
    ensures Normalize(["x", ".", "y", "..", "z"]) == Norm(["x", "z"], "")
  {
  }

  /** A leading '..' is kept; a second '..' pops it. */
  lemma LeadingDotDotExample()
    ensures Normalize([".."]) == Norm([".."], "")
    ensures Normalize(["..", ".."]) == Norm([], "")
  {
  }

  /** A '#' slice leaves the path as the fragment; a '0' slice is dropped. */
  lemma FragmentNormalizeExample()
    ensures Normalize(["a", "#top", "0", "b"]) == Norm(["a", "b"], "#top")
  {
    assert Step(Norm([], ""), "a") == Norm(["a"], "");
    assert Step(Norm(["a"], ""), "#top") == Norm(["a"], "#top");
    assert Step(Norm(["a"], "#top"), "0") == Norm(["a"], "#top");
    assert Step(Norm(["a"], "#top"), "b") == Norm(["a", "b"], "#top");
  }

  /** A fragment between two ordinary segments leaves the path and becomes the fragment. */
  lemma FragmentBetween(a: string, frag: string, b: string)
    requires Plain(a) && Plain(b) && IsFragment(frag) && '/' !in frag
    ensures Normalize([a, frag, b]) == Norm([a, b], frag)
  {
    var parts := [a, frag, b];
    assert parts[1..] == [frag, b] && [frag, b][1..] == [b] && [b][1..] == [];
    assert Step(Norm([a], frag), b) == Norm([a, b], frag);
    assert NormalizeFrom(Norm([a], frag), [b]) == Norm([a, b], frag);
    assert Step(Norm([a], ""), frag) == Norm([a], frag);
    assert NormalizeFrom(Norm([a], ""), [frag, b]) == Norm([a, b], frag);
    assert Step(Norm([], ""), a) == Norm([a], "");
  }

  /** The fragment is taken out of the path and appended after the query. */
  lemma FragmentAfterQuery(a: string, frag: string, b: string, q: string)
    requires Plain(a) && Plain(b) && IsFragment(frag) && '/' !in frag
    ensures BuildUrl(PathList([a, frag, b]), Some(q), "/", "") == "/" + a + "/" + b + "?" + q + frag
  {
    var parts := [a, frag, b];
    ExplodeImplode('/', parts);
    assert Slices(PathList(parts)) == parts;
    FragmentBetween(a, frag, b);
    assert UrlSegments(PathList(parts), "") == [a, b];
    assert Implode('/', [a, b]) == a + "/" + b by {
      assert [a, b][1..] == [b];
    }
  }
}

=== FILE: view.dfy ===
/**
 * Nethgui_Client_View: the output data of one module as an ordered PHP
 * array (ArrayAccess over `$data`), child views registered in it, and the
 * module path memoised in `$modulePath` from which unique ids are built.
 *
 * A view refers to its module through the module tree; the translator and
 * the template name are not modelled. Child views are values here: a child
 * registered in a parent is a copy, so a caller that fills the child later
 * stores it again (as ListComposite.PrepareView does).
 */
module ClientView {
  import opened Wrappers
  import opened Php
  import opened PhpArray
  import opened ModuleTree

  datatype Entry = Scalar(value: Value) | Nested(view: View)

  /** The module, the view state, and the memoised module path (None while unset). */
  datatype View = View(owner: Mod, data: Array<Entry>, modulePath: Option<seq<string>>)

  /** The `$offset` argument of the ArrayAccess methods: NULL, an integer or a string. */
  datatype Offset = NullOffset | IntOffset(i: int) | StrOffset(s: string)

  /** A fresh view of a module: no data, no module path yet. */
  function NewView(m: Mod): (v: View)
    ensures v.owner == m && v.modulePath.None?
    ensures Wf(v.data) && |v.data.entries| == 0
  {
    View(m, Empty(), None)
  }

  /**
   * The array key an offset reads, tests or unsets: NULL stands for '',
   * and an integer-like string for the integer.
   */
  function OffsetKey(o: Offset): (k: Key)
    ensures o.NullOffset? ==> k == StrKey("")
    ensures o.IntOffset? ==> k == IntKey(o.i)
    ensures o.StrOffset? ==> k == KeyOf(o.s)
  {
    match o
    case NullOffset => KeyOf("")
    case IntOffset(i) => IntKey(i)
    case StrOffset(s) => KeyOf(s)
  }

  /** offsetExists(): array_key_exists(). */
  function OffsetExists(v: View, o: Offset): (b: bool)
    ensures b <==> exists i :: 0 <= i < |v.data.entries| && v.data.entries[i].0 == OffsetKey(o)
  {
    HasKey(v.data, OffsetKey(o))
  }

  /** offsetGet(): the stored entry, or NULL when the offset does not exist. */
  function OffsetGet(v: View, o: Offset): (e: Entry)
    ensures OffsetExists(v, o) ==> Some(e) == Get(v.data, OffsetKey(o))
    ensures !OffsetExists(v, o) ==> e == Scalar(Null)
  {
    match Get(v.data, OffsetKey(o))
    case Some(e) => e
    case None => Scalar(Null)
  }

  /**
   * offsetSet(): a NULL offset appends under the next free integer key;
   * any other offset stores under its key, in place when it exists.
   */
  function OffsetSet(v: View, o: Offset, e: Entry): (r: View)
    requires Wf(v.data)
    ensures Wf(r.data) && r.owner == v.owner && r.modulePath == v.modulePath
    ensures o.NullOffset? ==>
              && !OffsetExists(v, IntOffset(v.data.nextFree))
              && OffsetGet(r, IntOffset(v.data.nextFree)) == e
              && Keys(r.data) == Keys(v.data) + [IntKey(v.data.nextFree)]
              && forall k :: k != IntKey(v.data.nextFree) ==> Get(r.data, k) == Get(v.data, k)
    ensures !o.NullOffset? ==>
              && OffsetGet(r, o) == e
              && (OffsetExists(v, o) ==> Keys(r.data) == Keys(v.data))
              && (!OffsetExists(v, o) ==> Keys(r.data) == Keys(v.data) + [OffsetKey(o)])
              && forall k :: k != OffsetKey(o) ==> Get(r.data, k) == Get(v.data, k)
  {
    match o
    case NullOffset => v.(data := Append(v.data, e))
    case _ => v.(data := Put(v.data, OffsetKey(o), e))
  }

  /** offsetUnset(): drops the entry under the offset's key, if any. */
  function OffsetUnset(v: View, o: Offset): (r: View)
    requires Wf(v.data)
    ensures Wf(r.data) && r.owner == v.owner && r.modulePath == v.modulePath
    ensures !OffsetExists(r, o) && OffsetGet(r, o) == Scalar(Null)
    ensures forall k :: k != OffsetKey(o) ==> Get(r.data, k) == Get(v.data, k)
  {
    v.(data := Remove(v.data, OffsetKey(o)))
  }

  /** A value stored under an offset is what offsetGet() then returns. */
  lemma SetThenGet(v: View, o: Offset, e: Entry)
    requires Wf(v.data) && !o.NullOffset?
    ensures OffsetExists(OffsetSet(v, o, e), o)
    ensures OffsetGet(OffsetSet(v, o, e), o) == e
  {
  }

  /** Storing then unsetting an offset leaves the lookups of unsetting alone. */
  lemma SetThenUnset(v: View, o: Offset, e: Entry)
    requires Wf(v.data) && !o.NullOffset?
    ensures forall k :: Get(OffsetUnset(OffsetSet(v, o, e), o).data, k) == Get(OffsetUnset(v, o).data, k)
  {
    var a := OffsetUnset(OffsetSet(v, o, e), o);
    var b := OffsetUnset(v, o);
    forall k ensures Get(a.data, k) == Get(b.data, k) {
      if k == OffsetKey(o) {
        assert !HasKey(a.data, k) && !HasKey(b.data, k);
      }
    }
  }

  /**
   * `$view[] = x` is invisible to `$view[NULL]`: the append goes under an
   * integer key while a NULL offset reads the key ''.
   */
  lemma AppendNotAtNullOffset(v: View, e: Entry)
    requires Wf(v.data)
    ensures OffsetExists(OffsetSet(v, NullOffset, e), NullOffset) == OffsetExists(v, NullOffset)
    ensures OffsetGet(OffsetSet(v, NullOffset, e), NullOffset) == OffsetGet(v, NullOffset)
  {
    var r := OffsetSet(v, NullOffset, e);
    assert Get(r.data, StrKey("")) == Get(v.data, StrKey(""));
  }

  // ---------------------------------------------------------------------
  // copyFrom

  /** A key as a PHP array can hold it: a string key is never integer-like. */
  predicate NormalKey(k: Key) {
    k.StrKey? ==> ParseCanonicalInt(k.s).None?
  }

  /** The offset foreach hands over for an array key. */
  function KeyOffset(k: Key): (o: Offset)
    ensures NormalKey(k) ==> OffsetKey(o) == k
  {
    match k
    case IntKey(i) => IntOffset(i)
    case StrKey(s) => StrOffset(s)
  }

  /** The entries of a PHP array: unique keys, none of them an integer-like string. */
  predicate ArrayEntries(es: seq<(Key, Entry)>) {
    UniqueKeys(es) && forall i :: 0 <= i < |es| ==> NormalKey(es[i].0)
  }

  /** The entries after the first are entries too, and none shares the first one's key. */
  lemma TailEntries(es: seq<(Key, Entry)>)
    requires ArrayEntries(es) && |es| > 0
    ensures ArrayEntries(es[1..])
    ensures forall i :: 1 <= i < |es| ==> es[1..][i - 1] == es[i] && es[i].0 != es[0].0
  {
  }

  /**
   * copyFrom(): offsetSet() of every entry of the source in its order.
   * Afterwards every source key holds the source's value and every other
   * key is as it was.
   */
  function CopyFrom(v: View, es: seq<(Key, Entry)>): (r: View)
    requires Wf(v.data) && ArrayEntries(es)
    ensures Wf(r.data) && r.owner == v.owner && r.modulePath == v.modulePath
    ensures forall i :: 0 <= i < |es| ==> Get(r.data, es[i].0) == Some(es[i].1)
    ensures forall k :: (forall i :: 0 <= i < |es| ==> es[i].0 != k) ==> Get(r.data, k) == Get(v.data, k)
    decreases |es|
  {
    if |es| == 0 then v
    else
      var v1 := OffsetSet(v, KeyOffset(es[0].0), es[0].1);
      TailEntries(es);
      CopyFrom(v1, es[1..])
  }

  // ---------------------------------------------------------------------
  // spawnView

  /** The `$register` argument: TRUE, a string, or anything else. */
  datatype Register = NoRegister | ByIdentifier | ByKey(key: string)

  /**
   * spawnView(): a fresh view of the module; with TRUE it is stored in this
   * view under the module's identifier, with a string under that string,
   * otherwise this view is unchanged.
   */
  function SpawnView(g: Tree, v: View, m: Mod, register: Register): (r: (View, View))
    requires Wf(v.data) && m in g
    ensures r.1 == NewView(m)
    ensures register.NoRegister? ==> r.0 == v
    ensures register.ByIdentifier? ==> r.0 == OffsetSet(v, StrOffset(g[m].identifier), Nested(r.1))
    ensures register.ByKey? ==> r.0 == OffsetSet(v, StrOffset(register.key), Nested(r.1))
    ensures !register.NoRegister? ==> Wf(r.0.data)
  {
    var child := NewView(m);
    match register
    case NoRegister => (v, child)
    case ByIdentifier => (OffsetSet(v, StrOffset(g[m].identifier), Nested(child)), child)
    case ByKey(s) => (OffsetSet(v, StrOffset(s), Nested(child)), child)
  }

  /** A registered child is found under its identifier. */
  lemma SpawnRegistersChild(g: Tree, v: View, m: Mod)
    requires Wf(v.data) && m in g
    ensures var (p, c) := SpawnView(g, v, m, ByIdentifier);
            OffsetGet(p, StrOffset(g[m].identifier)) == Nested(c)
  {
  }

  // ---------------------------------------------------------------------
  // getModulePath

  datatype PathError = TooManyNestedModules

  /**
   * getModulePath() as written: the cache is set to an empty array before
   * the walk, so when the watchdog throws, the 20 identifiers collected so
   * far stay cached and the next call returns them as the path.
   */
  function GetModulePath(g: Tree, v: View): (r: (View, Result<seq<string>, PathError>))
    requires Closed(g) && v.owner in g
    ensures v.modulePath.Some? ==> r == (v, Ok(v.modulePath.value))
    ensures v.modulePath.None? ==> r.0 == v.(modulePath := Some(ModulePathWalk(g, v.owner).0))
    ensures v.modulePath.None? ==> (r.1.Ok? <==> Up(g, v.owner, 20).None?)
    ensures v.modulePath.None? && r.1.Ok? ==>
              && r.0 == v.(modulePath := Some(r.1.value))
              && 1 <= |r.1.value| <= 20
              && Up(g, v.owner, |r.1.value| - 1).Some?
              && r.1.value == PathIds(g, v.owner, |r.1.value|)
              && Up(g, v.owner, |r.1.value|).None?
  {
    match v.modulePath
    case Some(p) => (v, Ok(p))
    case None =>
      var (p, ok) := ModulePathWalk(g, v.owner);
      (v.(modulePath := Some(p)), if ok then Ok(p) else Err(TooManyNestedModules))
  }

  /**
   * getModulePath() as intended: the path is cached only when the walk
   * reaches the root, so a cyclic or too deep chain fails on every call.
   */
  function GetModulePathChecked(g: Tree, v: View): (r: (View, Result<seq<string>, PathError>))
    requires Closed(g) && v.owner in g
    ensures v.modulePath.Some? ==> r == (v, Ok(v.modulePath.value))
    ensures v.modulePath.None? && r.1.Ok? ==>
              && r.0 == v.(modulePath := Some(r.1.value))
              && 1 <= |r.1.value| <= 20
              && Up(g, v.owner, |r.1.value| - 1).Some?
              && r.1.value == PathIds(g, v.owner, |r.1.value|)
              && Up(g, v.owner, |r.1.value|).None?
    ensures v.modulePath.None? && r.1.Err? ==> r.0 == v
    ensures v.modulePath.None? ==> (r.1.Ok? <==> Up(g, v.owner, 20).None?)
  {
    match v.modulePath
    case Some(p) => (v, Ok(p))
    case None =>
      var (p, ok) := ModulePathWalk(g, v.owner);
      if ok then (v.(modulePath := Some(p)), Ok(p)) else (v, Err(TooManyNestedModules))
  }

  /**
   * The code as written and the intended cache differ only after a failed
   * walk: on a view whose path is not cached yet, a call that succeeds in
   * either returns the same root-first path and caches it in the same way.
   */
  lemma GetModulePathAgrees(g: Tree, v: View, n: nat)
    requires Closed(g) && v.owner in g && v.modulePath.None?
    requires 1 <= n && Up(g, v.owner, n - 1).Some? && Up(g, v.owner, n).None?
    requires n <= 20
    ensures GetModulePath(g, v) == GetModulePathChecked(g, v)
    ensures GetModulePath(g, v) == (v.(modulePath := Some(PathIds(g, v.owner, n))), Ok(PathIds(g, v.owner, n)))
  {
    UpNoneStays(g, v.owner, n, 20);
    var p := GetModulePath(g, v).1.value;
    ChainLengthUnique(g, v.owner, n, |p|);
  }

  /** The cached path, if any, is the module's root-to-self path. */
  ghost predicate PathCoherent(g: Tree, v: View)
    requires Closed(g) && v.owner in g
  {
    v.modulePath.Some? ==> ModulePathWalk(g, v.owner) == (v.modulePath.value, true)
  }

  /**
   * The intended getModulePath() keeps the cache coherent and answers
   * every call alike: the root-to-self identifiers, or the same failure.
   */
  lemma ModulePathMemoised(g: Tree, v: View)
    requires Closed(g) && v.owner in g && PathCoherent(g, v)
    ensures var (v1, r1) := GetModulePathChecked(g, v);
            && PathCoherent(g, v1)
            && (r1.Ok? <==> ModulePathWalk(g, v.owner).1)
            && (r1.Ok? ==> r1.value == ModulePathWalk(g, v.owner).0)
            && GetModulePathChecked(g, v1).1 == r1
  {
  }

  /** A module whose parent is itself. */
  function SelfLoop(): (g: Tree)
    ensures Closed(g) && Mod(0) in g
  {
    map[Mod(0) := Node("loop", Some(Mod(0)))]
  }

  /**
   * As written, the second call on a cyclic module no longer fails: it
   * returns the 20 identifiers cached before the first call threw.
   */
  lemma PartialPathCachedOnCycle()
    ensures var g := SelfLoop();
            var (v1, r1) := GetModulePath(g, NewView(Mod(0)));
            && r1.Err?
            && GetModulePath(g, v1).1.Ok?
            && |GetModulePath(g, v1).1.value| == 20
            && !PathCoherent(g, v1)
  {
    var g := SelfLoop();
    assert Up(g, Mod(0), 1) == Some(Mod(0));
    CycleTripsWatchdog(g, Mod(0), 1);
  }

  /** With the intended definition the same cyclic module fails on every call. */
  lemma CycleFailsEveryCall()
    ensures var g := SelfLoop();
            var (v1, r1) := GetModulePathChecked(g, NewView(Mod(0)));
            && r1.Err? && v1 == NewView(Mod(0))
            && GetModulePathChecked(g, v1).1.Err?
  {
    var g := SelfLoop();
    assert Up(g, Mod(0), 1) == Some(Mod(0));
    CycleTripsWatchdog(g, Mod(0), 1);
  }

  // ---------------------------------------------------------------------
  // getUniqueId

  /** The `$parts` argument: a string, or an array of strings. */
  datatype Parts = PartsString(s: string) | PartsList(items: seq<string>)

  /** `empty($parts)`. */
  predicate EmptyParts(parts: Parts) {
    match parts
    case PartsString(s) => FalsyString(s)
    case PartsList(items) => |items| == 0
  }

  /** The text after the path: the string itself, or the items joined by '_'. */
  function Suffix(parts: Parts): string {
    match parts
    case PartsString(s) => s
    case PartsList(items) => Implode('_', items)
  }

  /**
   * The id getUniqueId() builds from a module path: the path joined by '_',
   * then, unless the parts are empty, '_' and the parts joined by '_' with
   * every '/' turned into '_'.
   */
  function UniqueId(path: seq<string>, parts: Parts): (id: string)
    ensures EmptyParts(parts) ==> id == Implode('_', path)
    ensures !EmptyParts(parts) ==>
              var prefix := Implode('_', path);
              var suffix := Suffix(parts);
              && |id| == |prefix| + 1 + |suffix|
              && id[..|prefix|] == prefix
              && id[|prefix|] == '_'
              && (forall k :: 0 <= k < |suffix| && suffix[k] != '/' ==> id[|prefix| + 1 + k] == suffix[k])
              && (forall k :: 0 <= k < |suffix| && suffix[k] == '/' ==> id[|prefix| + 1 + k] == '_')
  {
    var prefix := Implode('_', path);
    if EmptyParts(parts) then prefix
    else
      var id := prefix + "_" + ReplaceChar('/', '_', Suffix(parts));
      assert id[..|prefix|] == prefix;
      assert id[|prefix| + 1..] == ReplaceChar('/', '_', Suffix(parts));
      id
  }

  /** With a string, the id is the path and the string's '/'-separated segments, all joined by '_'. */
  lemma UniqueIdJoinsString(path: seq<string>, s: string)
    requires |path| >= 1 && !FalsyString(s)
    ensures UniqueId(path, PartsString(s)) == Implode('_', path + Explode('/', s))
  {
    var pieces := Explode('/', s);
    ReplaceIsRejoin('/', '_', s);
    ImplodeAppend('_', path, pieces);
  }

  /** With an array of '/'-free items, the id is the path and the items, all joined by '_'. */
  lemma UniqueIdJoinsList(path: seq<string>, items: seq<string>)
    requires |path| >= 1 && |items| >= 1
    requires forall k :: 0 <= k < |items| ==> '/' !in items[k]
    ensures UniqueId(path, PartsList(items)) == Implode('_', path + items)
  {
    var suffix := Implode('_', items);
    ImplodeAvoids('_', '/', items);
    assert ReplaceChar('/', '_', suffix) == suffix;
    ImplodeAppend('_', path, items);
  }

  /**
   * With no '_' in the path's identifiers or in a string suffix, splitting
   * the id at '_' gives back the path followed by the suffix's '/' segments.
   */
  lemma UniqueIdSplitsString(path: seq<string>, s: string)
    requires |path| >= 1 && forall k :: 0 <= k < |path| ==> '_' !in path[k]
    requires !FalsyString(s) && '_' !in s
    ensures Explode('_', UniqueId(path, PartsString(s))) == path + Explode('/', s)
  {
    var pieces := Explode('/', s);
    UniqueIdJoinsString(path, s);
    ExplodeAvoids('/', '_', s);
    var all := path + pieces;
    assert forall k :: 0 <= k < |all| ==> '_' !in all[k] by {
      forall k | 0 <= k < |all| ensures '_' !in all[k] {
        if k >= |path| { assert all[k] == pieces[k - |path|]; }
      }
    }
    ExplodeImplode('_', all);
  }

  /**
   * With no '_' or '/' in the path's identifiers and the suffix items,
   * splitting the id at '_' gives back the path followed by the items.
   */
  lemma UniqueIdSplitsList(path: seq<string>, items: seq<string>)
    requires |path| >= 1 && forall k :: 0 <= k < |path| ==> '_' !in path[k]
    requires |items| >= 1 && forall k :: 0 <= k < |items| ==> '_' !in items[k] && '/' !in items[k]
    ensures Explode('_', UniqueId(path, PartsList(items))) == path + items
  {
    UniqueIdJoinsList(path, items);
    var all := path + items;
    assert forall k :: 0 <= k < |all| ==> '_' !in all[k] by {
      forall k | 0 <= k < |all| ensures '_' !in all[k] {
        if k >= |path| { assert all[k] == items[k - |path|]; }
      }
    }
    ExplodeImplode('_', all);
  }

  /**
   * getUniqueId(): the id built from the view's module path, through
   * getModulePath() as written, so a path cached by a failed walk is used.
   */
  function GetUniqueId(g: Tree, v: View, parts: Parts): (r: (View, Result<string, PathError>))
    requires Closed(g) && v.owner in g
    ensures r.0 == GetModulePath(g, v).0
    ensures r.1.Ok? <==> GetModulePath(g, v).1.Ok?
    ensures r.1.Ok? ==> r.1.value == UniqueId(GetModulePath(g, v).1.value, parts)
  {
    var (v1, p) := GetModulePath(g, v);
    match p
    case Ok(path) => (v1, Ok(UniqueId(path, parts)))
    case Err(e) => (v1, Err(e))
  }

  /** getUniqueId() over the intended getModulePath(): a cyclic chain fails on every call. */
  function GetUniqueIdChecked(g: Tree, v: View, parts: Parts): (r: (View, Result<string, PathError>))
    requires Closed(g) && v.owner in g
    ensures r.0 == GetModulePathChecked(g, v).0
    ensures r.1.Ok? <==> GetModulePathChecked(g, v).1.Ok?
    ensures r.1.Ok? ==> r.1.value == UniqueId(GetModulePathChecked(g, v).1.value, parts)
  {
    var (v1, p) := GetModulePathChecked(g, v);
    match p
    case Ok(path) => (v1, Ok(UniqueId(path, parts)))
    case Err(e) => (v1, Err(e))
  }

  /**
   * On a view whose path is not cached yet and whose chain ends within 20
   * modules, the first getUniqueId() as written builds the id from the
   * root-first identifiers and agrees with the intended one.
   */
  lemma GetUniqueIdFirstCall(g: Tree, v: View, parts: Parts, n: nat)
    requires Closed(g) && v.owner in g && v.modulePath.None?
    requires 1 <= n <= 20 && Up(g, v.owner, n - 1).Some? && Up(g, v.owner, n).None?
    ensures GetUniqueId(g, v, parts) == GetUniqueIdChecked(g, v, parts)
    ensures GetUniqueId(g, v, parts).1 == Ok(UniqueId(PathIds(g, v.owner, n), parts))
  {
    GetModulePathAgrees(g, v, n);
  }

  /**
   * As written, the second getUniqueId() on a self-parented module
   * answers with an id built from the 20 identifiers cached by the first,
   * failed, call; the intended version fails again.
   */
  lemma UniqueIdAfterCycle(parts: Parts)
    ensures var g := SelfLoop();
            var (v1, r1) := GetUniqueId(g, NewView(Mod(0)), parts);
            && r1.Err?
            && GetUniqueId(g, v1, parts).1.Ok?
            && GetUniqueId(g, v1, parts).1.value == UniqueId(GetModulePath(g, v1).1.value, parts)
    ensures var g := SelfLoop();
            var (v1, r1) := GetUniqueIdChecked(g, NewView(Mod(0)), parts);
            r1.Err? && GetUniqueIdChecked(g, v1, parts).1.Err?
  {
    PartialPathCachedOnCycle();
    CycleFailsEveryCall();
  }
}

=== FILE: wrappers.dfy ===
/** Option and Result: PHP's NULL returns and thrown exceptions as values. */
module Wrappers {

  /** A value that may be missing, where the source returns or holds NULL. */
  datatype Option<T> = None | Some(value: T)

  /** The outcome of an operation that may throw: the value, or the exception. */
  datatype Result<T, E> = Ok(value: T) | Err(error: E)
}
